=== FILE: README.md ===
# vabna in Dafny

A model of the interpreter pipeline of vabna, a small Bengali-flavoured
scripting language written in Go. The pipeline runs from bytes to tokens,
then to a syntax tree, then to a value. The model covers each stage:

- the keyword table and token kinds (`token.go`);
- the byte-by-byte scanner (`lexer.go`);
- the fully parenthesised text rendering of the syntax tree (`ast.go`);
- the Pratt parser with its precedence table and error list (`parser.go`),
  both as the program runs it, with two copies of the parser state, and as
  evidently intended, with one;
- the runtime values (`object.go`);
- the tree-walking evaluator with closures and identity `==` (`evaluator.go`);
- the five builtins `len`, `first`, `last`, `rest` and `push` (`builtins.go`).

Everything is a pure function over immutable datatypes.

| module (file) | models |
|---|---|
| `Outcomes` (outcome.dfy) | how a Go computation ends: a value, a runtime panic (with its reason), a loop that never ends, or an exhausted call budget |
| `GoInt` (goint.dfy) | `int64` wrap-around, Go's truncating `/`, `%d` and `strconv.ParseInt(lit, 0, 64)` |
| `Token` (token.dfy) | token kinds, `Keywords`, `LookupIdent` |
| `Lexer` (lexer.dfy) | `NextToken` as a function from a cursor position to a token and the next position; the token stream |
| `Ast` (ast.dfy) | the node types, `TokenLit`, `ToString` |
| `Parser` (parser.dfy) | the parser on one state: `parseExpr` and its handlers, the statement parsers, `ParseProg` with the program's `stmt != nil` test and corrected |
| `ParserAsWritten` (parser_as_written.dfy) | the parser as `NewParser` builds it: statements on the returned copy, expression handlers on the local it was copied from, one shared lexer |
| `Objects` (object.dfy) | the value variants, type tags, `Inspect`, pointer identity |
| `Env` (env.dfy) | environments as an arena of frames: `Get`, `Set`, `NewEnclosedEnv` |
| `Builtins` (builtins.dfy) | the builtins table |
| `Evaluator` (evaluator.dfy) | `Eval` and its helpers |
| `EvalProperties` (evalprops.dfy) | properties that relate several evaluations |

Design decisions:

- **Strings.** Go strings are byte strings. `string(ch)` on a byte yields the
  code point of the same number. The model's strings are therefore sequences
  of code points, and `len` of a string is the length of its UTF-8 encoding
  (section 3 of RFC 3629).
- **The parser's input.** The parser reads a pre-lexed token list. Past the
  end of the list it sees EOF, just as the Go lexer keeps returning EOF. The
  skip loops of `let` and `return` never stop at EOF; when no `;` follows,
  the model reports `Hang`.
- **Parse errors.** The parser records errors as tagged values
  (`ParseError`). `Message` formats them in the program's wording.
- **Runtime errors.** Evaluator errors are tagged values (`ErrorMsg`), not
  formatted strings.
- **Panics.** A Go runtime panic is `Panic(reason)`. This covers a method
  call on nil, an argument list indexed past its end, and division by zero.
- **Heap objects.** Arrays, functions and return values carry an abstract
  identity drawn from a counter. `==` on them compares identities.
  `TRUE`, `FALSE` and `NULL` are singletons, so for them identity is
  equality.
- **Environments.** Every environment is a frame in one growing arena. A
  frame names its parent by index, and a parent always comes before its
  child (`Env.WellFormed`).
- **Call budget.** `Eval` carries `fuel`, and each call of a user function
  spends one unit. Running out is `OutOfFuel`.
- **Driver.** `Evaluator.Run` lexes a source text, parses it with
  `ParserAsWritten.ParseSource` and evaluates the program, parse errors or
  not, in a fresh environment. These are the steps of `vabna.go` lines
  25-28. `Evaluator.RunCorrected` does the same with the one-state parser.
- **Two parser states.** `NewParser` registers the expression handlers as
  method values of a local `Parser` and returns a copy of it. The statement
  parsers run on the copy (the driver). `parseIdent`, `parseIntegerLit`,
  `parsePrefixExpr` and `parseInfixExpr`, and every `parseExpr` they call,
  run on the local (the handler parser). Both pull from one lexer, so a
  token that one of them reads is never seen by the other. `GetErrors`
  returns only the driver's errors. `ParserAsWritten` models this. The
  module `Parser` is the one-state parser the code evidently intends, and
  `ParserAsWritten` reuses its handlers on the handler parser's view of the
  token stream.

## Model

| member | source | states |
|---|---|---|
| Token.LookupIdent | token/token.go:92-98 | the result is IDENT exactly when the string is not a key of `Keywords`; otherwise it is the table's kind, and that kind is a keyword kind |
| Token.KeywordValuesAreKeywordKinds | token/token.go:66-90 | every value in the table is one of FUNCTION, LET, TRUE, FALSE, IF, ELSE, RETURN, HOLO, EKTI or TAHOLE, so never IDENT, INT, ILLEGAL or EOF |
| Token.SpellingsOfLet | token/token.go:71-73 | LET is reached by exactly the three spellings "ধরি", "dhori" and "let" |
| Token.SpellingsOfFunction | token/token.go:68-70 | FUNCTION is reached by exactly "কাজ", "kaj" and "fn" |
| Token.SpellingsOfReturn | token/token.go:82-83 | RETURN is reached by exactly "ফেরাও" and "ferau" |
| Token.SpellingsOfBooleans | token/token.go:74-77 | TRUE is reached by exactly "সত্য" and "sotto", FALSE by exactly "মিথ্যা" and "mittha" |
| Token.NameInjective | token/token.go:10-64 | two kinds are equal exactly when their Go constant strings are equal |
| Token.NameReadsBack | token/token.go:10-64 | reading the constant string back gives the kind, so the enumeration loses nothing |
| Token.OperatorNameReadsBack | token/token.go:15-50 | the read-back for the one-character operator kinds |
| Token.WordNameReadsBack | token/token.go:13-63 | the read-back for the kinds whose constant is a word or a two-character operator |
| Token.OneCharOperatorIsItsLiteral | token/token.go:15-50 | each one-character operator kind's string is one character long, identifies the kind among those operators, and is the literal of a token built from it |
| Lexer.SkipSpace | lexer/lexer.go:108-112 | the result is the first position at or after the cursor whose byte is not a space, tab, LF or CR; every byte skipped is one of those |
| Lexer.RunEnd | lexer/lexer.go:124-143 | the end of the maximal run of bytes in the class that starts at the cursor; every byte in the run is inside the input |
| Lexer.OneByteKind | lexer/lexer.go:49-73 | a byte with a single-byte operator kind is that kind's own one-character string |
| Lexer.NewToken | lexer/lexer.go:114-122 | the token has the given kind and a one-character literal whose code is the byte |
| Lexer.TwoBytes | lexer/lexer.go:57-62 | a two-byte operator consumes both bytes, and its literal is those two bytes |
| Lexer.NextToken | lexer/lexer.go:43-106 | every call advances the cursor past the skipped whitespace; at the end of input the token is EOF with an empty literal; otherwise the literal is exactly the visible bytes consumed |
| Lexer.EqualsAndBang | lexer/lexer.go:57-82 | `==` and `!=` are EQEQ and NOT_EQ and consume two bytes; a lone `=` is EQ and a lone `!` is also EQ, with literal "!" |
| Lexer.NulAndIllegal | lexer/lexer.go:83-99 | a NUL byte yields EOF; any byte outside the recognised set yields one ILLEGAL token holding that byte |
| Lexer.IdentifierIsMaximalLetterRun | lexer/lexer.go:89-92 | an identifier token is the maximal run of ASCII letters and underscores at the cursor, classified by the lookup, and the byte after it is not a letter |
| Lexer.IntegerIsMaximalDigitRun | lexer/lexer.go:93-96 | an integer token is the maximal run of digits, of kind INT |
| Lexer.EofForever | lexer/lexer.go:33-41 | once only whitespace is left, every further call yields EOF with an empty literal |
| Lexer.LexMatchesRepeatedNextToken | lexer/lexer.go:43-106 | the padded token list agrees with calling `NextToken` repeatedly, call by call |
| Lexer.LexSpellsInput | lexer/lexer.go:43-112 | the literals of the token stream concatenate to the input with whitespace and NUL bytes removed: no byte is lost or invented |
| Lexer.SkippedSpaceIsInvisible | lexer/lexer.go:108-112 | skipping whitespace drops no visible byte |
| Lexer.VisibleAppend | lexer/lexer.go:108-112 | the visible text of a concatenation is the concatenation of the visible texts |
| Lexer.RunIsVisible | lexer/lexer.go:124-143 | a run of letters or digits is visible text, byte for byte |
| Lexer.NextTokenIntOk | lexer/lexer.go:93-96 | an INT token's literal is a non-empty string of digits |
| Lexer.LexIntLiterals | lexer/lexer.go:93-96 | every INT token of a stream has a non-empty digit literal |
| Lexer.TokenizeIntLiterals | lexer/lexer.go:27-31 | every INT token the program's lexer produces has a non-empty digit literal |
| Lexer.LookupIdentClassifiesWords | token/token.go:92-98 | `LookupIdent` sends every string to IDENT or to a keyword kind |
| Ast.ProgramTokenLit | ast/ast.go:30-38 | an empty program's literal is empty; otherwise it is the first statement's token literal, for a `let`, `return`, expression or block statement alike |
| Ast.StmtsStringAppend | ast/ast.go:40-50 | a program renders as the concatenation of its statements' renderings, in order |
| Ast.RenderingIsFullyParenthesised | ast/ast.go:168-200 | in an operator tree (identifiers, integer and boolean literals, prefix and infix nodes, with no parenthesis in any token text and no nil operand), every operator node renders as one balanced parenthesised group and every leaf renders without parentheses |
| Ast.EnclosePrefix | ast/ast.go:168-177 | `"(" + op + right + ")"` is one parenthesised group when the operand is balanced |
| Ast.EncloseInfix | ast/ast.go:190-200 | `"(" + left + " " + op + " " + right + ")"` is one parenthesised group when the operands are balanced |
| Ast.OperatorTreeRenderable | ast/ast.go:137-200 | a tree of identifiers, literals and operators can be rendered without touching nil |
| Ast.ExprStrings | ast/ast.go:284-295 | the argument strings of a call are the renderings of the arguments, one for one |
| Ast.LiteralsRenderTheirText | ast/ast.go:154-156 | an integer literal renders as its token text, not its value: `07` and `7` render differently |
| Ast.NilValuesRenderEmpty | ast/ast.go:65-123 | a `let` or `return` with a nil value renders with an empty value part, and an expression statement with a nil expression renders as "" |
| Ast.CallRendering | ast/ast.go:284-295 | any call renders as its callee, then the renderings of all its arguments joined by ", " in parentheses |
| Ast.FunctionRendering | ast/ast.go:260-273 | any function literal renders as its token, the names of all its parameters joined by ", " in parentheses, a space, then its body |
| Ast.JoinSnoc | ast/ast.go:266 | `strings.Join` puts exactly one separator between neighbouring parts: one more part adds one separator and the part |
| Ast.TwoArgumentCall | ast/ast.go:284-295 | `f(a, b)` renders as `f(a, b)` |
| Ast.TwoParameterFunction | ast/ast.go:260-273 | `fn(a, b)` with an empty body renders as `fn(a, b) ` |
| Parser.Prec | parser/parser.go:288-304 | every kind binds between LOWEST and PRODUCT, and a kind without a table entry binds at LOWEST |
| Parser.InfixKindsHavePrecedence | parser/parser.go:24-34 | a kind has an infix handler exactly when it has a table entry, and then it binds between EQUALS and PREFIX |
| Parser.Messages | parser/parser.go:94-98 | a parser state's error list holds the message of each error that state recorded, one for one, in order; which state's list `GetErrors` returns is stated by `ParserAsWritten.ReportedErrorsAreTheDriversOwn` |
| Parser.ParseIntegerLit | parser/parser.go:223-238 | an integer literal never moves the cursor and at most adds errors |
| Parser.IntegerLitOutcome | parser/parser.go:223-238 | a literal that `ParseInt` rejects gives a nil expression and exactly one error; otherwise the node carries the parsed value |
| Parser.ParseExpr | parser/parser.go:189-212 | the cursor only moves forward and stays within the input, and errors are only added |
| Parser.ParsePrefix | parser/parser.go:214-249 | a prefix handler never returns an infix node |
| Parser.ParseInfixLoop | parser/parser.go:198-210 | the infix loop only moves the cursor forward and only adds errors |
| Parser.NoPrefixOutcome | parser/parser.go:184-194 | a token without a prefix handler adds one error, gives a nil expression and leaves the cursor in place |
| Parser.ParseExprSound | parser/parser.go:189-263 | on one parser state, an error-free expression parse yields a tree that respects the precedence table (equal strength associates left, the right operand binds more tightly, a prefix operand is never an infix node) and is built from exactly the tokens consumed, in order |
| Parser.ParseExprGood | parser/parser.go:189-212 | on one parser state, an error-free parse respects the precedence table and stops where the loop's condition fails |
| Parser.ParsePrefixGood | parser/parser.go:240-249 | an error-free prefix parse respects the precedence table |
| Parser.ParseLoopGood | parser/parser.go:198-210 | on one parser state, each round of the loop keeps the tree within the precedence table |
| Parser.LoopStepGood | parser/parser.go:251-263 | one infix step builds a node whose right operand binds more tightly than the operator |
| Parser.ParseExprTokens | parser/parser.go:189-212 | on one parser state, an error-free parse spans the consumed tokens, left to right |
| Parser.ParsePrefixTokens | parser/parser.go:214-249 | an error-free prefix parse spans the consumed tokens |
| Parser.ParseLoopTokens | parser/parser.go:198-210 | on one parser state, the loop extends a spanning tree to a spanning tree |
| Parser.LoopStepTokens | parser/parser.go:251-263 | one infix step spans left operand, operator and right operand in order |
| Parser.SpansIsSlice | parser/parser.go:189-263 | a spanning tree's tokens are the slice of the input it covers |
| Parser.ProductBindsTighter | parser/parser.go:13-34 | on one parser state, `a + b * c` parses as `a + (b * c)` |
| Parser.ProductBindsTighterText | parser/parser.go:13-34 | that tree renders as `(a + (b * c))` |
| Parser.SubtractionAssociatesLeft | parser/parser.go:251-263 | on one parser state, `a - b - c` parses as `(a - b) - c` |
| Parser.PrefixBindsTighter | parser/parser.go:240-249 | on one parser state, `-a * b` parses as `(-a) * b` |
| Parser.EqualsQuirk | parser/parser.go:24-34 | on one parser state, `a = b` parses as an infix node, while `a == b` stops after `a`, because the tables are keyed on EQ |
| Parser.SkipToSemicolon | parser/parser.go:141-143 | the skip loop ends on a `;` inside the input, or never ends |
| Parser.SkipFindsFirstSemicolon | parser/parser.go:163-165 | the skip loop stops at the first `;`, and never ends exactly when there is no `;` left |
| Parser.ParseLetStmt | parser/parser.go:150-170 | a `let` statement never moves the cursor backwards |
| Parser.LetOutcome | parser/parser.go:150-170 | a missing name or a missing `=` records one error and leaves a nil statement; otherwise the statement names the identifier, has no value, and ends on the first `;` |
| Parser.ParseReturnStmt | parser/parser.go:136-148 | a `return` statement ends strictly after its keyword, on a token of the input |
| Parser.ReturnOutcome | parser/parser.go:136-148 | `return` never parses its value, which stays nil; it records no error, ends on the first `;` after the keyword, and never ends exactly when no `;` follows |
| Parser.ParseExprStmt | parser/parser.go:172-182 | an expression statement moves the cursor forward and only adds errors |
| Parser.IdentStmtOutcome | parser/parser.go:172-182 | on one parser state, an identifier followed by `;` is an expression statement ending on the `;` |
| Parser.ParseStmt | parser/parser.go:123-134 | a statement parse ends with a statement or never ends, and does not move backwards |
| Parser.ParseStmtsKeepingNilLets | parser/parser.go:105-121 | the program loop on one parser state, with the program's `stmt != nil` test, ends with a program that extends the statements so far, or never ends |
| Parser.OneCursorKeepsNilLet | parser/parser.go:105-121 | on one parser state with the program's `stmt != nil` test, `let = x;` keeps a nil `let` statement, which cannot be rendered |
| Parser.ParseInfixExpr | parser/parser.go:251-263 | an infix node's operator is the token the parser stands on, its left operand is the one given, and the parser moves past the operator and only adds errors |
| Parser.ParseStmts | parser/parser.go:105-121 | the corrected program loop ends with a program or never ends |
| Parser.CorrectedDropsOnlyNilLets | parser/parser.go:105-121 | the corrected loop ends exactly when the one with the `stmt != nil` test does, with the same errors and the same statements minus the nil ones |
| Parser.ProgramIsAsWrittenWithoutNilLets | parser/parser.go:105-121 | the same, for whole programs |
| Parser.ParsedProgramHasNoNilLet | parser/parser.go:105-121 | a corrected program holds no nil statement |
| Parser.NilLetIsDropped | parser/parser.go:105-121 | the corrected parser gives `let = x;` the same two errors and only the two expression statements |
| Parser.DropNilLets | parser/parser.go:113-115 | removing nil statements leaves no nil statement |
| ParserAsWritten.NewParser | parser/parser.go:52-80 | the returned copy and the local the handlers are bound to start out equal, on the first two tokens, with no errors |
| ParserAsWritten.Advance | parser/parser.go:100-103 | `nextToken` on the driver moves its peek token to current and pulls the lexer's next token; the handler parser is untouched, and the driver's rank falls until only EOF is left |
| ParserAsWritten.HandlerView | parser/parser.go:36-45 | the handler parser reads its own current and peek tokens, then exactly the tokens the shared lexer has not handed out |
| ParserAsWritten.ResumeContinues | parser/parser.go:100-103 | after a handler parse, the handler parser's view is the rest of the view it started from |
| ParserAsWritten.HandlerPrefix | parser/parser.go:189-196 | the prefix handler leaves the driver untouched, never returns an infix node, and leaves the handler parser further along the same stream |
| ParserAsWritten.HandlerInfix | parser/parser.go:199-207 | the infix handler leaves the driver untouched and pulls at least one token; its node's operator is the handler parser's own current token, not the one the driver stepped onto |
| ParserAsWritten.DriverExpr | parser/parser.go:189-212 | `parseExpr` on the driver adds a no-prefix error exactly when the driver's current token has no prefix handler, and no other error |
| ParserAsWritten.DriverLoop | parser/parser.go:198-210 | the driver's loop adds no error to the driver and stops where its own peek token ends the loop |
| ParserAsWritten.SkipToSemicolon | parser/parser.go:141-143 | the driver's skip loop ends on a `;` with its errors unchanged, or never ends |
| ParserAsWritten.SkipHangsExactly | parser/parser.go:163-165 | the skip loop never ends exactly when no `;` is left for the driver |
| ParserAsWritten.ParseLetStmt | parser/parser.go:150-170 | `parseLetStmt` runs on the driver only and leaves the handler parser alone |
| ParserAsWritten.ParseReturnStmt | parser/parser.go:136-148 | `parseReturnStmt` adds no error and ends on a `;`, or never ends |
| ParserAsWritten.ParseExprStmt | parser/parser.go:172-182 | an expression statement carries the driver's current token |
| ParserAsWritten.ParseStmt | parser/parser.go:123-134 | a statement ends or never ends, and the driver's errors only grow, never by an integer error |
| ParserAsWritten.ParseStmts | parser/parser.go:105-121 | the program loop keeps every statement it parses, nil ones included, or never ends |
| ParserAsWritten.ReportedErrorsAreTheDriversOwn | parser/parser.go:82-84 | `GetErrors` never holds an integer error, because `parseIntegerLit` records its errors on the handler parser |
| ParserAsWritten.SkipTracks | parser/parser.go:141-143 | while no expression has been parsed, the driver's skip loop does what the one-state parser's does |
| ParserAsWritten.LetTracks | parser/parser.go:150-170 | a `let` statement on the driver gives the same node and position as on one parser state |
| ParserAsWritten.ReturnTracks | parser/parser.go:136-148 | so does a `return` statement |
| ParserAsWritten.StatementAgrees | parser/parser.go:105-170 | a `let` or `return` statement takes the same step on the driver as on one parser state, and both program loops go on from the same place |
| ParserAsWritten.ExpressionEndsAgreement | parser/parser.go:123-134 | any other statement is an expression statement on both parsers |
| ParserAsWritten.AgreesWithoutExpressions | parser/parser.go:105-134 | until an expression statement is parsed, the program's parser and the one-state parser give the same program and errors |
| ParserAsWritten.ProgramsAgreeWithoutExpressions | parser/parser.go:52-134 | a whole program with no expression statement parses the same on both parsers |
| ParserAsWritten.IdentStmtOutcome | parser/parser.go:172-221 | an identifier followed by `;` builds its node from the handler parser's current token, whatever token that is |
| ParserAsWritten.OnePlusTwoInfix | parser/parser.go:251-263 | on `1 + 2` the infix handler takes `1` as its operator and finds no prefix handler for `+` |
| ParserAsWritten.OnePlusTwoSecond | parser/parser.go:223-238 | the `2` becomes a statement of its own, and `parseIntegerLit` reads the `+`: a nil node and an error `GetErrors` never shows |
| ParserAsWritten.OnePlusTwoOneState | parser/parser.go:189-263 | the one-state parser reads `1 + 2` as one statement `(1 + 2)` with no error |
| ParserAsWritten.OnePlusTwo | parser/parser.go:52-80 | the program parses `1 + 2` as an infix node with operator `1` and no right operand, then a statement holding nil, and reports no error; the one-state parser builds `(1 + 2)` |
| ParserAsWritten.NilLetIsKept | parser/parser.go:105-121 | the program keeps the nil `let` statement of `let = x;`, and its `x` statement names `let` |
| Objects.TypeTagInjective | object/object.go:5-10 | distinct types have distinct tags, so comparing tags is comparing types |
| Objects.IsErrMeansError | evaluator/evaluator.go:199-205 | `isErr` holds exactly for error values |
| Objects.SameObjectSameType | evaluator/evaluator.go:282-285 | two values that are the same object have the same type |
| Objects.InspectIntegerRoundTrip | object/object.go:29-31 | an integer prints as decimal that reads back to its value; a negative one prints a minus sign before its magnitude's digits |
| Objects.InspectBooleanAndNull | object/object.go:39-47 | a boolean prints "true" exactly when it is true, and NULL prints "null" |
| Objects.InspectReturnValue | object/object.go:53-54 | a return value prints as the value it wraps, however deeply nested |
| Objects.Unwrapped | object/object.go:49-54 | the value under all return-value wrappers is not itself a return value |
| Env.Chain | evaluator/evaluator.go:182-184 | the chain of frames a lookup visits starts at the environment and stays inside the arena |
| Env.GetFindsBoundNames | evaluator/evaluator.go:182-184 | a lookup finds a name exactly when some frame of the chain binds it |
| Env.GetFindsFirstBinding | evaluator/evaluator.go:182-184 | a lookup returns the binding of the first frame in the chain that binds the name, so inner bindings shadow outer ones |
| Env.Set | evaluator/evaluator.go:52-58 | `Set` updates only the map of the given frame |
| Env.NewEnclosed | evaluator/evaluator.go:147-149 | a new, empty frame is added at the end, whose parent is the captured environment |
| Env.GetSetSame | evaluator/evaluator.go:52-58 | what `Set` wrote is what `Get` reads back in the same frame |
| Env.GetSetOther | evaluator/evaluator.go:52-58 | binding one name changes no lookup of any other name, from any frame |
| Env.SetInvisibleToEarlierFrames | evaluator/evaluator.go:147-155 | a binding in a frame cannot be seen from the frames before it |
| Env.NewEnclosedKeepsLookups | evaluator/evaluator.go:147-149 | adding a frame changes no lookup from the frames already there |
| Env.NewEnclosedDelegates | evaluator/evaluator.go:147-149 | a new frame delegates every lookup to its parent until something is bound in it |
| Env.LaterBindingVisibleToClosure | evaluator/evaluator.go:61-64 | closures capture their environment by reference: a binding made after the capture is seen from a frame enclosed later |
| Env.SetPreservesWellFormed | evaluator/evaluator.go:52-58 | `Set` keeps every parent before its child |
| Env.NewEnclosedPreservesWellFormed | evaluator/evaluator.go:147-149 | so does adding a frame |
| Builtins.BuiltinOf | evaluator/builtins.go:5-103 | the table's keys are exactly the five spellings, each for its own builtin |
| Builtins.Utf8Length | evaluator/builtins.go:14-15 | a string's `len` is the length of its UTF-8 encoding, between one and four bytes per character |
| Builtins.AsciiLength | evaluator/builtins.go:14-15 | an ASCII string has one byte per character |
| Builtins.EncodeRune | evaluator/builtins.go:14-15 | a character encodes to one to four bytes, and to one byte exactly when it is ASCII |
| Builtins.LenBuiltin | evaluator/builtins.go:7-22 | `len` checks the argument count first, then gives a string's byte length or an array's element count; any other type is an error, and nil panics |
| Builtins.ArrayArgument | evaluator/builtins.go:24-102 | `first`, `last`, `rest` and `push` accept an array as first argument, after the count check; nil panics and any other value is an error |
| Builtins.FirstBuiltin | evaluator/builtins.go:24-40 | `first` gives element 0, or NULL for an empty array |
| Builtins.LastBuiltin | evaluator/builtins.go:42-59 | `last` gives element len-1, or NULL for an empty array |
| Builtins.RestBuiltin | evaluator/builtins.go:61-80 | `rest` gives a new array of all elements but the first, or NULL for an empty array |
| Builtins.PushBuiltin | evaluator/builtins.go:82-102 | `push` gives a new array with the elements and then the second argument, one longer |
| Builtins.ApplyBuiltin | evaluator/builtins.go:5-103 | a wrong argument count is an error value for every builtin; a builtin panics exactly when the count is right and the first argument is nil |
| Builtins.ArrayBuiltinsRejectOthers | evaluator/builtins.go:30-32 | `first`, `last`, `rest` and `push` refuse any non-array |
| Builtins.PushThenLast | evaluator/builtins.go:42-102 | `last` of `push(a, x)` is `x` |
| Builtins.FirstAndRestSplit | evaluator/builtins.go:24-80 | `first` followed by `rest` gives back the array's elements |
| Builtins.RestOfPush | evaluator/builtins.go:61-102 | on a non-empty array, `rest` and `push` commute |
| Evaluator.Bang | evaluator/evaluator.go:350-361 | `!x` is the negation of the truthiness of `x`, as a boolean singleton |
| Evaluator.EvalPrefixOp | evaluator/evaluator.go:330-348 | `!` accepts any value; `-` negates an integer with wrap-around and is an error on any other type; other operators are errors; a nil operand panics except under `!` |
| Evaluator.IntInfix | evaluator/evaluator.go:303-328 | `+` and `*` wrap around, `-` adds, `/` truncates toward zero and panics exactly on a zero divisor, the comparisons give the singletons, any other operator is an error |
| Evaluator.StringInfix | evaluator/evaluator.go:293-301 | strings support only `+`, which concatenates |
| Evaluator.EvalInfixOp | evaluator/evaluator.go:275-291 | two integers or two strings take their own operators; otherwise `==` and `!=` compare identity, and other operators give a type mismatch exactly when the types differ; the exact cases that panic |
| Evaluator.EvalIndexOp | evaluator/evaluator.go:107-130 | an in-range index into an array gives the element, any other integer gives NULL, other pairs are errors, nil panics |
| Evaluator.Unwrap | evaluator/evaluator.go:157-164 | one return-value wrapper is removed, anything else is left alone |
| Evaluator.EvalIdent | evaluator/evaluator.go:182-193 | the environment chain is searched first, then the builtins, then the result is an "id not found" error |
| Evaluator.BindParams | evaluator/evaluator.go:150-152 | binding parameters changes only the new frame, whose names become the old ones plus the parameters |
| Evaluator.BindParamsPositional | evaluator/evaluator.go:150-152 | each parameter name is bound to the argument at the position of its last occurrence |
| Evaluator.ExtendFuncEnv | evaluator/evaluator.go:147-155 | fewer arguments than parameters panics; otherwise a new frame enclosed by the captured environment binds exactly the parameters, positionally |
| Evaluator.ApplyNonFunction | evaluator/evaluator.go:132-145 | a builtin gets the arguments as they are, nil panics, any other value gives "is not a function" |
| Evaluator.EvalExpr | evaluator/evaluator.go:15-103 | evaluating an expression adds frames and identities and changes only the current frame |
| Evaluator.EvalInfix | evaluator/evaluator.go:32-41 | the same for an infix expression |
| Evaluator.EvalCall | evaluator/evaluator.go:65-76 | the same for a call: only the caller's frame and new frames can change |
| Evaluator.ApplyFunction | evaluator/evaluator.go:132-138 | a user function's call changes no frame that existed before it |
| Evaluator.EvalExprs | evaluator/evaluator.go:166-180 | the argument list changes only the current frame |
| Evaluator.EvalStmt | evaluator/evaluator.go:44-58 | a statement changes only the current frame |
| Evaluator.EvalBlock | evaluator/evaluator.go:207-226 | a block opens no scope and changes only the current frame |
| Evaluator.EvalBlockStmts | evaluator/evaluator.go:211-223 | the block loop changes only the current frame |
| Evaluator.EvalProgramStmts | evaluator/evaluator.go:231-240 | the program loop changes only the current frame |
| Evaluator.EvalProgram | evaluator/evaluator.go:228-243 | a program changes only its own frame |
| Evaluator.Run | vabna.go:25-28 | with the program's own parser: a source whose parse never ends never gives a value, and a value means the parse ended, whether or not it recorded errors |
| Evaluator.RunCorrected | vabna.go:25-28 | the same with the one-state parser |
| EvalProperties.ProgramIsUnwrappedBlock | evaluator/evaluator.go:207-243 | a program is a block over the same statements followed by one unwrap: both stop at the same statement on the same signals |
| EvalProperties.ProgramLoopIsUnwrappedBlockLoop | evaluator/evaluator.go:207-243 | the same, for the loops from any statement |
| EvalProperties.SignalEndsBlock | evaluator/evaluator.go:216-221 | after a return value or an error, no later statement of a block runs |
| EvalProperties.LeftErrorFirst | evaluator/evaluator.go:33-36 | an error in the left operand is the result, and the right operand is never evaluated |
| EvalProperties.RightErrorNext | evaluator/evaluator.go:37-40 | an error in the right operand is the result when the left one is fine |
| EvalProperties.IndexLeftErrorIsNil | evaluator/evaluator.go:89-92 | an error in the left side of an index expression is dropped, and the result is nil (on a hand-built tree) |
| EvalProperties.FalsyIfWithoutElseIsNull | evaluator/evaluator.go:245-260 | an `if` with a falsy condition and no `else` gives NULL (on a hand-built tree) |
| EvalProperties.DoubleBang | evaluator/evaluator.go:350-361 | `!!x` is the truthiness of `x` |
| EvalProperties.MinusAdds | evaluator/evaluator.go:310-311 | integer `-` adds: `5 - 3` is 8 |
| EvalProperties.DivisionTruncates | evaluator/evaluator.go:314-315 | `/` rounds toward zero: the remainder has the dividend's sign and is smaller than the divisor |
| EvalProperties.DivisionExample | evaluator/evaluator.go:314-315 | `-7 / 2` is -3, and `7 / 0` panics |
| EvalProperties.ArrayLiteralsAreDistinct | evaluator/evaluator.go:282-283 | `[] == []` is FALSE: two array literals are different objects (on a hand-built tree) |
| EvalProperties.EmptyArrayLiteral | evaluator/evaluator.go:80-86 | `[]` allocates a new, empty array (on a hand-built tree) |
| EvalProperties.LetBindsInCurrentFrame | evaluator/evaluator.go:52-58 | `let` binds the value in the current frame, has no value itself, and leaves every other frame alone (on a hand-built tree) |
| EvalProperties.LetOfErrorBindsNothing | evaluator/evaluator.go:53-56 | a `let` whose value is an error returns the error and binds nothing (on a hand-built tree) |
| EvalProperties.GetReadsEarlierFrames | evaluator/evaluator.go:182-184 | a lookup reads only its own frame and those before it |
| EvalProperties.CallKeepsExistingFrames | evaluator/evaluator.go:132-155 | calling a named function with no arguments changes no frame that existed before, so no outer lookup changes (on a hand-built tree) |
| EvalProperties.BindingShadowsBuiltin | evaluator/evaluator.go:182-191 | a binding hides a builtin of the same name; without one, the builtin is found |
| EvalProperties.EvalExprsShape | evaluator/evaluator.go:166-180 | the argument list ends either as the first error alone, or as one non-error value per argument, in order |
| EvalProperties.ArgumentErrorIsResult | evaluator/evaluator.go:172-174 | an argument that gives an error ends the list with that error alone |
| EvalProperties.ErrorEndsArguments | evaluator/evaluator.go:169-177 | once an error has ended the list, no later argument is evaluated |
| EvalProperties.CalleeErrorIsResult | evaluator/evaluator.go:66-69 | a callee that gives an error is the call's result, and no argument is evaluated (on a hand-built tree) |
| EvalProperties.ArgumentErrorIsCallResult | evaluator/evaluator.go:71-74 | when the callee is fine and an argument gives an error, that error is the call's result and nothing is applied (on a hand-built tree) |
| EvalProperties.CallAppliesFunction | evaluator/evaluator.go:65-76 | once the callee and the arguments evaluate without error, a user function is applied to the argument values (on a hand-built tree) |
| EvalProperties.ApplyRunsBodyInNewFrame | evaluator/evaluator.go:132-138 | a user function's body runs as a block in the frame `extendFuncEnv` makes, and one return-value wrapper is removed (on a hand-built tree) |
| EvalProperties.ReturnInIfIsWrappedOnce | evaluator/evaluator.go:42-49 | a `return` inside an `if` block leaves the enclosing block as one return-value wrapper around its value (on a hand-built tree) |
| EvalProperties.ReturnInsideIfIsUnwrapped | evaluator/evaluator.go:132-164 | a function whose body returns from inside an `if` gives its caller the plain value (on a hand-built tree) |
| EvalProperties.CallBindsParameter | evaluator/evaluator.go:132-155 | `fn(x) { x }(2)` is 2, evaluated in one new frame (on a hand-built tree) |
| EvalProperties.BindOneParameter | evaluator/evaluator.go:147-155 | a one-parameter call's frame binds the parameter to the argument (on a hand-built tree) |
| EvalProperties.TooFewArgumentsPanics | evaluator/evaluator.go:150-152 | calling `fn(x) { x }` with no argument panics (on a hand-built tree) |
| EvalProperties.MissingOperandPanics | evaluator/evaluator.go:275-278 | a program whose first statement is an integer infix node without a right operand dereferences nil |
| EvalProperties.SumIsThree | evaluator/evaluator.go:303-309 | `(1 + 2)` evaluates to 3 |
| EvalProperties.OnePlusTwoPanics | vabna.go:25-28 | `1 + 2` parsed by the program's own parser panics when evaluated; parsed on one state it gives 3 |
| GoInt.Wrap | evaluator/evaluator.go:308-313 | the result is the `int64` congruent to the value modulo 2^64, and the value itself when it fits |
| GoInt.Div64 | evaluator/evaluator.go:314-315 | Go's `int64` division truncates toward zero, and `MinInt64 / -1` wraps to `MinInt64` |
| GoInt.TruncDivRemainder | evaluator/evaluator.go:314-315 | the truncated quotient leaves a remainder with the dividend's sign, smaller than the divisor |
| GoInt.TruncDivInRange | evaluator/evaluator.go:314-315 | every quotient other than `MinInt64 / -1` is within the `int64` range |
| GoInt.NatToDecimal | object/object.go:29-31 | `%d` gives digits only, with no leading zero, and "0" exactly for zero |
| GoInt.ParseIntSpec | parser/parser.go:227 | a leading `0` reads the rest as octal, otherwise decimal; values above `MaxInt64` and non-digit strings fail |
| GoInt.ParseIntInvertsDecimal | parser/parser.go:227 | `ParseInt` reads back what `%d` writes, for every non-negative `int64` |

## Left out

- `repl/repl.go` and the console I/O of `vabna.go`: reading stdin, printing and the user lookup. `Evaluator.Run` stands for lexing, parsing and evaluating one text.
- `number/functions.go`: floating-point arithmetic through `math/big` over a type that is not part of this model.
- The logging calls in the parser have no effect on the result.
- The exact `fmt.Sprintf` text of evaluator errors. Errors are tagged values that carry the operator and the type tags the message shows. Parse errors are formatted by `Parser.Message`.
- `object.Env`, `object.String`, `Array`, `Function`, `Builtin`, `Error` and the `STRING`, `ARRAY`, `FUNCTION`, `BUILTIN` and `ERROR` tags are not part of this model's source files. They are defined from how the evaluator and builtins use them. The same holds for the syntax nodes `Ast.StringLit`, `Ast.ArrLit` and `Ast.Index`, which `ast.go` does not define: their fields come from how `evaluator.go` (lines 78-99) reads them. The five tag strings are given the conventional spellings.
- Unbounded recursion: a call budget (`fuel`) bounds user-function calls. Running out is `OutOfFuel`, which has no counterpart in Go. Deep recursion that would overflow Go's stack is not modelled.
- Evaluator.Run: states only how the parse decides the outcome. What a successful run computes is stated by the members it calls.
- `evalStmts` (evaluator.go:371-383) is never called, and is not modelled.
- GoInt.ParseInt: handles only the non-empty digit strings the scanner can produce. Go's base prefixes `0x`, `0b`, `0o` and underscores cannot reach it.
- Evaluator.EvalIndexOp: does not model the `int64` conversion of `len - 1` for arrays longer than `MaxInt64` elements.
- Objects.SameObject: integers and strings carry no identity, because `==` never compares them by pointer.
- Pointer identity of the evaluator's error values is not modelled. Errors never reach an identity comparison.
- `Evaluator.Run` parses with `ParserAsWritten`, as the program does. `Parser.Parse` and `Evaluator.RunCorrected` use the one-state parser that also drops nil `let` statements (see Findings). The evaluator gives a nil statement the panic that Go's would raise.
- The evaluator properties marked "on a hand-built tree" evaluate syntax trees that neither parser can build. The parser never parses the value of a `let` or a `return`, and it registers no handler for `if`, `fn`, calls, arrays, strings or indexing. Those properties state what `Eval` does with such a tree.
- The properties below are proved for the one-state parser in the module `Parser`. The program's own parser (`ParserAsWritten`, see Findings) does not have them once an expression statement is parsed, because its expression handlers read a second, stale parser state. `ParserAsWritten.OnePlusTwo` shows this on `1 + 2`, and `ParserAsWritten.ProgramsAgreeWithoutExpressions` states how far the two parsers agree.
- Parser.ParseExprSound: holds for the one-state parser only; the program's parser builds infix nodes whose operator is a stale token.
- Parser.ParseExprGood: holds for the one-state parser only.
- Parser.ParseLoopGood: holds for the one-state parser only.
- Parser.ParseExprTokens: holds for the one-state parser only; the program's parser builds trees from tokens the driver never consumed.
- Parser.ParseLoopTokens: holds for the one-state parser only.
- Parser.ProductBindsTighter: holds for the one-state parser only.
- Parser.ProductBindsTighterText: holds for the one-state parser only.
- Parser.SubtractionAssociatesLeft: holds for the one-state parser only.
- Parser.PrefixBindsTighter: holds for the one-state parser only.
- Parser.EqualsQuirk: holds for the one-state parser only.
- Parser.IdentStmtOutcome: holds for the one-state parser only; on the program's parser the identifier node is built from the handler parser's current token (`ParserAsWritten.IdentStmtOutcome`).
- Parser.OneCursorKeepsNilLet: the one-state parser with the program's `stmt != nil` test; the program's own parser also keeps the nil statement but names `let` in the last statement (`ParserAsWritten.NilLetIsKept`).
- Where a natural-language description of the language and the code disagree, the model follows the code:
  - integer division by zero is a runtime panic, not an error value;
  - a call with too few arguments panics when the argument list is indexed, and extra arguments are ignored;
  - a builtin called with a nil first argument panics.
- Ast.ExprString: trees with a nil operand, such as the ones the parser leaves for `-;` or `a + ;` after a "no prefix function" error, make Go's `ToString` panic (ast.go:168-200, 236-250, 284-295). Every rendering member requires `Renderable`, which excludes them, so the model does not state that panic. `Renderable` also excludes `StringLit`, `ArrLit` and `Index`, whose renderings `ast.go` does not define.
- Evaluator.ApplyFunction: its contract states only what a call does to the heap. The value a call returns is stated by `EvalProperties.ApplyRunsBodyInNewFrame`: the body runs as a block in the new frame and one return-value wrapper is removed. A `return` inside an `if` block is wrapped once, so the caller sees the plain value.

## Findings

| source | as written | input that shows it | evidently intended | confidence | as-written member | corrected member |
|---|---|---|---|---|---|---|
| parser/parser.go:52-80 | `NewParser` registers the handlers as method values of the local `p` and returns a copy of `p`. `ParseProg` runs on the copy, and the expression handlers run on the local, with their own current token and error list. | `1 + 2` | one parser state, so `1 + 2` is the single expression `(1 + 2)` | not executed | ParserAsWritten.OnePlusTwo | Parser.ParseExprSound |
| parser/parser.go:105-121 | `parseLetStmt` returns a nil `*ast.LetStmt` on a syntax error. Stored in an `ast.Stmt` interface it is not nil, so `stmt != nil` keeps it. `ToString` and `Eval` of the program then dereference nil. | `let = x;` | a failed `let` leaves no statement in the program, and the error list alone reports it | not executed | ParserAsWritten.NilLetIsKept | Parser.NilLetIsDropped |

=== FILE: ast.dfy ===
/** The syntax tree and its text rendering.

    Go's `ast.Expr` and `ast.Stmt` are interfaces that may hold nil; `Nil`
    stands for a nil expression and `NilLet` for a nil `*LetStmt` stored in
    a non-nil `Stmt` interface (what a failed `let` leaves behind). Block
    pointers (`IfExpr.TrueBlock`, `FunctionLit.Body`) are never nil here;
    `IfExpr.ElseBlock` is optional. `StringLit`, `ArrLit` and `IndexExpr`
    are defined from how the evaluator uses them.
 */
module Ast {
  import opened Token
  import opened Outcomes
  import opened GoInt

  datatype Identifier = Identifier(tok: Token, value: string)

  datatype Expr =
    | Nil
    | IdentExpr(id: Identifier)
    | IntegerLit(tok: Token, ival: int64)
    | StringLit(tok: Token, sval: string)
    | BooleanLit(tok: Token, bval: bool)
    | Prefix(tok: Token, op: string, right: Expr)
    | Infix(tok: Token, left: Expr, op: string, right: Expr)
    | IfExpr(tok: Token, cond: Expr, cons: Block, alt: Option<Block>)
    | FunctionLit(tok: Token, params: seq<Identifier>, body: Block)
    | Call(tok: Token, callee: Expr, args: seq<Expr>)
    | ArrLit(tok: Token, elems: seq<Expr>)
    | Index(tok: Token, left: Expr, index: Expr)

  datatype Block = Block(tok: Token, stmts: seq<Stmt>)

  datatype Stmt =
    | LetStmt(tok: Token, name: Identifier, value: Expr)
    | NilLet
    | ReturnStmt(tok: Token, value: Expr)
    | ExprStmt(tok: Token, expr: Expr)
    | BlockStmt(block: Block)

  datatype Program = Program(stmts: seq<Stmt>)

  /** `TokenLit` of a statement; a nil `*LetStmt` has none (Go panics). */
  function StmtTokenLit(s: Stmt): string
    requires !s.NilLet?
  {
    match s
    case LetStmt(tok, _, _) => tok.lit
    case ReturnStmt(tok, _) => tok.lit
    case ExprStmt(tok, _) => tok.lit
    case BlockStmt(b) => b.tok.lit
  }

  /** `Program.TokenLit`: the first statement's literal, or empty. */
  function ProgramTokenLit(p: Program): (r: string)
    requires |p.stmts| > 0 ==> !p.stmts[0].NilLet?
    ensures |p.stmts| == 0 ==> r == ""
    ensures |p.stmts| > 0 && p.stmts[0].LetStmt? ==> r == p.stmts[0].tok.lit
    ensures |p.stmts| > 0 && p.stmts[0].ExprStmt? ==> r == p.stmts[0].tok.lit
    ensures |p.stmts| > 0 && p.stmts[0].ReturnStmt? ==> r == p.stmts[0].tok.lit
    ensures |p.stmts| > 0 && p.stmts[0].BlockStmt? ==> r == p.stmts[0].block.tok.lit
  {
    if |p.stmts| > 0 then StmtTokenLit(p.stmts[0]) else ""
  }

  /** Which trees `ToString` can render without dereferencing nil. Nil is
      allowed only where the Go code tests for it (a `let` or `return`
      value, an expression statement). The renderings of `StringLit`,
      `ArrLit` and `IndexExpr` are not part of this model. */
  predicate Renderable(e: Expr) {
    match e
    case Nil => false
    case IdentExpr(_) => true
    case IntegerLit(_, _) => true
    case StringLit(_, _) => false
    case BooleanLit(_, _) => true
    case Prefix(_, _, r) => Renderable(r)
    case Infix(_, l, _, r) => Renderable(l) && Renderable(r)
    case IfExpr(_, c, t, f) => Renderable(c) && BlockRenderable(t) && (f.Some? ==> BlockRenderable(f.value))
    case FunctionLit(_, _, body) => BlockRenderable(body)
    case Call(_, f, args) => Renderable(f) && forall i :: 0 <= i < |args| ==> Renderable(args[i])
    case ArrLit(_, _) => false
    case Index(_, _, _) => false
  }

  predicate BlockRenderable(b: Block) {
    forall i :: 0 <= i < |b.stmts| ==> StmtRenderable(b.stmts[i])
  }

  predicate StmtRenderable(s: Stmt) {
    match s
    case LetStmt(_, _, v) => v.Nil? || Renderable(v)
    case NilLet => false
    case ReturnStmt(_, v) => v.Nil? || Renderable(v)
    case ExprStmt(_, e) => e.Nil? || Renderable(e)
    case BlockStmt(b) => BlockRenderable(b)
  }

  /** `strings.Join`. */
  function Join(parts: seq<string>, sep: string): string {
    if |parts| == 0 then ""
    else if |parts| == 1 then parts[0]
    else parts[0] + sep + Join(parts[1..], sep)
  }

  function IdentifierValues(ids: seq<Identifier>): (r: seq<string>)
    ensures |r| == |ids|
    ensures forall i :: 0 <= i < |ids| ==> r[i] == ids[i].value
  {
    seq(|ids|, i requires 0 <= i < |ids| => ids[i].value)
  }

  /** `ToString` of an expression: fully parenthesised operators, literals
      by their source text. */
  function ExprString(e: Expr): string
    requires Renderable(e)
  {
    match e
    case IdentExpr(id) => id.value
    case IntegerLit(tok, _) => tok.lit
    case BooleanLit(tok, _) => tok.lit
    case Prefix(_, op, r) => "(" + op + ExprString(r) + ")"
    case Infix(_, l, op, r) => "(" + ExprString(l) + " " + op + " " + ExprString(r) + ")"
    case IfExpr(_, c, t, f) =>
      "if" + ExprString(c) + " " + BlockString(t)
      + (if f.Some? then "else " + BlockString(f.value) else "")
    case FunctionLit(tok, params, body) =>
      tok.lit + "(" + Join(IdentifierValues(params), ", ") + ") " + BlockString(body)
    case Call(_, f, args) => ExprString(f) + "(" + Join(ExprStrings(args), ", ") + ")"
  }

  function ExprStrings(es: seq<Expr>): (r: seq<string>)
    requires forall i :: 0 <= i < |es| ==> Renderable(es[i])
    ensures |r| == |es|
    ensures forall i :: 0 <= i < |es| ==> r[i] == ExprString(es[i])
  {
    if |es| == 0 then [] else [ExprString(es[0])] + ExprStrings(es[1..])
  }

  /** `LetStmt.ToString`, `ReturnStmt.ToString`, `ExprStmt.ToString` and
      `BlockStmt.ToString`. */
  function StmtString(s: Stmt): string
    requires StmtRenderable(s)
  {
    match s
    case LetStmt(tok, name, v) =>
      tok.lit + " " + name.value + " = " + (if v.Nil? then "" else ExprString(v)) + ";"
    case ReturnStmt(tok, v) =>
      tok.lit + " " + (if v.Nil? then "" else ExprString(v)) + ";"
    case ExprStmt(_, e) => if e.Nil? then "" else ExprString(e)
    case BlockStmt(b) => BlockString(b)
  }

  /** The statements' strings, concatenated in order. */
  function StmtsString(ss: seq<Stmt>): string
    requires forall i :: 0 <= i < |ss| ==> StmtRenderable(ss[i])
  {
    if |ss| == 0 then "" else StmtString(ss[0]) + StmtsString(ss[1..])
  }

  function BlockString(b: Block): string
    requires BlockRenderable(b)
  {
    StmtsString(b.stmts)
  }

  function ProgramString(p: Program): string
    requires forall i :: 0 <= i < |p.stmts| ==> StmtRenderable(p.stmts[i])
  {
    StmtsString(p.stmts)
  }

  /** A program or block renders as its statements' renderings, in order:
      rendering distributes over concatenation of statement lists. */
  lemma {:induction false} StmtsStringAppend(a: seq<Stmt>, b: seq<Stmt>)
    requires forall i :: 0 <= i < |a| ==> StmtRenderable(a[i])
    requires forall i :: 0 <= i < |b| ==> StmtRenderable(b[i])
    ensures forall i :: 0 <= i < |a + b| ==> StmtRenderable((a + b)[i])
    ensures StmtsString(a + b) == StmtsString(a) + StmtsString(b)
  {
    if |a| == 0 {
      assert a + b == b;
    } else {
      assert (a + b)[1..] == a[1..] + b;
      StmtsStringAppend(a[1..], b);
    }
  }

  // Parenthesis accounting for the fully parenthesised rendering.

  /** Opening minus closing parentheses in `s`. */
  function Net(s: string): int {
    if |s| == 0 then 0
    else Net(s[..|s| - 1]) + (if s[|s| - 1] == '(' then 1 else if s[|s| - 1] == ')' then -1 else 0)
  }

  predicate NoParens(s: string) {
    forall i :: 0 <= i < |s| ==> s[i] != '(' && s[i] != ')'
  }

  /** Parentheses match: no prefix closes more than it opened, and the
      whole string closes all it opened. */
  predicate Balanced(s: string) {
    Net(s) == 0 && forall k :: 0 <= k <= |s| ==> Net(s[..k]) >= 0
  }

  /** `s` is one parenthesised group: it opens at its first character and
      the group closes only at its last. */
  predicate Enclosed(s: string) {
    && Balanced(s)
    && |s| >= 2 && s[0] == '(' && s[|s| - 1] == ')'
    && forall k :: 0 < k < |s| ==> Net(s[..k]) >= 1
  }

  lemma {:induction false} NetAppend(a: string, b: string)
    ensures Net(a + b) == Net(a) + Net(b)
    decreases |b|
  {
    if |b| > 0 {
      assert (a + b)[..|a + b| - 1] == a + b[..|b| - 1];
      NetAppend(a, b[..|b| - 1]);
    } else {
      assert a + b == a;
    }
  }

  lemma {:induction false} NoParensNet(s: string)
    requires NoParens(s)
    ensures Balanced(s)
    ensures forall k :: 0 <= k <= |s| ==> Net(s[..k]) == 0
    decreases |s|
  {
    if |s| > 0 {
      assert s[..|s|][..|s| - 1] == s[..|s| - 1];
      NoParensNet(s[..|s| - 1]);
      forall k | 0 <= k <= |s|
        ensures Net(s[..k]) == 0
      {
        if k < |s| {
          assert s[..k] == s[..|s| - 1][..k];
        } else {
          assert s[..k] == s;
        }
      }
    }
  }

  lemma BalancedAppend(a: string, b: string)
    requires Balanced(a) && Balanced(b)
    ensures Balanced(a + b)
  {
    NetAppend(a, b);
    forall k | 0 <= k <= |a + b|
      ensures Net((a + b)[..k]) >= 0
    {
      if k <= |a| {
        assert (a + b)[..k] == a[..k];
      } else {
        assert (a + b)[..k] == a + b[..k - |a|];
        NetAppend(a, b[..k - |a|]);
      }
    }
  }

  /** Wrapping a balanced string in parentheses makes one group. */
  lemma Enclose(x: string)
    requires Balanced(x)
    ensures Enclosed("(" + x + ")")
  {
    var w := "(" + x + ")";
    NetAppend("(", x);
    NetAppend("(" + x, ")");
    assert Net("(") == 1 by { assert "("[..0] == ""; }
    assert Net(")") == -1 by { assert ")"[..0] == ""; }
    forall k | 0 < k < |w|
      ensures Net(w[..k]) >= 1
    {
      assert w[..k] == "(" + x[..k - 1];
      NetAppend("(", x[..k - 1]);
    }
    forall k | 0 <= k <= |w|
      ensures Net(w[..k]) >= 0
    {
      if k == 0 {
        assert w[..k] == "";
      } else if k == |w| {
        assert w[..k] == w;
      }
    }
  }

  /** Trees made of identifiers, literals and operators whose texts carry
      no parentheses: the shape the parser builds. */
  predicate OperatorTree(e: Expr) {
    match e
    case IdentExpr(id) => NoParens(id.value)
    case IntegerLit(tok, _) => NoParens(tok.lit)
    case BooleanLit(tok, _) => NoParens(tok.lit)
    case Prefix(_, op, r) => NoParens(op) && OperatorTree(r)
    case Infix(_, l, op, r) => NoParens(op) && OperatorTree(l) && OperatorTree(r)
    case _ => false
  }

  lemma OperatorTreeRenderable(e: Expr)
    requires OperatorTree(e)
    ensures Renderable(e)
  {
  }

  lemma EnclosePrefix(op: string, r: string)
    requires NoParens(op) && Balanced(r)
    ensures Enclosed("(" + op + r + ")")
  {
    NoParensNet(op);
    BalancedAppend(op, r);
    Enclose(op + r);
    assert "(" + op + r + ")" == "(" + (op + r) + ")";
  }

  lemma EncloseInfix(l: string, op: string, r: string)
    requires NoParens(op) && Balanced(l) && Balanced(r)
    ensures Enclosed("(" + l + " " + op + " " + r + ")")
  {
    var mid := " " + op + " ";
    assert NoParens(mid);
    NoParensNet(mid);
    BalancedAppend(l, mid);
    BalancedAppend(l + mid, r);
    Enclose(l + mid + r);
    assert "(" + l + " " + op + " " + r + ")" == "(" + (l + mid + r) + ")";
  }

  /** The rendering is fully parenthesised: every operator node renders as
      one parenthesised group, so its operands can be read off without
      knowing any precedence. */
  lemma {:induction false} RenderingIsFullyParenthesised(e: Expr)
    requires OperatorTree(e)
    ensures Renderable(e)
    ensures Balanced(ExprString(e))
    ensures (e.Prefix? || e.Infix?) ==> Enclosed(ExprString(e))
    ensures !(e.Prefix? || e.Infix?) ==> NoParens(ExprString(e))
  {
    OperatorTreeRenderable(e);
    match e
    case IdentExpr(id) => NoParensNet(id.value);
    case IntegerLit(tok, _) => NoParensNet(tok.lit);
    case BooleanLit(tok, _) => NoParensNet(tok.lit);
    case Prefix(_, op, r) =>
      RenderingIsFullyParenthesised(r);
      EnclosePrefix(op, ExprString(r));
    case Infix(_, l, op, r) =>
      RenderingIsFullyParenthesised(l);
      RenderingIsFullyParenthesised(r);
      EncloseInfix(ExprString(l), op, ExprString(r));
  }

  /** Literals render as the text they were written with, not as their
      value: the same number written two ways renders two ways. */
  lemma LiteralsRenderTheirText(t1: Token, t2: Token, v: int64)
    requires t1.lit != t2.lit
    ensures ExprString(IntegerLit(t1, v)) != ExprString(IntegerLit(t2, v))
    ensures ExprString(IntegerLit(Token(Int, "07"), 7)) != ExprString(IntegerLit(Token(Int, "7"), 7))
  {
  }

  /** A `let` or `return` whose value is nil renders with an empty value
      part, and an expression statement holding nil renders as nothing. */
  lemma NilValuesRenderEmpty(t: Token, name: Identifier)
    ensures StmtString(LetStmt(t, name, Nil)) == t.lit + " " + name.value + " = ;"
    ensures StmtString(ReturnStmt(t, Nil)) == t.lit + " ;"
    ensures StmtString(ExprStmt(t, Nil)) == ""
  {
  }

  /** Joining one more part adds one separator and the part at the end:
      with `Join([]) == ""` and `Join([x]) == x`, this pins `Join` down
      as the parts with one separator between each neighbouring pair. */
  lemma {:induction false} JoinSnoc(parts: seq<string>, x: string, sep: string)
    requires |parts| > 0
    ensures Join(parts + [x], sep) == Join(parts, sep) + sep + x
    decreases |parts|
  {
    if |parts| == 1 {
      assert (parts + [x])[1..] == [x];
    } else {
      assert (parts + [x])[1..] == parts[1..] + [x];
      JoinSnoc(parts[1..], x, sep);
    }
  }

  /** A call renders as its callee, then the renderings of its arguments
      separated by ", " in parentheses. */
  lemma CallRendering(t: Token, f: Expr, args: seq<Expr>)
    requires Renderable(f) && forall i :: 0 <= i < |args| ==> Renderable(args[i])
    ensures Renderable(Call(t, f, args))
    ensures ExprString(Call(t, f, args))
      == ExprString(f) + "(" + Join(seq(|args|, i requires 0 <= i < |args| => ExprString(args[i])), ", ") + ")"
  {
    assert ExprStrings(args) == seq(|args|, i requires 0 <= i < |args| => ExprString(args[i]));
  }

  /** A function literal renders its keyword, the names of its parameters
      separated by ", " in parentheses, a space, and then its body. */
  lemma FunctionRendering(t: Token, params: seq<Identifier>, body: Block)
    requires BlockRenderable(body)
    ensures Renderable(FunctionLit(t, params, body))
    ensures ExprString(FunctionLit(t, params, body))
      == t.lit + "(" + Join(seq(|params|, i requires 0 <= i < |params| => params[i].value), ", ") + ") " + BlockString(body)
  {
    assert IdentifierValues(params) == seq(|params|, i requires 0 <= i < |params| => params[i].value);
  }

  /** For example, `f(a, b)` renders as written. */
  lemma TwoArgumentCall(t: Token, f: Identifier, a: Identifier, b: Identifier)
    ensures Renderable(Call(t, IdentExpr(f), [IdentExpr(a), IdentExpr(b)]))
    ensures ExprString(Call(t, IdentExpr(f), [IdentExpr(a), IdentExpr(b)]))
      == f.value + "(" + a.value + ", " + b.value + ")"
  {
    CallRendering(t, IdentExpr(f), [IdentExpr(a), IdentExpr(b)]);
    JoinSnoc([a.value], b.value, ", ");
    assert seq(2, i requires 0 <= i < 2 => ExprString([IdentExpr(a), IdentExpr(b)][i]))
      == [a.value] + [b.value];
  }

  /** And `fn(a, b) ` is a two-parameter literal with an empty body. */
  lemma TwoParameterFunction(t: Token, a: Identifier, b: Identifier)
    ensures ExprString(FunctionLit(t, [a, b], Block(t, [])))
      == t.lit + "(" + a.value + ", " + b.value + ") "
  {
    FunctionRendering(t, [a, b], Block(t, []));
    JoinSnoc([a.value], b.value, ", ");
    assert seq(2, i requires 0 <= i < 2 => [a, b][i].value) == [a.value] + [b.value];
    assert BlockString(Block(t, [])) == "";
  }
}

=== FILE: builtins.dfy ===
/** The builtin functions of `builtins.go`: `len`, `first`, `last`, `rest`
    and `push`.

    Each checks its argument count first and then the type of its first
    argument; asking the type of a nil argument panics. `rest` and `push`
    allocate a new array, which receives the identity `id` the caller
    draws from the heap. */
module Builtins {
  import opened Outcomes
  import opened GoInt
  import opened Lexer
  import opened Objects

  /** The key a builtin is registered under. */
  function Spelling(b: BuiltinName): string {
    match b
    case Len => "len"
    case First => "first"
    case Last => "last"
    case Rest => "rest"
    case Push => "push"
  }

  /** A lookup in the `builtins` map: the names registered are exactly the
      five spellings, each for its own builtin. */
  function BuiltinOf(name: string): (r: Option<BuiltinName>)
    ensures r.Some? ==> Spelling(r.value) == name
    ensures forall b: BuiltinName :: Spelling(b) == name ==> r == Some(b)
  {
    if name == "len" then Some(Len)
    else if name == "first" then Some(First)
    else if name == "last" then Some(Last)
    else if name == "rest" then Some(Rest)
    else if name == "push" then Some(Push)
    else None
  }

  /** The number of arguments each builtin accepts. */
  function Arity(b: BuiltinName): nat {
    if b.Push? then 2 else 1
  }

  /** The UTF-8 encoding of one character (section 3 of RFC 3629). Go
      strings are byte sequences; the model's strings are sequences of
      characters, so a Go string is the concatenation of these. */
  function EncodeRune(c: char): (bs: seq<byte>)
    ensures 1 <= |bs| <= 4
    ensures (|bs| == 1) == (c as int < 0x80)
  {
    var n := c as int;
    if n < 0x80 then [n as byte]
    else if n < 0x800 then [(0xC0 + n / 0x40) as byte, (0x80 + n % 0x40) as byte]
    else if n < 0x1_0000 then
      [(0xE0 + n / 0x1000) as byte, (0x80 + n / 0x40 % 0x40) as byte, (0x80 + n % 0x40) as byte]
    else
      [(0xF0 + n / 0x4_0000) as byte, (0x80 + n / 0x1000 % 0x40) as byte,
       (0x80 + n / 0x40 % 0x40) as byte, (0x80 + n % 0x40) as byte]
  }

  function EncodeUtf8(s: string): seq<byte> {
    if |s| == 0 then [] else EncodeUtf8(s[..|s| - 1]) + EncodeRune(s[|s| - 1])
  }

  /** The byte count of one character's encoding, without encoding it. */
  function RuneLen(c: char): nat {
    if c as int < 0x80 then 1
    else if c as int < 0x800 then 2
    else if c as int < 0x1_0000 then 3
    else 4
  }

  /** Go's `len` of a string: its UTF-8 byte count, counted character by
      character; it is the length of the encoding, between one and four
      bytes per character. */
  function Utf8Length(s: string): (n: nat)
    ensures n == |EncodeUtf8(s)|
    ensures |s| <= n <= 4 * |s|
  {
    if |s| == 0 then 0 else Utf8Length(s[..|s| - 1]) + RuneLen(s[|s| - 1])
  }

  predicate IsAscii(s: string) {
    forall i :: 0 <= i < |s| ==> s[i] as int < 0x80
  }

  /** An ASCII string has one byte per character, and those bytes are its
      character codes. */
  lemma {:induction false} AsciiLength(s: string)
    requires IsAscii(s)
    ensures Utf8Length(s) == |s|
    ensures forall i :: 0 <= i < |s| ==> EncodeUtf8(s)[i] as int == s[i] as int
  {
    if |s| > 0 {
      AsciiLength(s[..|s| - 1]);
    }
  }

  /** `len`: the byte length of a string or the element count of an
      array, as an `int64`. */
  function LenBuiltin(args: seq<Obj>): (r: Outcome<Obj>)
    ensures |args| != 1 ==> r == Ok(Error(WrongArgumentCount(Len, |args|)))
    ensures |args| == 1 && args[0].Str? ==> r == Ok(Integer(Wrap(|EncodeUtf8(args[0].sval)|)))
    ensures |args| == 1 && args[0].Array? ==> r == Ok(Integer(Wrap(|args[0].elems|)))
    ensures |args| == 1 && !args[0].Nil? && !args[0].Str? && !args[0].Array? ==>
      r == Ok(Error(UnsupportedArgument(Len, TypeOf(args[0]))))
    ensures r.Panic? <==> |args| == 1 && args[0].Nil?
  {
    if |args| != 1 then Ok(Error(WrongArgumentCount(Len, |args|)))
    else
      match args[0]
      case Str(s) => Ok(Integer(Wrap(Utf8Length(s))))
      case Array(_, elems) => Ok(Integer(Wrap(|elems|)))
      case Nil => Panic(NilDereference)
      case _ => Ok(Error(UnsupportedArgument(Len, TypeOf(args[0]))))
  }

  /** The checks `first`, `last`, `rest` and `push` share: the argument
      count, then an array as the first argument. */
  function ArrayArgument(b: BuiltinName, args: seq<Obj>): (r: Outcome<Obj>)
    ensures r.Ok? && r.value.Array? <==> |args| == Arity(b) && args[0].Array?
    ensures r.Ok? && r.value.Array? ==> r.value == args[0]
    ensures r.Ok? && !r.value.Array? ==> r.value.Error?
    ensures r.Panic? <==> |args| == Arity(b) && args[0].Nil?
  {
    if |args| != Arity(b) then Ok(Error(WrongArgumentCount(b, |args|)))
    else if args[0].Nil? then Panic(NilDereference)
    else if !args[0].Array? then Ok(Error(UnsupportedArgument(b, TypeOf(args[0]))))
    else Ok(args[0])
  }

  /** `first`: element 0, or NULL for an empty array. */
  function FirstBuiltin(args: seq<Obj>): (r: Outcome<Obj>)
    ensures |args| == 1 && args[0].Array? && |args[0].elems| > 0 ==> r == Ok(args[0].elems[0])
    ensures |args| == 1 && args[0].Array? && |args[0].elems| == 0 ==> r == Ok(Null)
    ensures !(|args| == 1 && args[0].Array?) ==> r == ArrayArgument(First, args)
  {
    var a :- ArrayArgument(First, args);
    if !a.Array? then Ok(a)
    else if |a.elems| > 0 then Ok(a.elems[0])
    else Ok(Null)
  }

  /** `last`: element len-1, or NULL for an empty array. */
  function LastBuiltin(args: seq<Obj>): (r: Outcome<Obj>)
    ensures |args| == 1 && args[0].Array? && |args[0].elems| > 0 ==>
      r == Ok(args[0].elems[|args[0].elems| - 1])
    ensures |args| == 1 && args[0].Array? && |args[0].elems| == 0 ==> r == Ok(Null)
    ensures !(|args| == 1 && args[0].Array?) ==> r == ArrayArgument(Last, args)
  {
    var a :- ArrayArgument(Last, args);
    if !a.Array? then Ok(a)
    else if |a.elems| > 0 then Ok(a.elems[|a.elems| - 1])
    else Ok(Null)
  }

  /** `rest`: a new array of all elements but the first, or NULL for an
      empty array. */
  function RestBuiltin(args: seq<Obj>, id: nat): (r: Outcome<Obj>)
    ensures |args| == 1 && args[0].Array? && |args[0].elems| > 0 ==>
      && r.Ok? && r.value.Array? && r.value.id == id
      && |r.value.elems| == |args[0].elems| - 1
      && args[0].elems == [args[0].elems[0]] + r.value.elems
    ensures |args| == 1 && args[0].Array? && |args[0].elems| == 0 ==> r == Ok(Null)
    ensures !(|args| == 1 && args[0].Array?) ==> r == ArrayArgument(Rest, args)
  {
    var a :- ArrayArgument(Rest, args);
    if !a.Array? then Ok(a)
    else if |a.elems| > 0 then Ok(Array(id, a.elems[1..]))
    else Ok(Null)
  }

  /** `push`: a new array holding the elements and then the second
      argument; the argument array itself is a value and stays as it
      was. */
  function PushBuiltin(args: seq<Obj>, id: nat): (r: Outcome<Obj>)
    ensures |args| == 2 && args[0].Array? ==>
      && r.Ok? && r.value.Array? && r.value.id == id
      && |r.value.elems| == |args[0].elems| + 1
      && r.value.elems[..|args[0].elems|] == args[0].elems
      && r.value.elems[|args[0].elems|] == args[1]
    ensures !(|args| == 2 && args[0].Array?) ==> r == ArrayArgument(Push, args)
  {
    var a :- ArrayArgument(Push, args);
    if !a.Array? then Ok(a)
    else Ok(Array(id, a.elems + [args[1]]))
  }

  /** `fn.Fn(args...)` for a builtin value. */
  function ApplyBuiltin(b: BuiltinName, args: seq<Obj>, id: nat): (r: Outcome<Obj>)
    ensures |args| != Arity(b) ==> r == Ok(Error(WrongArgumentCount(b, |args|)))
    ensures r.Panic? <==> |args| == Arity(b) && args[0].Nil?
    ensures r.Panic? ==> r.reason == NilDereference
    ensures r.Ok? || r.Panic?
  {
    match b
    case Len => LenBuiltin(args)
    case First => FirstBuiltin(args)
    case Last => LastBuiltin(args)
    case Rest => RestBuiltin(args, id)
    case Push => PushBuiltin(args, id)
  }

  /** `first`, `last`, `rest` and `push` refuse anything but an array. */
  lemma ArrayBuiltinsRejectOthers(b: BuiltinName, args: seq<Obj>, id: nat)
    requires !b.Len? && |args| == Arity(b) && !args[0].Nil? && !args[0].Array?
    ensures ApplyBuiltin(b, args, id) == Ok(Error(UnsupportedArgument(b, TypeOf(args[0]))))
  {
  }

  /** The element pushed last is what `last` returns, and the array grows
      by one. */
  lemma PushThenLast(a: Obj, x: Obj, id: nat)
    requires a.Array?
    ensures PushBuiltin([a, x], id).Ok?
    ensures LastBuiltin([PushBuiltin([a, x], id).value]) == Ok(x)
    ensures |PushBuiltin([a, x], id).value.elems| == |a.elems| + 1
  {
  }

  /** `first` of a non-empty array followed by `rest` gives back the
      array's elements: `rest` drops exactly one element, the first. */
  lemma FirstAndRestSplit(a: Obj, id: nat)
    requires a.Array? && |a.elems| > 0
    ensures FirstBuiltin([a]).Ok? && RestBuiltin([a], id).Ok?
    ensures a.elems == [FirstBuiltin([a]).value] + RestBuiltin([a], id).value.elems
  {
  }

  /** Pushing onto a non-empty array and dropping the first element
      commute. */
  lemma {:induction false} RestOfPush(a: Obj, x: Obj, id1: nat, id2: nat)
    requires a.Array? && |a.elems| > 0
    ensures
      var pushed := PushBuiltin([a, x], id1).value;
      var rest := RestBuiltin([a], id1).value;
      RestBuiltin([pushed], id2).value.elems == PushBuiltin([rest, x], id2).value.elems
  {
    var pushed := PushBuiltin([a, x], id1).value;
    assert pushed.elems == a.elems + [x];
    assert (a.elems + [x])[1..] == a.elems[1..] + [x];
  }
}

=== FILE: env.dfy ===
/** Environments as an arena of frames.

    Go's `*object.Env` is a heap object holding a name-to-value map and a
    pointer to an enclosing environment; closures share these objects, so
    the chains may form cycles through function values. Here every
    environment is a frame in one growing sequence and is addressed by its
    index; a frame's parent is an index. The heap also holds the counter
    from which fresh object identities are drawn.

    The `object.Env` type is not part of this model's source files; what
    it must do is read off its three uses in the evaluator: `Get` follows
    the parent chain, `Set` writes the local map only, and
    `NewEnclosedEnv` makes an empty frame whose parent is a given
    environment. */
module Env {
  import opened Outcomes
  import opened Objects

  datatype Frame = Frame(store: map<string, Obj>, outer: Option<nat>)

  datatype Heap = Heap(frames: seq<Frame>, nextId: nat)

  /** A parent always lies before its child in the arena, so every chain
      is finite. Every frame the evaluator creates satisfies this. */
  predicate WellFormed(h: Heap) {
    forall i :: 0 <= i < |h.frames| ==>
      h.frames[i].outer.Some? ==> h.frames[i].outer.value < i
  }

  /** The heap `NewEnv` starts a program with: one empty frame, index 0. */
  function InitialHeap(): (h: Heap)
    ensures WellFormed(h) && |h.frames| == 1
  {
    Heap([Frame(map[], None)], 0)
  }

  /** `Env.Get`: the value bound to `name` in the nearest frame of the
      chain that starts at `env`. The chain is only followed towards
      smaller indices, which on a well-formed heap is every link. */
  function Get(h: Heap, env: nat, name: string): Option<Obj>
    decreases env
  {
    if env >= |h.frames| then None
    else
      var f := h.frames[env];
      if name in f.store then Some(f.store[name])
      else
        match f.outer
        case Some(o) => if o < env then Get(h, o, name) else None
        case None => None
  }

  /** The chain of frames a lookup from `env` visits, nearest first. */
  function Chain(h: Heap, env: nat): (c: seq<nat>)
    ensures forall k :: 0 <= k < |c| ==> c[k] < |h.frames| && c[k] <= env
    ensures env < |h.frames| ==> |c| > 0 && c[0] == env
    decreases env
  {
    if env >= |h.frames| then []
    else
      match h.frames[env].outer
      case Some(o) => if o < env then [env] + Chain(h, o) else [env]
      case None => [env]
  }

  /** Does any frame of the chain bind `name`? */
  predicate BoundIn(h: Heap, c: seq<nat>, name: string) {
    exists k :: 0 <= k < |c| && c[k] < |h.frames| && name in h.frames[c[k]].store
  }

  /** Lookup finds a name exactly when some frame of the chain binds it. */
  lemma {:induction false} GetFindsBoundNames(h: Heap, env: nat, name: string)
    ensures Get(h, env, name).Some? <==> BoundIn(h, Chain(h, env), name)
    decreases env
  {
    var c := Chain(h, env);
    if env < |h.frames| {
      var f := h.frames[env];
      if name in f.store {
        assert c[0] == env;
      } else if f.outer.Some? && f.outer.value < env {
        var c' := Chain(h, f.outer.value);
        GetFindsBoundNames(h, f.outer.value, name);
        assert c == [env] + c';
        if BoundIn(h, c, name) {
          var k :| 0 <= k < |c| && c[k] < |h.frames| && name in h.frames[c[k]].store;
          assert c[k] == c'[k - 1];
        }
        if BoundIn(h, c', name) {
          var k :| 0 <= k < |c'| && c'[k] < |h.frames| && name in h.frames[c'[k]].store;
          assert c[k + 1] == c'[k];
        }
      } else {
        assert c == [env];
      }
    }
  }

  /** The position in a chain of the first frame binding `name`. */
  predicate FirstBinding(h: Heap, c: seq<nat>, name: string, k: nat) {
    && k < |c| && c[k] < |h.frames| && name in h.frames[c[k]].store
    && forall j :: 0 <= j < k && c[j] < |h.frames| ==> name !in h.frames[c[j]].store
  }

  /** What a lookup finds is the binding of the first frame of the chain
      that binds the name: inner bindings shadow outer ones. */
  lemma {:induction false} GetFindsFirstBinding(h: Heap, env: nat, name: string)
    requires Get(h, env, name).Some?
    ensures exists k: nat ::
      && FirstBinding(h, Chain(h, env), name, k)
      && Get(h, env, name).value == h.frames[Chain(h, env)[k]].store[name]
    decreases env
  {
    var c := Chain(h, env);
    var f := h.frames[env];
    if name in f.store {
      assert FirstBinding(h, c, name, 0);
    } else {
      var o := f.outer.value;
      var c' := Chain(h, o);
      GetFindsFirstBinding(h, o, name);
      assert c == [env] + c';
      var k: nat :| FirstBinding(h, c', name, k) && Get(h, o, name).value == h.frames[c'[k]].store[name];
      assert c[k + 1] == c'[k];
      assert FirstBinding(h, c, name, k + 1) by {
        forall j | 0 <= j < k + 1 && c[j] < |h.frames|
          ensures name !in h.frames[c[j]].store
        {
          if j > 0 {
            assert c[j] == c'[j - 1];
          }
        }
      }
    }
  }

  /** `Env.Set`: bind `name` in frame `env` and nowhere else. */
  function Set(h: Heap, env: nat, name: string, v: Obj): (r: Heap)
    ensures |r.frames| == |h.frames| && r.nextId == h.nextId
    ensures env < |h.frames| ==> r.frames[env].store == h.frames[env].store[name := v]
    ensures env < |h.frames| ==> r.frames[env].outer == h.frames[env].outer
    ensures forall i :: 0 <= i < |h.frames| && i != env ==> r.frames[i] == h.frames[i]
  {
    if env < |h.frames| then
      var f := h.frames[env];
      h.(frames := h.frames[env := Frame(f.store[name := v], f.outer)])
    else h
  }

  /** `NewEnclosedEnv(outer)`: a new, empty frame at the end of the arena
      whose parent is `outer`. Returns the new frame's index. */
  function NewEnclosed(h: Heap, outer: nat): (r: (nat, Heap))
    ensures r.0 == |h.frames| && |r.1.frames| == |h.frames| + 1
    ensures r.1.frames[..|h.frames|] == h.frames && r.1.nextId == h.nextId
    ensures r.1.frames[r.0] == Frame(map[], Some(outer))
  {
    (|h.frames|, h.(frames := h.frames + [Frame(map[], Some(outer))]))
  }

  /** A fresh identity for a newly allocated object. */
  function Fresh(h: Heap): (r: (nat, Heap))
    ensures r.1.frames == h.frames && r.1.nextId == h.nextId + 1
    ensures r.0 == h.nextId
  {
    (h.nextId, h.(nextId := h.nextId + 1))
  }

  lemma SetPreservesWellFormed(h: Heap, env: nat, name: string, v: Obj)
    requires WellFormed(h)
    ensures WellFormed(Set(h, env, name, v))
  {
  }

  lemma NewEnclosedPreservesWellFormed(h: Heap, outer: nat)
    requires WellFormed(h) && outer < |h.frames|
    ensures WellFormed(NewEnclosed(h, outer).1)
  {
    var h' := NewEnclosed(h, outer).1;
    forall i | 0 <= i < |h'.frames| && h'.frames[i].outer.Some?
      ensures h'.frames[i].outer.value < i
    {
      if i < |h.frames| {
        assert h'.frames[i] == h.frames[i];
      }
    }
  }

  /** What `Set` wrote is what `Get` reads back from the same frame. */
  lemma GetSetSame(h: Heap, env: nat, name: string, v: Obj)
    requires env < |h.frames|
    ensures Get(Set(h, env, name, v), env, name) == Some(v)
  {
  }

  /** Binding one name changes no lookup of another name, from any frame. */
  lemma {:induction false} GetSetOther(h: Heap, env: nat, name: string, v: Obj, e: nat, other: string)
    requires other != name
    ensures Get(Set(h, env, name, v), e, other) == Get(h, e, other)
    decreases e
  {
    var h' := Set(h, env, name, v);
    if e < |h.frames| {
      assert other in h'.frames[e].store <==> other in h.frames[e].store;
      if other in h.frames[e].store {
        assert h'.frames[e].store[other] == h.frames[e].store[other];
      }
      assert h'.frames[e].outer == h.frames[e].outer;
      if h.frames[e].outer.Some? && h.frames[e].outer.value < e {
        GetSetOther(h, env, name, v, h.frames[e].outer.value, other);
      }
    }
  }

  /** A binding in a frame is invisible from the frames before it, in
      particular from every environment a closure captured before a call
      created the frame: `let` inside a function body cannot change the
      variables of the enclosing scope. */
  lemma {:induction false} SetInvisibleToEarlierFrames(h: Heap, env: nat, name: string, v: Obj, e: nat, n: string)
    requires e < env
    ensures Get(Set(h, env, name, v), e, n) == Get(h, e, n)
    decreases e
  {
    var h' := Set(h, env, name, v);
    if e < |h.frames| {
      assert h'.frames[e] == h.frames[e];
      if h.frames[e].outer.Some? && h.frames[e].outer.value < e {
        SetInvisibleToEarlierFrames(h, env, name, v, h.frames[e].outer.value, n);
      }
    }
  }

  /** Pushing a frame changes no lookup from the frames already there. */
  lemma {:induction false} NewEnclosedKeepsLookups(h: Heap, outer: nat, e: nat, n: string)
    requires e < |h.frames|
    ensures Get(NewEnclosed(h, outer).1, e, n) == Get(h, e, n)
    decreases e
  {
    var h' := NewEnclosed(h, outer).1;
    assert h'.frames[e] == h.frames[e];
    if h.frames[e].outer.Some? && h.frames[e].outer.value < e {
      NewEnclosedKeepsLookups(h, outer, h.frames[e].outer.value, n);
    }
  }

  /** A new frame delegates every lookup to its parent until something is
      bound in it. */
  lemma NewEnclosedDelegates(h: Heap, outer: nat, n: string)
    requires outer < |h.frames|
    ensures Get(NewEnclosed(h, outer).1, |h.frames|, n) == Get(h, outer, n)
  {
    NewEnclosedKeepsLookups(h, outer, outer, n);
  }

  /** Closures share their environment: a binding made in a frame after a
      closure captured it is seen from a frame enclosed by it later. */
  lemma LaterBindingVisibleToClosure(h: Heap, env: nat, name: string, v: Obj)
    requires env < |h.frames|
    ensures
      var h1 := Set(h, env, name, v);
      Get(NewEnclosed(h1, env).1, |h1.frames|, name) == Some(v)
  {
    var h1 := Set(h, env, name, v);
    GetSetSame(h, env, name, v);
    NewEnclosedDelegates(h1, env, name);
  }
}

=== FILE: evalprops.dfy ===
/** Properties of the evaluator that relate several evaluations or hold
    for all inputs: how signals travel through blocks and programs, the
    order in which operands are evaluated, binding and scoping, and the
    arithmetic quirks of `evalIntInfixExpr`. */
module EvalProperties {
  import opened Outcomes
  import opened GoInt
  import Token
  import opened Ast
  import opened Objects
  import opened Env
  import opened Builtins
  import opened Evaluator
  import Parser
  import ParserAsWritten

  /** `unwrapRValue` applied to a successful outcome. */
  function UnwrapOutcome(r: Outcome<Res>): Outcome<Res> {
    match r
    case Ok(x) => Ok(Res(Unwrap(x.val), x.heap))
    case _ => r
  }

  /** The program loop is the block loop with the final return value
      unwrapped: both stop at the same statement, on the same signals. */
  lemma {:induction false} ProgramLoopIsUnwrappedBlockLoop(fuel: nat, ss: seq<Stmt>, i: nat, env: nat, h: Heap, last: Obj)
    requires i <= |ss| && !last.ReturnValue?
    ensures EvalProgramStmts(fuel, ss, i, env, h, last) == UnwrapOutcome(EvalBlockStmts(fuel, ss, i, env, h, last))
    decreases |ss| - i
  {
    if i < |ss| {
      var sr := EvalStmt(fuel, ss[i], env, h);
      if sr.Ok? && !Signal(sr.value.val) {
        ProgramLoopIsUnwrappedBlockLoop(fuel, ss, i + 1, env, sr.value.heap, sr.value.val);
      }
    }
  }

  /** `evalProg` is `evalBlockStmt` on the same statements followed by
      `unwrapRValue`. */
  lemma ProgramIsUnwrappedBlock(fuel: nat, p: Program, t: Token.Token, env: nat, h: Heap)
    ensures EvalProgram(fuel, p, env, h) == UnwrapOutcome(EvalBlock(fuel, Block(t, p.stmts), env, h))
  {
    ProgramLoopIsUnwrappedBlockLoop(fuel, p.stmts, 0, env, h, Obj.Nil);
  }

  /** A block that stops on a signal gives the same result whatever
      statements follow: nothing after a `return` or an error runs. */
  lemma {:induction false} SignalEndsBlock(fuel: nat, ss: seq<Stmt>, more: seq<Stmt>, i: nat, env: nat, h: Heap, last: Obj)
    requires i <= |ss|
    requires EvalBlockStmts(fuel, ss, i, env, h, last).Ok?
    requires Signal(EvalBlockStmts(fuel, ss, i, env, h, last).value.val)
    requires !Signal(last)
    ensures EvalBlockStmts(fuel, ss + more, i, env, h, last) == EvalBlockStmts(fuel, ss, i, env, h, last)
    decreases |ss| - i
  {
    assert i < |ss|;
    assert (ss + more)[i] == ss[i];
    var sr := EvalStmt(fuel, ss[i], env, h);
    if !Signal(sr.value.val) {
      SignalEndsBlock(fuel, ss, more, i + 1, env, sr.value.heap, sr.value.val);
    }
  }

  /** An error in the left operand is the result of an infix expression;
      the right operand is never evaluated (it may even panic). */
  lemma LeftErrorFirst(fuel: nat, t: Token.Token, left: Expr, op: string, right: Expr, env: nat, h: Heap)
    requires EvalExpr(fuel, left, env, h).Ok? && EvalExpr(fuel, left, env, h).value.val.Error?
    ensures EvalExpr(fuel, Infix(t, left, op, right), env, h) == EvalExpr(fuel, left, env, h)
  {
  }

  /** An error in the right operand is the result when the left one is
      fine: the operator is never applied. */
  lemma RightErrorNext(fuel: nat, t: Token.Token, left: Expr, op: string, right: Expr, env: nat, h: Heap)
    requires EvalExpr(fuel, left, env, h).Ok? && !EvalExpr(fuel, left, env, h).value.val.Error?
    requires
      var h1 := EvalExpr(fuel, left, env, h).value.heap;
      EvalExpr(fuel, right, env, h1).Ok? && EvalExpr(fuel, right, env, h1).value.val.Error?
    ensures
      var h1 := EvalExpr(fuel, left, env, h).value.heap;
      EvalExpr(fuel, Infix(t, left, op, right), env, h) == EvalExpr(fuel, right, env, h1)
  {
    IsErrMeansError(EvalExpr(fuel, left, env, h).value.val);
  }

  /** An error in the left operand of an index expression is dropped: the
      result is nil. */
  lemma IndexLeftErrorIsNil(fuel: nat, t: Token.Token, left: Expr, index: Expr, env: nat, h: Heap)
    requires EvalExpr(fuel, left, env, h).Ok? && EvalExpr(fuel, left, env, h).value.val.Error?
    ensures EvalExpr(fuel, Index(t, left, index), env, h) == Ok(Res(Obj.Nil, EvalExpr(fuel, left, env, h).value.heap))
  {
  }

  /** An `if` whose condition is falsy and that has no `else` gives NULL;
      its block is not run. */
  lemma FalsyIfWithoutElseIsNull(fuel: nat, t: Token.Token, cond: Expr, cons: Block, env: nat, h: Heap)
    requires EvalExpr(fuel, cond, env, h).Ok?
    requires !IsTruthy(EvalExpr(fuel, cond, env, h).value.val)
    ensures EvalExpr(fuel, IfExpr(t, cond, cons, None), env, h) == Ok(Res(Null, EvalExpr(fuel, cond, env, h).value.heap))
  {
  }

  /** `!!x` is the truthiness of `x` as a boolean singleton: for a boolean
      it gives the operand back, and for 0 it gives TRUE. */
  lemma DoubleBang(fuel: nat, t: Token.Token, e: Expr, env: nat, h: Heap)
    requires EvalExpr(fuel, e, env, h).Ok? && !EvalExpr(fuel, e, env, h).value.val.Error?
    ensures
      var x := EvalExpr(fuel, e, env, h).value;
      EvalExpr(fuel, Prefix(t, "!", Prefix(t, "!", e)), env, h) == Ok(Res(Boolean(IsTruthy(x.val)), x.heap))
  {
    var x := EvalExpr(fuel, e, env, h).value;
    IsErrMeansError(x.val);
    assert EvalExpr(fuel, Prefix(t, "!", e), env, h) == Ok(Res(Bang(x.val), x.heap));
    assert EvalExpr(fuel, Prefix(t, "!", Prefix(t, "!", e)), env, h) == Ok(Res(Bang(Bang(x.val)), x.heap));
  }

  /** `-` on integers adds: `5 - 3` is 8, not 2. */
  lemma MinusAdds(a: int64, b: int64)
    ensures IntInfix("-", a, b) == IntInfix("+", a, b)
    ensures IntInfix("-", 5, 3) == Ok(Integer(8))
  {
  }

  /** `/` rounds toward zero: the remainder has the dividend's sign and is
      smaller than the divisor; `-7 / 2` is -3 where Euclidean division
      would give -4. */
  lemma DivisionTruncates(a: int64, b: int64)
    requires b != 0 && !(a == MinInt64 && b == -1)
    ensures IntInfix("/", a, b).Ok? && IntInfix("/", a, b).value.Integer?
    ensures
      var q := IntInfix("/", a, b).value.ival;
      var rem := a as int - q as int * b as int;
      && (rem == 0 || (rem < 0 <==> a < 0))
      && (if rem < 0 then -rem else rem) < (if b < 0 then -(b as int) else b as int)
  {
    TruncDivRemainder(a, b);
  }

  lemma DivisionExample()
    ensures IntInfix("/", -7, 2) == Ok(Integer(-3))
    ensures IntInfix("/", 7, 0) == Panic(DivideByZero)
  {
    assert TruncDiv(-7, 2) == -3;
  }

  /** `==` on arrays is identity: two array literals with the same (no)
      elements are different objects. */
  lemma ArrayLiteralsAreDistinct(fuel: nat, t: Token.Token, env: nat, h: Heap)
    ensures EvalExpr(fuel, Infix(t, ArrLit(t, []), "==", ArrLit(t, [])), env, h)
      == Ok(Res(Boolean(false), h.(nextId := h.nextId + 2)))
  {
    var h1 := h.(nextId := h.nextId + 1);
    EmptyArrayLiteral(fuel, t, env, h);
    EmptyArrayLiteral(fuel, t, env, h1);
    assert EvalInfixOp("==", Array(h.nextId, []), Array(h1.nextId, [])) == Ok(Boolean(false));
  }

  /** `[]` allocates a new, empty array. */
  lemma EmptyArrayLiteral(fuel: nat, t: Token.Token, env: nat, h: Heap)
    ensures EvalExpr(fuel, ArrLit(t, []), env, h) == Ok(Res(Array(h.nextId, []), h.(nextId := h.nextId + 1)))
  {
    assert EvalExprs(fuel, [], 0, env, h, []) == Ok(Vals([], h));
  }

  /** `let` binds the value in the current frame, has no value itself, and
      leaves every other frame alone. */
  lemma LetBindsInCurrentFrame(fuel: nat, t: Token.Token, name: Identifier, value: Expr, env: nat, h: Heap)
    requires env < |h.frames|
    requires EvalExpr(fuel, value, env, h).Ok? && !EvalExpr(fuel, value, env, h).value.val.Error?
    ensures
      var v := EvalExpr(fuel, value, env, h).value;
      var r := EvalStmt(fuel, LetStmt(t, name, value), env, h);
      && r.Ok? && r.value.val.Nil?
      && Get(r.value.heap, env, name.value) == Some(v.val)
      && forall i :: 0 <= i < |h.frames| && i != env ==> r.value.heap.frames[i] == h.frames[i]
  {
    var v := EvalExpr(fuel, value, env, h).value;
    IsErrMeansError(v.val);
    GetSetSame(v.heap, env, name.value, v.val);
  }

  /** A `let` whose value is an error returns the error and binds nothing. */
  lemma LetOfErrorBindsNothing(fuel: nat, t: Token.Token, name: Identifier, value: Expr, env: nat, h: Heap)
    requires EvalExpr(fuel, value, env, h).Ok? && EvalExpr(fuel, value, env, h).value.val.Error?
    ensures EvalStmt(fuel, LetStmt(t, name, value), env, h) == EvalExpr(fuel, value, env, h)
  {
  }

  /** A lookup reads only the frame it starts from and those before it. */
  lemma {:induction false} GetReadsEarlierFrames(h: Heap, h': Heap, e: nat, n: string)
    requires e < |h.frames| <= |h'.frames|
    requires forall i :: 0 <= i <= e ==> h'.frames[i] == h.frames[i]
    ensures Get(h', e, n) == Get(h, e, n)
    decreases e
  {
    var f := h.frames[e];
    if n !in f.store && f.outer.Some? && f.outer.value < e {
      GetReadsEarlierFrames(h, h', f.outer.value, n);
    }
  }

  /** Calling a named function without arguments changes no frame that
      existed before the call, so no lookup from the caller's scope (or
      from any closure's) changes: a `let` in the body binds in the call's
      own frame and shadows the outer name only there. */
  lemma CallKeepsExistingFrames(fuel: nat, t: Token.Token, f: Identifier, env: nat, h: Heap, e: nat, n: string)
    requires EvalExpr(fuel, Call(t, IdentExpr(f), []), env, h).Ok?
    requires e < |h.frames|
    ensures
      var h' := EvalExpr(fuel, Call(t, IdentExpr(f), []), env, h).value.heap;
      && (forall i :: 0 <= i < |h.frames| ==> h'.frames[i] == h.frames[i])
      && Get(h', e, n) == Get(h, e, n)
  {
    var e0 := Call(t, IdentExpr(f), []);
    var fn := EvalIdent(h, env, f.value);
    var h' := EvalExpr(fuel, e0, env, h).value.heap;
    assert EvalExpr(fuel, e0, env, h) == EvalCall(fuel, e0, env, h);
    assert EvalExpr(fuel, IdentExpr(f), env, h) == Ok(Res(fn, h));
    assert EvalExprs(fuel, [], 0, env, h, []) == Ok(Vals([], h));
    if !IsErr(fn) && fn.Function? {
      assert EvalExpr(fuel, e0, env, h) == ApplyFunction(fuel - 1, fn, [], h);
    }
    GetReadsEarlierFrames(h, h', e, n);
  }

  /** A binding in the current frame hides a builtin of the same name;
      without one, the builtin is found. */
  lemma BindingShadowsBuiltin(h: Heap, env: nat, v: Obj)
    requires env < |h.frames|
    ensures EvalIdent(Set(h, env, "len", v), env, "len") == v
    ensures EvalIdent(InitialHeap(), 0, "len") == Builtin(Len)
  {
    GetSetSame(h, env, "len", v);
  }

  /** `fn(x) { x }` as a user function value in frame `env`. */
  function IdentityFn(t: Token.Token, x: Identifier): Expr {
    FunctionLit(t, [x], Block(t, [ExprStmt(t, IdentExpr(x))]))
  }

  /** No value of the list is an error. */
  predicate NoErrors(vs: seq<Obj>) {
    forall j :: 0 <= j < |vs| ==> !IsErr(vs[j])
  }

  /** `evalExprs` ends in one of two shapes: the first error alone, or
      one value per remaining argument, in order after those already
      gathered, none of them an error. */
  lemma {:induction false} EvalExprsShape(fuel: nat, es: seq<Expr>, i: nat, env: nat, h: Heap, acc: seq<Obj>)
    requires i <= |es| && NoErrors(acc)
    ensures var r := EvalExprs(fuel, es, i, env, h, acc);
      r.Ok? ==>
        || (|r.value.vals| == 1 && IsErr(r.value.vals[0]))
        || (&& |r.value.vals| == |acc| + |es| - i && r.value.vals[..|acc|] == acc
            && NoErrors(r.value.vals))
    decreases |es| - i
  {
    if i < |es| {
      var er := EvalExpr(fuel, es[i], env, h);
      if er.Ok? && !IsErr(er.value.val) {
        var acc' := acc + [er.value.val];
        assert NoErrors(acc');
        EvalExprsShape(fuel, es, i + 1, env, er.value.heap, acc');
        var r := EvalExprs(fuel, es, i + 1, env, er.value.heap, acc');
        if r.Ok? && !(|r.value.vals| == 1 && IsErr(r.value.vals[0])) {
          assert r.value.vals[..|acc|] == r.value.vals[..|acc'|][..|acc|];
        }
      }
    }
  }

  /** An argument whose value is an error ends the list: the error
      alone is the result. */
  lemma ArgumentErrorIsResult(fuel: nat, es: seq<Expr>, i: nat, env: nat, h: Heap, acc: seq<Obj>)
    requires i < |es|
    requires EvalExpr(fuel, es[i], env, h).Ok? && IsErr(EvalExpr(fuel, es[i], env, h).value.val)
    ensures var er := EvalExpr(fuel, es[i], env, h).value;
      EvalExprs(fuel, es, i, env, h, acc) == Ok(Vals([er.val], er.heap))
  {
  }

  /** Once an error has ended the list, no later argument is evaluated:
      appending arguments changes nothing (they may even panic). */
  lemma {:induction false} ErrorEndsArguments(fuel: nat, es: seq<Expr>, more: seq<Expr>, i: nat, env: nat, h: Heap, acc: seq<Obj>)
    requires i <= |es| && NoErrors(acc)
    requires EvalExprs(fuel, es, i, env, h, acc).Ok?
    requires var vs := EvalExprs(fuel, es, i, env, h, acc).value.vals; |vs| == 1 && IsErr(vs[0])
    ensures EvalExprs(fuel, es + more, i, env, h, acc) == EvalExprs(fuel, es, i, env, h, acc)
    decreases |es| - i
  {
    assert i < |es|;
    assert (es + more)[i] == es[i];
    var er := EvalExpr(fuel, es[i], env, h);
    if !IsErr(er.value.val) {
      var acc' := acc + [er.value.val];
      assert NoErrors(acc');
      ErrorEndsArguments(fuel, es, more, i + 1, env, er.value.heap, acc');
    }
  }

  /** A callee whose value is an error is the result of the call; no
      argument is evaluated. */
  lemma CalleeErrorIsResult(fuel: nat, t: Token.Token, callee: Expr, args: seq<Expr>, env: nat, h: Heap)
    requires EvalExpr(fuel, callee, env, h).Ok? && IsErr(EvalExpr(fuel, callee, env, h).value.val)
    ensures EvalExpr(fuel, Call(t, callee, args), env, h) == EvalExpr(fuel, callee, env, h)
  {
  }

  /** When the callee is fine but an argument gives an error, that error
      is the result of the call and nothing is applied. */
  lemma ArgumentErrorIsCallResult(fuel: nat, t: Token.Token, callee: Expr, args: seq<Expr>, env: nat, h: Heap)
    requires EvalExpr(fuel, callee, env, h).Ok? && !IsErr(EvalExpr(fuel, callee, env, h).value.val)
    requires
      var a := EvalExprs(fuel, args, 0, env, EvalExpr(fuel, callee, env, h).value.heap, []);
      a.Ok? && |a.value.vals| == 1 && IsErr(a.value.vals[0])
    ensures
      var a := EvalExprs(fuel, args, 0, env, EvalExpr(fuel, callee, env, h).value.heap, []).value;
      EvalExpr(fuel, Call(t, callee, args), env, h) == Ok(Res(a.vals[0], a.heap))
  {
  }

  /** A call whose callee is a user function: once the callee and the
      arguments are evaluated without error, `applyFunc` runs with one
      unit of fuel less. */
  lemma CallAppliesFunction(fuel: nat, t: Token.Token, callee: Expr, args: seq<Expr>, env: nat, h: Heap)
    requires fuel > 0
    requires EvalExpr(fuel, callee, env, h).Ok?
    requires EvalExpr(fuel, callee, env, h).value.val.Function?
    requires
      var f := EvalExpr(fuel, callee, env, h).value;
      var a := EvalExprs(fuel, args, 0, env, f.heap, []);
      a.Ok? && !(|a.value.vals| == 1 && a.value.vals[0].Error?)
    ensures
      var f := EvalExpr(fuel, callee, env, h).value;
      var a := EvalExprs(fuel, args, 0, env, f.heap, []).value;
      EvalExpr(fuel, Call(t, callee, args), env, h) == ApplyFunction(fuel - 1, f.val, a.vals, a.heap)
  {
    var e0 := Call(t, callee, args);
    var f := EvalExpr(fuel, callee, env, h).value;
    var a := EvalExprs(fuel, args, 0, env, f.heap, []).value;
    if |a.vals| == 1 {
      IsErrMeansError(a.vals[0]);
    }
    assert !IsErr(f.val);
    assert EvalExpr(fuel, e0, env, h) == EvalCall(fuel, e0, env, h);
  }

  /** `applyFunc` on a user function: the body's block value in the frame
      `extendFuncEnv` makes, with one return-value wrapper removed. */
  lemma ApplyRunsBodyInNewFrame(fuel: nat, fn: Obj, args: seq<Obj>, h: Heap)
    requires fn.Function? && |fn.params| <= |args|
    ensures ExtendFuncEnv(fn.params, args, fn.env, h).Ok?
    ensures
      var (frame, h1) := ExtendFuncEnv(fn.params, args, fn.env, h).value;
      && frame == |h.frames| && h1.frames[frame].outer == Some(fn.env)
      && ApplyFunction(fuel, fn, args, h) == UnwrapOutcome(EvalBlock(fuel, fn.body, frame, h1))
  {
  }

  /** Calling `fn(x) { x }(2)` binds `x` to 2 in a new frame whose parent
      is the defining frame, and the body's value is the call's. */
  lemma CallBindsParameter(fuel: nat, t: Token.Token, x: Identifier, env: nat, h: Heap)
    requires fuel > 0
    ensures
      var r := EvalExpr(fuel, Call(t, IdentityFn(t, x), [IntegerLit(t, 2)]), env, h);
      r.Ok? && r.value.val == Integer(2) && |r.value.heap.frames| == |h.frames| + 1
  {
    var fe := IdentityFn(t, x);
    var h1 := h.(nextId := h.nextId + 1);
    var fn := Function(h.nextId, [x], fe.body, env);
    assert EvalExpr(fuel, fe, env, h) == Ok(Res(fn, h1));
    SingleLiteralArgument(fuel, t, env, h1);
    BindOneParameter(x, Integer(2), env, h1);
    var (frame, h3) := ExtendFuncEnv([x], [Integer(2)], env, h1).value;
    BodyReadsParameter(fuel - 1, t, x, frame, h3);
    CallAppliesFunction(fuel, t, fe, [IntegerLit(t, 2)], env, h);
  }

  /** One parameter, one argument: the new frame binds it. */
  lemma BindOneParameter(x: Identifier, v: Obj, outer: nat, h: Heap)
    ensures ExtendFuncEnv([x], [v], outer, h).Ok?
    ensures
      var (frame, h') := ExtendFuncEnv([x], [v], outer, h).value;
      frame == |h.frames| && |h'.frames| == |h.frames| + 1 && Get(h', frame, x.value) == Some(v)
  {
    assert LastOfName([x], 0);
  }

  lemma SingleLiteralArgument(fuel: nat, t: Token.Token, env: nat, h: Heap)
    ensures EvalExprs(fuel, [IntegerLit(t, 2)], 0, env, h, []) == Ok(Vals([Integer(2)], h))
  {
    assert EvalExpr(fuel, IntegerLit(t, 2), env, h) == Ok(Res(Integer(2), h));
    assert [] + [Integer(2)] == [Integer(2)];
    assert EvalExprs(fuel, [IntegerLit(t, 2)], 1, env, h, [Integer(2)]) == Ok(Vals([Integer(2)], h));
  }

  /** The body `{ x }` in a frame that binds `x` gives its value. */
  lemma BodyReadsParameter(fuel: nat, t: Token.Token, x: Identifier, frame: nat, h: Heap)
    requires Get(h, frame, x.value) == Some(Integer(2))
    ensures EvalBlock(fuel, IdentityFn(t, x).body, frame, h) == Ok(Res(Integer(2), h))
  {
    var ss := IdentityFn(t, x).body.stmts;
    assert EvalStmt(fuel, ss[0], frame, h) == Ok(Res(Integer(2), h));
    assert EvalBlockStmts(fuel, ss, 1, frame, h, Integer(2)) == Ok(Res(Integer(2), h));
  }

  /** Calling `fn(x) { x }()` with no argument indexes past the end of the
      argument list: a panic, not an error value. */
  lemma TooFewArgumentsPanics(fuel: nat, t: Token.Token, x: Identifier, env: nat, h: Heap)
    requires fuel > 0
    ensures EvalExpr(fuel, Call(t, IdentityFn(t, x), []), env, h) == Panic(IndexOutOfRange)
  {
    var fe := IdentityFn(t, x);
    var h1 := h.(nextId := h.nextId + 1);
    assert EvalExpr(fuel, fe, env, h) == Ok(Res(Function(h.nextId, [x], fe.body, env), h1));
    assert EvalExprs(fuel, [], 0, env, h1, []) == Ok(Vals([], h1));
    assert EvalCall(fuel, Call(t, fe, []), env, h) == Panic(IndexOutOfRange);
  }

  /** `{ if (true) { return 1; } }`: a `return` inside an `if` block. */
  function ReturnInIf(t: Token.Token): Block {
    Block(t, [ExprStmt(t, IfExpr(t, BooleanLit(t, true), Block(t, [ReturnStmt(t, IntegerLit(t, 1))]), None))])
  }

  /** The `if` passes the return value up once wrapped, and the block
      stops there. */
  lemma ReturnInIfIsWrappedOnce(fuel: nat, t: Token.Token, frame: nat, h: Heap)
    ensures var r := EvalBlock(fuel, ReturnInIf(t), frame, h);
      r.Ok? && r.value.val.ReturnValue? && r.value.val.value == Integer(1)
  {
    var inner := Block(t, [ReturnStmt(t, IntegerLit(t, 1))]);
    var rv := Res(ReturnValue(h.nextId, Integer(1)), h.(nextId := h.nextId + 1));
    assert EvalExpr(fuel, IntegerLit(t, 1), frame, h) == Ok(Res(Integer(1), h));
    assert EvalStmt(fuel, inner.stmts[0], frame, h) == Ok(rv);
    assert EvalBlockStmts(fuel, inner.stmts, 0, frame, h, Obj.Nil) == Ok(rv);
    var cond := BooleanLit(t, true);
    assert EvalExpr(fuel, cond, frame, h) == Ok(Res(Boolean(true), h));
    var ife := IfExpr(t, cond, inner, None);
    assert EvalExpr(fuel, ife, frame, h) == Ok(rv);
    var ss := ReturnInIf(t).stmts;
    assert EvalStmt(fuel, ss[0], frame, h) == Ok(rv);
    assert EvalBlockStmts(fuel, ss, 0, frame, h, Obj.Nil) == Ok(rv);
  }

  /** So a function whose body returns from inside an `if` gives the
      plain value to its caller: `unwrapRValue` removes the one
      wrapper. */
  lemma ReturnInsideIfIsUnwrapped(fuel: nat, t: Token.Token, id: nat, env: nat, h: Heap)
    ensures var r := ApplyFunction(fuel, Function(id, [], ReturnInIf(t), env), [], h);
      r.Ok? && r.value.val == Integer(1)
  {
    var fn := Function(id, [], ReturnInIf(t), env);
    ApplyRunsBodyInNewFrame(fuel, fn, [], h);
    var (frame, h1) := ExtendFuncEnv(fn.params, [], fn.env, h).value;
    ReturnInIfIsWrappedOnce(fuel, t, frame, h1);
  }

  /** An integer infix node with no right operand dereferences nil,
      and so does a program that starts with one. */
  lemma MissingOperandPanics(fuel: nat, t: Token.Token, t2: Token.Token)
    ensures EvalProgram(fuel, Program([ExprStmt(t, Infix(t, IntegerLit(t, 1), "1", Expr.Nil)), ExprStmt(t2, Expr.Nil)]), 0, InitialHeap())
      == Panic(NilDereference)
  {
    var h := InitialHeap();
    var one := IntegerLit(t, 1);
    var bad := Infix(t, one, "1", Expr.Nil);
    assert EvalExpr(fuel, one, 0, h) == Ok(Res(Integer(1), h));
    assert EvalExpr(fuel, Expr.Nil, 0, h) == Ok(Res(Obj.Nil, h));
    assert !IsErr(Integer(1)) && !IsErr(Obj.Nil);
    assert EvalInfix(fuel, bad, 0, h) == Panic(NilDereference);
    assert EvalStmt(fuel, ExprStmt(t, bad), 0, h) == Panic(NilDereference);
  }

  /** `(1 + 2)` evaluates to 3. */
  lemma SumIsThree(fuel: nat, t0: Token.Token, t1: Token.Token, t2: Token.Token)
    ensures var r := EvalProgram(fuel, Program([ExprStmt(t0, Infix(t1, IntegerLit(t0, 1), "+", IntegerLit(t2, 2)))]), 0, InitialHeap());
      r.Ok? && r.value.val == Integer(3)
  {
    var h := InitialHeap();
    var sum := Infix(t1, IntegerLit(t0, 1), "+", IntegerLit(t2, 2));
    assert EvalExpr(fuel, IntegerLit(t0, 1), 0, h) == Ok(Res(Integer(1), h));
    assert EvalExpr(fuel, IntegerLit(t2, 2), 0, h) == Ok(Res(Integer(2), h));
    assert !IsErr(Integer(1)) && !IsErr(Integer(2));
    assert EvalInfixOp("+", Integer(1), Integer(2)) == Ok(Integer(3));
    assert EvalInfix(fuel, sum, 0, h) == Ok(Res(Integer(3), h));
    assert EvalStmt(fuel, ExprStmt(t0, sum), 0, h) == Ok(Res(Integer(3), h));
    assert EvalProgramStmts(fuel, [ExprStmt(t0, sum)], 1, 0, h, Integer(3)) == Ok(Res(Integer(3), h));
  }

  /** `1 + 2` through the program's own parser: the first statement is
      an infix node with no right operand, and evaluating it dereferences
      nil. The one-state parser's program gives 3. */
  lemma OnePlusTwoPanics(fuel: nat)
    ensures var toks := ParserAsWritten.OnePlusTwoTokens();
      && ParserAsWritten.ParseProgram(toks).Ok?
      && EvalProgram(fuel, ParserAsWritten.ParseProgram(toks).value.program, 0, InitialHeap()) == Panic(NilDereference)
    ensures var toks := ParserAsWritten.OnePlusTwoTokens();
      && Parser.ParseProgram(toks).Ok?
      && EvalProgram(fuel, Parser.ParseProgram(toks).value.program, 0, InitialHeap()).Ok?
      && EvalProgram(fuel, Parser.ParseProgram(toks).value.program, 0, InitialHeap()).value.val == Integer(3)
  {
    var toks := ParserAsWritten.OnePlusTwoTokens();
    ParserAsWritten.OnePlusTwo(toks);
    MissingOperandPanics(fuel, toks[0], toks[2]);
    SumIsThree(fuel, toks[0], toks[1], toks[2]);
  }
}

=== FILE: evaluator.dfy ===
/** The tree-walking evaluator of `evaluator.go`.

    `Eval(node, env)` becomes a family of functions that take the
    environment as a frame index into a heap and return the value together
    with the heap after it; a Go runtime panic is `Panic`. Function calls
    re-enter bodies without bound, so every evaluation carries a call
    budget `fuel`, spent one unit per call of a user function; running out
    is `OutOfFuel`, which the Go program has no counterpart for.

    The evaluator's `TRUE`, `FALSE` and `NULL` are `Boolean(true)`,
    `Boolean(false)` and `Null`: every boolean it creates comes from
    `getBoolObj`, so a `Boolean` value is always one of the two
    singletons. */
module Evaluator {
  import opened Outcomes
  import opened GoInt
  import opened Ast
  import opened Objects
  import opened Env
  import opened Builtins
  import Parser
  import ParserAsWritten

  /** A value and the heap after computing it. */
  datatype Res = Res(val: Obj, heap: Heap)

  /** A list of values (`evalExprs`) and the heap after computing them. */
  datatype Vals = Vals(vals: seq<Obj>, heap: Heap)

  /** What any evaluation in frame `env` may do to the heap: add frames,
      draw identities, and change frame `env`; every other existing frame
      is left as it was. */
  predicate Evolves(h: Heap, h': Heap, env: nat) {
    && |h.frames| <= |h'.frames| && h.nextId <= h'.nextId
    && forall i :: 0 <= i < |h.frames| && i != env ==> h'.frames[i] == h.frames[i]
  }

  /** `isTruthy`: NULL and FALSE are falsy, every other value (0, the empty
      string, nil) is truthy. */
  predicate IsTruthy(o: Obj) {
    match o
    case Null => false
    case Boolean(b) => b
    case _ => true
  }

  /** `evalBangOp`, a switch on the singletons. */
  function Bang(o: Obj): (r: Obj)
    ensures r == Boolean(!IsTruthy(o))
  {
    match o
    case Boolean(b) => if b then Boolean(false) else Boolean(true)
    case Null => Boolean(true)
    case _ => Boolean(false)
  }

  /** `evalPrefixExpr`: `!` takes any value, `-` negates an integer (with
      wrap-around at `MinInt64`); asking the type of nil panics. */
  function EvalPrefixOp(op: string, right: Obj): (r: Outcome<Obj>)
    ensures op == "!" ==> r == Ok(Boolean(!IsTruthy(right)))
    ensures op == "-" && right.Integer? ==>
      r.Ok? && r.value.Integer? && (r.value.ival + right.ival) % TwoTo64 == 0
    ensures op == "-" && right.Integer? && right.ival != MinInt64 ==> r == Ok(Integer(-right.ival))
    ensures op == "-" && !right.Nil? && !right.Integer? ==>
      r == Ok(Error(UnknownMinusOperand(TypeOf(right))))
    ensures op != "!" && op != "-" && !right.Nil? ==>
      r == Ok(Error(UnknownPrefixOperator(op, TypeOf(right))))
    ensures r.Panic? <==> op != "!" && right.Nil?
  {
    if op == "!" then Ok(Bang(right))
    else if right.Nil? then Panic(NilDereference)
    else if op == "-" then
      if right.Integer? then Ok(Integer(Wrap(-(right.ival as int))))
      else Ok(Error(UnknownMinusOperand(TypeOf(right))))
    else Ok(Error(UnknownPrefixOperator(op, TypeOf(right))))
  }

  /** `evalIntInfixExpr` on two `int64` values. `+` and `*` wrap around;
      `-` is written as an addition; `/` truncates toward zero and panics
      on a zero divisor; the comparisons give the boolean singletons. */
  function IntInfix(op: string, a: int64, b: int64): (r: Outcome<Obj>)
    ensures op == "+" || op == "-" ==> r.Ok? && r.value.Integer? && (r.value.ival - (a + b)) % TwoTo64 == 0
    ensures op == "*" ==> r.Ok? && r.value.Integer? && (r.value.ival - a * b) % TwoTo64 == 0
    ensures r.Panic? <==> op == "/" && b == 0
    ensures op == "/" && b != 0 && !(a == MinInt64 && b == -1) ==> r == Ok(Integer(TruncDiv(a, b)))
    ensures op == "<" ==> r == Ok(Boolean(a < b))
    ensures op == ">" ==> r == Ok(Boolean(a > b))
    ensures op == "==" ==> r == Ok(Boolean(a == b))
    ensures op == "!=" ==> r == Ok(Boolean(a != b))
    ensures op !in ["+", "-", "*", "/", "<", ">", "==", "!="] ==>
      r == Ok(Error(UnknownOperator(IntegerObj, op, IntegerObj)))
  {
    if op == "+" then Ok(Integer(Wrap(a + b)))
    else if op == "-" then Ok(Integer(Wrap(a + b)))
    else if op == "*" then Ok(Integer(Wrap(a * b)))
    else if op == "/" then
      if b == 0 then Panic(DivideByZero) else Ok(Integer(Div64(a, b)))
    else if op == "<" then Ok(Boolean(a < b))
    else if op == ">" then Ok(Boolean(a > b))
    else if op == "==" then Ok(Boolean(a == b))
    else if op == "!=" then Ok(Boolean(a != b))
    else Ok(Error(UnknownOperator(IntegerObj, op, IntegerObj)))
  }

  /** `evalStringInfixExpr`: only concatenation. */
  function StringInfix(op: string, a: string, b: string): (r: Obj)
    ensures op == "+" ==> r.Str? && |r.sval| == |a| + |b| && r.sval[..|a|] == a && r.sval[|a|..] == b
    ensures op != "+" ==> r == Error(UnknownStringOperator(StringObj, op, StringObj))
  {
    if op != "+" then Error(UnknownStringOperator(StringObj, op, StringObj))
    else Str(a + b)
  }

  /** The operand pairs `evalInfixExpr` hands to its `==` and `!=` cases:
      a non-nil left operand that is neither an integer nor a string, or
      one whose partner is neither nil nor of its own type. Any such pair
      is compared by identity. */
  predicate ComparedByIdentity(l: Obj, r: Obj) {
    && !l.Nil?
    && !(l.Integer? && (r.Integer? || r.Nil?))
    && !(l.Str? && (r.Str? || r.Nil?))
  }

  /** `evalInfixExpr`. Its first two cases ask the left operand's type and
      then the right one's, so a nil operand panics unless the left is
      neither an integer nor a string and the operator is `==` or `!=`. */
  function EvalInfixOp(op: string, l: Obj, r: Obj): (res: Outcome<Obj>)
    ensures l.Integer? && r.Integer? ==> res == IntInfix(op, l.ival, r.ival)
    ensures l.Str? && r.Str? ==> res == Ok(StringInfix(op, l.sval, r.sval))
    ensures ComparedByIdentity(l, r) && op == "==" ==> res == Ok(Boolean(SameObject(l, r)))
    ensures ComparedByIdentity(l, r) && op == "!=" ==> res == Ok(Boolean(!SameObject(l, r)))
    ensures ComparedByIdentity(l, r) && !r.Nil? && op != "==" && op != "!=" ==>
      res.Ok? && res.value.Error?
      && (res.value.msg.TypeMismatch? <==> TypeOf(l) != TypeOf(r))
      && (res.value.msg.UnknownOperator? <==> TypeOf(l) == TypeOf(r))
    ensures res.Panic? <==>
      || l.Nil?
      || (r.Nil? && (l.Integer? || l.Str? || (op != "==" && op != "!=")))
      || (l.Integer? && r.Integer? && op == "/" && r.ival == 0)
  {
    if l.Nil? then Panic(NilDereference)
    else if l.Integer? && r.Nil? then Panic(NilDereference)
    else if l.Integer? && r.Integer? then IntInfix(op, l.ival, r.ival)
    else if l.Str? && r.Nil? then Panic(NilDereference)
    else if l.Str? && r.Str? then Ok(StringInfix(op, l.sval, r.sval))
    else if op == "==" then Ok(Boolean(SameObject(l, r)))
    else if op == "!=" then Ok(Boolean(!SameObject(l, r)))
    else if r.Nil? then Panic(NilDereference)
    else if TypeOf(l) != TypeOf(r) then Ok(Error(TypeMismatch(TypeOf(l), op, TypeOf(r))))
    else Ok(Error(UnknownOperator(TypeOf(l), op, TypeOf(r))))
  }

  /** `evalIndexExpr` and `evalArrIndexExpr`: an in-range index into an
      array gives the element, any other integer gives NULL. */
  function EvalIndexOp(left: Obj, index: Obj): (r: Outcome<Obj>)
    ensures left.Array? && index.Integer? && 0 <= index.ival < |left.elems| ==>
      r == Ok(left.elems[index.ival])
    ensures left.Array? && index.Integer? && !(0 <= index.ival < |left.elems|) ==> r == Ok(Null)
    ensures !left.Nil? && !(left.Array? && index.Integer?) && !(left.Array? && index.Nil?) ==>
      r == Ok(Error(UnsupportedIndex(TypeOf(left))))
    ensures r.Panic? <==> left.Nil? || (left.Array? && index.Nil?)
  {
    if left.Nil? then Panic(NilDereference)
    else if left.Array? && index.Nil? then Panic(NilDereference)
    else if left.Array? && index.Integer? then
      if index.ival < 0 || index.ival > |left.elems| - 1 then Ok(Null)
      else Ok(left.elems[index.ival])
    else Ok(Error(UnsupportedIndex(TypeOf(left))))
  }

  /** `unwrapRValue`: removes one return-value wrapper. */
  function Unwrap(o: Obj): (r: Obj)
    ensures o.ReturnValue? ==> r == o.value
    ensures !o.ReturnValue? ==> r == o
  {
    if o.ReturnValue? then o.value else o
  }

  /** `evalId`: the environment chain first, then the builtins, then an
      error. */
  function EvalIdent(h: Heap, env: nat, name: string): (r: Obj)
    ensures Get(h, env, name).Some? ==> r == Get(h, env, name).value
    ensures Get(h, env, name).None? && BuiltinOf(name).Some? ==> r == Builtin(BuiltinOf(name).value)
    ensures Get(h, env, name).None? && BuiltinOf(name).None? ==> r == Error(IdNotFound(name))
  {
    match Get(h, env, name)
    case Some(v) => v
    case None =>
      match BuiltinOf(name)
      case Some(b) => Builtin(b)
      case None => Error(IdNotFound(name))
  }

  /** The names of a parameter list. */
  function Names(params: seq<Identifier>): set<string> {
    if |params| == 0 then {} else Names(params[..|params| - 1]) + {params[|params| - 1].value}
  }

  /** The `Set` calls of `extendFuncEnv`'s loop, parameter by parameter in
      order, into frame `frame`. */
  function BindParams(params: seq<Identifier>, args: seq<Obj>, frame: nat, h: Heap): (r: Heap)
    requires |params| <= |args| && frame < |h.frames|
    ensures |r.frames| == |h.frames| && r.nextId == h.nextId
    ensures forall i :: 0 <= i < |h.frames| && i != frame ==> r.frames[i] == h.frames[i]
    ensures r.frames[frame].outer == h.frames[frame].outer
    ensures r.frames[frame].store.Keys == h.frames[frame].store.Keys + Names(params)
  {
    if |params| == 0 then h
    else
      var n := |params| - 1;
      Set(BindParams(params[..n], args, frame, h), frame, params[n].value, args[n])
  }

  /** No later parameter has the same name as parameter `i`, so `i`'s
      argument is the one that stays bound. */
  predicate LastOfName(params: seq<Identifier>, i: nat) {
    forall j :: i < j < |params| ==> params[j].value != params[i].value
  }

  lemma {:induction false} InNames(params: seq<Identifier>, i: nat)
    requires i < |params|
    ensures params[i].value in Names(params)
  {
    var n := |params| - 1;
    if i < n {
      InNames(params[..n], i);
      assert params[..n][i] == params[i];
    }
  }

  /** Parameters are bound positionally: each name is bound to the
      argument at the position of its last occurrence. */
  lemma {:induction false} BindParamsPositional(params: seq<Identifier>, args: seq<Obj>, frame: nat, h: Heap, i: nat)
    requires |params| <= |args| && frame < |h.frames|
    requires i < |params| && LastOfName(params, i)
    ensures params[i].value in BindParams(params, args, frame, h).frames[frame].store
    ensures BindParams(params, args, frame, h).frames[frame].store[params[i].value] == args[i]
  {
    InNames(params, i);
    var n := |params| - 1;
    if i < n {
      var ps := params[..n];
      assert ps[i] == params[i];
      assert LastOfName(ps, i) by {
        forall j | i < j < |ps|
          ensures ps[j].value != ps[i].value
        {
          assert ps[j] == params[j];
        }
      }
      BindParamsPositional(ps, args, frame, h, i);
      var h1 := BindParams(ps, args, frame, h);
      assert params[n].value != params[i].value;
      assert BindParams(params, args, frame, h) == Set(h1, frame, params[n].value, args[n]);
    }
  }

  /** `extendFuncEnv`: a fresh frame enclosed by the function's captured
      environment, with the parameters bound positionally. A call with
      fewer arguments than parameters indexes past the end of `args` and
      panics; extra arguments are ignored. */
  function ExtendFuncEnv(params: seq<Identifier>, args: seq<Obj>, outer: nat, h: Heap): (r: Outcome<(nat, Heap)>)
    ensures r.Panic? <==> |args| < |params|
    ensures r.Ok? || r.Panic?
    ensures r.Ok? ==>
      var (frame, h') := r.value;
      && frame == |h.frames| && |h'.frames| == frame + 1 && Evolves(h, h', frame)
      && h'.frames[frame].outer == Some(outer)
      && h'.frames[frame].store.Keys == Names(params)
      && forall i :: 0 <= i < |params| && LastOfName(params, i) ==>
           params[i].value in h'.frames[frame].store && h'.frames[frame].store[params[i].value] == args[i]
  {
    if |args| < |params| then Panic(IndexOutOfRange)
    else
      var (frame, h1) := NewEnclosed(h, outer);
      var h2 := BindParams(params, args, frame, h1);
      assert forall i :: 0 <= i < |params| && LastOfName(params, i) ==>
        params[i].value in h2.frames[frame].store && h2.frames[frame].store[params[i].value] == args[i] by {
        forall i | 0 <= i < |params| && LastOfName(params, i)
          ensures params[i].value in h2.frames[frame].store && h2.frames[frame].store[params[i].value] == args[i]
        {
          BindParamsPositional(params, args, frame, h1, i);
        }
      }
      Ok((frame, h2))
  }

  /** `applyFunc` for everything but a user function: a builtin gets the
      arguments as they are (and a fresh identity for the array it may
      allocate), nil panics, and any other value is not callable. */
  function ApplyNonFunction(fn: Obj, args: seq<Obj>, h: Heap): (r: Outcome<Res>)
    requires !fn.Function?
    ensures fn.Builtin? ==> r.Ok? || r.Panic?
    ensures fn.Builtin? && r.Ok? ==>
      ApplyBuiltin(fn.name, args, h.nextId).Ok? && r.value.val == ApplyBuiltin(fn.name, args, h.nextId).value
    ensures fn.Nil? ==> r == Panic(NilDereference)
    ensures !fn.Builtin? && !fn.Nil? ==> r == Ok(Res(Error(NotAFunction(TypeOf(fn))), h))
    ensures r.Ok? ==> r.value.heap.frames == h.frames && h.nextId <= r.value.heap.nextId
  {
    if fn.Builtin? then
      var (id, h1) := Fresh(h);
      var v :- ApplyBuiltin(fn.name, args, id);
      Ok(Res(v, h1))
    else if fn.Nil? then Panic(NilDereference)
    else Ok(Res(Error(NotAFunction(TypeOf(fn))), h))
  }

  /** `Eval` on an expression. */
  function EvalExpr(fuel: nat, e: Expr, env: nat, h: Heap): (r: Outcome<Res>)
    ensures r.Ok? ==> Evolves(h, r.value.heap, env)
    decreases fuel, e
  {
    match e
    case Nil => Ok(Res(Obj.Nil, h))
    case IdentExpr(id) => Ok(Res(EvalIdent(h, env, id.value), h))
    case IntegerLit(_, v) => Ok(Res(Integer(v), h))
    case StringLit(_, s) => Ok(Res(Str(s), h))
    case BooleanLit(_, b) => Ok(Res(Boolean(b), h))
    case Prefix(_, op, right) =>
      var rr :- EvalExpr(fuel, right, env, h);
      if IsErr(rr.val) then Ok(rr)
      else
        var v :- EvalPrefixOp(op, rr.val);
        Ok(Res(v, rr.heap))
    case Infix(_, _, _, _) => EvalInfix(fuel, e, env, h)
    case IfExpr(_, cond, cons, alt) =>
      var cr :- EvalExpr(fuel, cond, env, h);
      if IsErr(cr.val) then Ok(cr)
      else if IsTruthy(cr.val) then EvalBlock(fuel, cons, env, cr.heap)
      else if alt.Some? then EvalBlock(fuel, alt.value, env, cr.heap)
      else Ok(Res(Null, cr.heap))
    case FunctionLit(_, params, body) =>
      var (id, h1) := Fresh(h);
      Ok(Res(Function(id, params, body, env), h1))
    case Call(_, _, _) => EvalCall(fuel, e, env, h)
    case ArrLit(_, elems) =>
      var ar :- EvalExprs(fuel, elems, 0, env, h, []);
      if |ar.vals| == 1 && IsErr(ar.vals[0]) then Ok(Res(ar.vals[0], ar.heap))
      else
        var (id, h1) := Fresh(ar.heap);
        Ok(Res(Array(id, ar.vals), h1))
    case Index(_, left, index) =>
      var lr :- EvalExpr(fuel, left, env, h);
      if IsErr(lr.val) then Ok(Res(Obj.Nil, lr.heap))
      else
        var ir :- EvalExpr(fuel, index, env, lr.heap);
        if IsErr(ir.val) then Ok(ir)
        else
          var v :- EvalIndexOp(lr.val, ir.val);
          Ok(Res(v, ir.heap))
  }

  /** The infix case of `Eval`: an error in an operand is the result, the
      left one first. */
  function EvalInfix(fuel: nat, e: Expr, env: nat, h: Heap): (r: Outcome<Res>)
    requires e.Infix?
    ensures r.Ok? ==> Evolves(h, r.value.heap, env)
    decreases fuel, e, 1
  {
    var lr :- EvalExpr(fuel, e.left, env, h);
    if IsErr(lr.val) then Ok(lr)
    else
      var rr :- EvalExpr(fuel, e.right, env, lr.heap);
      if IsErr(rr.val) then Ok(rr)
      else
        var v :- EvalInfixOp(e.op, lr.val, rr.val);
        Ok(Res(v, rr.heap))
  }

  /** The call case of `Eval` with `applyFunc`: the callee, then the
      arguments left to right, stopping at the first error; calling a
      user function spends one unit of fuel. */
  function EvalCall(fuel: nat, e: Expr, env: nat, h: Heap): (r: Outcome<Res>)
    requires e.Call?
    ensures r.Ok? ==> Evolves(h, r.value.heap, env)
    decreases fuel, e, 1
  {
    var fr :- EvalExpr(fuel, e.callee, env, h);
    if IsErr(fr.val) then Ok(fr)
    else
      var ar :- EvalExprs(fuel, e.args, 0, env, fr.heap, []);
      if |ar.vals| == 1 && IsErr(ar.vals[0]) then Ok(Res(ar.vals[0], ar.heap))
      else if fr.val.Function? then
        if fuel == 0 then OutOfFuel else ApplyFunction(fuel - 1, fr.val, ar.vals, ar.heap)
      else ApplyNonFunction(fr.val, ar.vals, ar.heap)
  }

  /** `applyFunc` for a user function, with the fuel left for its body:
      the body runs as a block in a new frame enclosed by the captured
      environment, and a return value it ends with is unwrapped. No frame
      that existed before the call changes. */
  function ApplyFunction(fuel: nat, fn: Obj, args: seq<Obj>, h: Heap): (r: Outcome<Res>)
    requires fn.Function?
    ensures r.Ok? ==> Evolves(h, r.value.heap, |h.frames|)
    decreases fuel
  {
    var (frame, h1) :- ExtendFuncEnv(fn.params, args, fn.env, h);
    var br :- EvalBlock(fuel, fn.body, frame, h1);
    Ok(Res(Unwrap(br.val), br.heap))
  }

  /** `evalExprs` from position `i`, with the values so far in `acc`: the
      first error replaces the whole list. */
  function EvalExprs(fuel: nat, es: seq<Expr>, i: nat, env: nat, h: Heap, acc: seq<Obj>): (r: Outcome<Vals>)
    requires i <= |es|
    ensures r.Ok? ==> Evolves(h, r.value.heap, env)
    decreases fuel, es, |es| - i
  {
    if i == |es| then Ok(Vals(acc, h))
    else
      var er :- EvalExpr(fuel, es[i], env, h);
      if IsErr(er.val) then Ok(Vals([er.val], er.heap))
      else EvalExprs(fuel, es, i + 1, env, er.heap, acc + [er.val])
  }

  /** `Eval` on a statement. A `let` binds in the current frame and has
      no value; the nil statement a failed `let` leaves panics. */
  function EvalStmt(fuel: nat, s: Stmt, env: nat, h: Heap): (r: Outcome<Res>)
    ensures r.Ok? ==> Evolves(h, r.value.heap, env)
    decreases fuel, s
  {
    match s
    case LetStmt(_, name, value) =>
      var vr :- EvalExpr(fuel, value, env, h);
      if IsErr(vr.val) then Ok(vr)
      else Ok(Res(Obj.Nil, Set(vr.heap, env, name.value, vr.val)))
    case NilLet => Panic(NilDereference)
    case ReturnStmt(_, value) =>
      var vr :- EvalExpr(fuel, value, env, h);
      if IsErr(vr.val) then Ok(vr)
      else
        var (id, h1) := Fresh(vr.heap);
        Ok(Res(ReturnValue(id, vr.val), h1))
    case ExprStmt(_, e) => EvalExpr(fuel, e, env, h)
    case BlockStmt(b) => EvalBlock(fuel, b, env, h)
  }

  /** `evalBlockStmt`: in the same frame (a block opens no scope). */
  function EvalBlock(fuel: nat, b: Block, env: nat, h: Heap): (r: Outcome<Res>)
    ensures r.Ok? ==> Evolves(h, r.value.heap, env)
    decreases fuel, b
  {
    EvalBlockStmts(fuel, b.stmts, 0, env, h, Obj.Nil)
  }

  /** A return value or an error ends a statement sequence. */
  predicate Signal(o: Obj) {
    o.ReturnValue? || o.Error?
  }

  /** The loop of `evalBlockStmt` from statement `i`, `last` holding the
      previous statement's value: a signal is returned as it is. */
  function EvalBlockStmts(fuel: nat, ss: seq<Stmt>, i: nat, env: nat, h: Heap, last: Obj): (r: Outcome<Res>)
    requires i <= |ss|
    ensures r.Ok? ==> Evolves(h, r.value.heap, env)
    decreases fuel, ss, |ss| - i
  {
    if i == |ss| then Ok(Res(last, h))
    else
      var sr :- EvalStmt(fuel, ss[i], env, h);
      if !sr.val.Nil? && Signal(sr.val) then Ok(sr)
      else EvalBlockStmts(fuel, ss, i + 1, env, sr.heap, sr.val)
  }

  /** The loop of `evalProg` from statement `i`: it stops at the same
      signals, but a return value is unwrapped. */
  function EvalProgramStmts(fuel: nat, ss: seq<Stmt>, i: nat, env: nat, h: Heap, last: Obj): (r: Outcome<Res>)
    requires i <= |ss|
    ensures r.Ok? ==> Evolves(h, r.value.heap, env)
    decreases |ss| - i
  {
    if i == |ss| then Ok(Res(last, h))
    else
      var sr :- EvalStmt(fuel, ss[i], env, h);
      if sr.val.ReturnValue? then Ok(Res(sr.val.value, sr.heap))
      else if sr.val.Error? then Ok(sr)
      else EvalProgramStmts(fuel, ss, i + 1, env, sr.heap, sr.val)
  }

  /** `evalProg`, the value of the last statement, nil for none. */
  function EvalProgram(fuel: nat, p: Program, env: nat, h: Heap): (r: Outcome<Res>)
    ensures r.Ok? ==> Evolves(h, r.value.heap, env)
  {
    EvalProgramStmts(fuel, p.stmts, 0, env, h, Obj.Nil)
  }

  /** What the driver does with a source text: `NewParser` and
      `ParseProg`, as the program has them, then the program evaluated,
      parse errors or not, in a fresh environment. */
  function Run(fuel: nat, src: seq<Lexer.byte>): (r: Outcome<Obj>)
    ensures ParserAsWritten.ParseSource(src).Hang? ==> r.Hang?
    ensures r.Ok? ==> ParserAsWritten.ParseSource(src).Ok?
  {
    var pr :- ParserAsWritten.ParseSource(src);
    var res :- EvalProgram(fuel, pr.program, 0, InitialHeap());
    Ok(res.val)
  }

  /** The same driver on the one-state parser that drops nil `let`
      statements. */
  function RunCorrected(fuel: nat, src: seq<Lexer.byte>): (r: Outcome<Obj>)
    ensures Parser.Parse(src).Hang? ==> r.Hang?
    ensures r.Ok? ==> Parser.Parse(src).Ok?
  {
    var pr :- Parser.Parse(src);
    var res :- EvalProgram(fuel, pr.program, 0, InitialHeap());
    Ok(res.val)
  }
}

=== FILE: goint.dfy ===
/** Go's `int64` arithmetic and the two conversions between integers and
    decimal text that the program uses: `strconv.ParseInt(lit, 0, 64)` in
    the parser (restricted to the digit strings the scanner produces) and
    `fmt.Sprintf("%d", v)` in `Inspect` and the error messages. */
module GoInt {
  import opened Outcomes

  const MinInt64: int := -0x8000_0000_0000_0000
  const MaxInt64: int := 0x7fff_ffff_ffff_ffff
  const TwoTo64: int := 0x1_0000_0000_0000_0000

  type int64 = x: int | MinInt64 <= x <= MaxInt64

  /** Two's-complement wrap-around of a mathematical integer into `int64`. */
  function Wrap(x: int): (r: int64)
    ensures (r - x) % TwoTo64 == 0
    ensures MinInt64 <= x <= MaxInt64 ==> r == x
  {
    (x - MinInt64) % TwoTo64 + MinInt64
  }

  /** Integer division rounding toward zero, as in Go (Dafny's own `/` is
      Euclidean). */
  function TruncDiv(a: int, b: int): int
    requires b != 0
  {
    var ua := if a < 0 then -a else a;
    var ub := if b < 0 then -b else b;
    var uq := ua / ub;
    if (a < 0) == (b < 0) then uq else -uq
  }

  /** The quotient rounds toward zero: the remainder takes the sign of the
      dividend and is smaller in magnitude than the divisor. */
  lemma TruncDivRemainder(a: int, b: int)
    requires b != 0
    ensures var rem := a - TruncDiv(a, b) * b;
      && (rem == 0 || (rem < 0 <==> a < 0))
      && (if rem < 0 then -rem else rem) < (if b < 0 then -b else b)
  {
    var ua: nat := if a < 0 then -a else a;
    var ub: nat := if b < 0 then -b else b;
    var uq := ua / ub;
    var ur := ua % ub;
    assert ua == uq * ub + ur && 0 <= ur < ub;
    var q := TruncDiv(a, b);
    if (a < 0) == (b < 0) {
      assert q == uq;
      if b < 0 {
        MulNeg(uq, ub);
      }
      assert q * b == (if a < 0 then -(uq * ub) else uq * ub);
    } else {
      assert q == -uq;
      if b < 0 {
        MulNeg(uq, ub);
        MulNeg(-uq, ub);
      } else {
        MulNeg(ub, uq);
      }
      assert q * b == (if a < 0 then -(uq * ub) else uq * ub);
    }
    assert a - q * b == (if a < 0 then -ur else ur);
  }

  lemma MulNeg(x: int, y: int)
    ensures x * -y == -(x * y)
    ensures -x * y == -(x * y)
  {
  }

  /** Go's `/` on `int64`: truncating, and `MinInt64 / -1` wraps back to
      `MinInt64`. The caller handles a zero divisor. */
  function Div64(a: int64, b: int64): (r: int64)
    requires b != 0
    ensures !(a == MinInt64 && b == -1) ==> r == TruncDiv(a, b)
    ensures a == MinInt64 && b == -1 ==> r == MinInt64
  {
    if a == MinInt64 && b == -1 then MinInt64
    else
      TruncDivInRange(a, b);
      TruncDiv(a, b)
  }

  lemma QuotientBound(ua: nat, ub: nat)
    requires ub >= 1
    ensures ub == 1 ==> ua / ub == ua
    ensures ub >= 2 ==> 2 * (ua / ub) <= ua
  {
    var q := ua / ub;
    assert q * ub <= ua;
    if ub >= 2 {
      assert 2 * q <= q * ub;
    }
  }

  /** Only `MinInt64 / -1` leaves the `int64` range. */
  lemma TruncDivInRange(a: int64, b: int64)
    requires b != 0 && !(a == MinInt64 && b == -1)
    ensures MinInt64 <= TruncDiv(a, b) <= MaxInt64
  {
    var ua: nat := if a < 0 then -(a as int) else a as int;
    var ub: nat := if b < 0 then -(b as int) else b as int;
    QuotientBound(ua, ub);
    if ub == 1 {
      assert ua / ub == ua;
    } else {
      assert 2 * (ua / ub) <= ua <= -MinInt64;
    }
  }

  function DigitChar(d: nat): (c: char)
    requires d < 10
    ensures '0' <= c <= '9' && c as int - '0' as int == d
  {
    (d + '0' as int) as char
  }

  /** `%d` of a non-negative number: most significant digit first, no
      leading zero. */
  function NatToDecimal(n: nat): (s: string)
    ensures |s| > 0
    ensures forall i :: 0 <= i < |s| ==> '0' <= s[i] <= '9'
    ensures |s| > 1 ==> s[0] != '0'
    ensures n == 0 <==> s == "0"
    decreases n
  {
    if n < 10 then [DigitChar(n)] else NatToDecimal(n / 10) + [DigitChar(n % 10)]
  }

  /** `%d` of any integer. */
  function IntToDecimal(n: int): string {
    if n < 0 then "-" + NatToDecimal(-n) else NatToDecimal(n)
  }

  predicate IsDigits(s: string) {
    forall i :: 0 <= i < |s| ==> '0' <= s[i] <= '9'
  }

  /** The value of a digit string in a base, most significant digit first. */
  function DigitsValue(s: string, base: nat): nat
    requires IsDigits(s)
  {
    if |s| == 0 then 0
    else DigitsValue(s[..|s| - 1], base) * base + (s[|s| - 1] as int - '0' as int)
  }

  predicate DigitsBelow(s: string, base: nat)
    requires IsDigits(s)
  {
    forall i :: 0 <= i < |s| ==> s[i] as int - '0' as int < base
  }

  /** `strconv.ParseInt(lit, 0, 64)` on the literals the scanner can
      produce: a leading `0` selects octal for the rest (so `"09"` fails),
      otherwise decimal; a value above `MaxInt64` fails. Anything that is
      not a non-empty digit string fails too (the base prefixes `0x`, `0b`,
      `0o` and underscores that Go would accept never reach it). */
  function ParseInt(lit: string): Option<int64> {
    if |lit| == 0 || !IsDigits(lit) then None
    else
      var base := if lit[0] == '0' then 8 else 10;
      var digits := if lit[0] == '0' then lit[1..] else lit;
      if DigitsBelow(digits, base) && DigitsValue(digits, base) <= MaxInt64 then
        Some(DigitsValue(digits, base))
      else None
  }

  /** What `ParseInt` accepts and the value it reads, case by case. */
  lemma ParseIntSpec(lit: string)
    ensures (|lit| == 0 || !IsDigits(lit)) ==> ParseInt(lit).None?
    ensures |lit| > 0 && IsDigits(lit) && lit[0] != '0' ==>
      && (ParseInt(lit).Some? <==> DigitsValue(lit, 10) <= MaxInt64)
      && (ParseInt(lit).Some? ==> ParseInt(lit).value == DigitsValue(lit, 10))
    ensures |lit| > 0 && IsDigits(lit) && lit[0] == '0' ==>
      && (ParseInt(lit).Some? <==> DigitsBelow(lit[1..], 8) && DigitsValue(lit[1..], 8) <= MaxInt64)
      && (ParseInt(lit).Some? ==> ParseInt(lit).value == DigitsValue(lit[1..], 8))
  {
  }

  lemma {:induction false} DecimalValue(n: nat)
    ensures DigitsValue(NatToDecimal(n), 10) == n
    ensures DigitsBelow(NatToDecimal(n), 10)
    decreases n
  {
    if n >= 10 {
      DecimalValue(n / 10);
      var s := NatToDecimal(n);
      assert s[..|s| - 1] == NatToDecimal(n / 10);
    }
  }

  /** `ParseInt` reads back what `%d` writes, for every non-negative
      `int64`. */
  lemma ParseIntInvertsDecimal(n: int64)
    requires n >= 0
    ensures ParseInt(NatToDecimal(n)) == Some(n)
  {
    var s := NatToDecimal(n);
    DecimalValue(n);
    if s[0] == '0' {
      assert s == "0";
      assert s[1..] == "";
    }
  }
}

=== FILE: lexer.dfy ===
/** The byte-by-byte scanner.

    The Go lexer is a mutable cursor (`pos`, `readPos`, `ch`); here the
    cursor is the position `p` of the byte held in `ch`, and `NextToken` is
    a pure function from a position to the token and the next position.
    Reading past the end yields NUL, exactly as `readChar` stores 0.
 */
module Lexer {
  import opened Token
  import opened Outcomes
  import opened GoInt

  newtype byte = x: int | 0 <= x < 256

  /** The byte in `ch` when the cursor is at `p`: NUL past the end. */
  function CharAt(src: seq<byte>, p: nat): byte {
    if p < |src| then src[p] else 0
  }

  predicate IsLetter(b: byte) {
    'a' as byte <= b <= 'z' as byte || 'A' as byte <= b <= 'Z' as byte || b == '_' as byte
  }

  predicate IsDigit(b: byte) {
    '0' as byte <= b <= '9' as byte
  }

  predicate IsSpace(b: byte) {
    b == ' ' as byte || b == '\t' as byte || b == '\n' as byte || b == '\r' as byte
  }

  /** The text of a byte string: Go's `string(ch)` turns a byte into the
      code point of the same number, and slices of letters or digits are
      ASCII, so each byte becomes the character with its value. */
  function Text(bs: seq<byte>): (t: string)
    ensures |t| == |bs|
    ensures forall i :: 0 <= i < |bs| ==> t[i] as int == bs[i] as int
  {
    seq(|bs|, i requires 0 <= i < |bs| => (bs[i] as int) as char)
  }

  /** The characters the token stream must account for: every byte except
      whitespace and NUL, in order. */
  function Visible(bs: seq<byte>): string {
    if |bs| == 0 then ""
    else if IsSpace(bs[0]) || bs[0] == 0 then Visible(bs[1..])
    else Text([bs[0]]) + Visible(bs[1..])
  }

  lemma {:induction false} VisibleAppend(a: seq<byte>, b: seq<byte>)
    ensures Visible(a + b) == Visible(a) + Visible(b)
  {
    if |a| == 0 {
      assert a + b == b;
    } else {
      assert (a + b)[1..] == a[1..] + b;
      VisibleAppend(a[1..], b);
    }
  }

  lemma {:induction false} VisibleOfRun(bs: seq<byte>)
    requires forall i :: 0 <= i < |bs| ==> !IsSpace(bs[i]) && bs[i] != 0
    ensures Visible(bs) == Text(bs)
  {
    if |bs| > 0 {
      VisibleOfRun(bs[1..]);
      assert Text(bs) == Text([bs[0]]) + Text(bs[1..]);
    }
  }

  lemma {:induction false} VisibleOfSpaces(bs: seq<byte>)
    requires forall i :: 0 <= i < |bs| ==> IsSpace(bs[i])
    ensures Visible(bs) == ""
  {
    if |bs| > 0 {
      VisibleOfSpaces(bs[1..]);
    }
  }

  /** `eatWhitespace`: the first position at or after `p` whose byte is not
      a space, tab, LF or CR. */
  function SkipSpace(src: seq<byte>, p: nat): (q: nat)
    ensures p <= q
    ensures !IsSpace(CharAt(src, q))
    ensures forall k :: p <= k < q ==> IsSpace(CharAt(src, k))
    ensures p <= |src| ==> q <= |src|
    decreases |src| - p
  {
    if IsSpace(CharAt(src, p)) then SkipSpace(src, p + 1) else p
  }

  /** The end of the maximal run of bytes satisfying `inRun` starting at
      `p`; the loops of `readIdent` and `readNum`. */
  function RunEnd(src: seq<byte>, p: nat, inRun: byte -> bool): (q: nat)
    requires !inRun(0)
    ensures p <= q
    ensures !inRun(CharAt(src, q))
    ensures forall k :: p <= k < q ==> inRun(CharAt(src, k)) && k < |src|
    ensures p <= |src| ==> q <= |src|
    decreases |src| - p
  {
    if inRun(CharAt(src, p)) then RunEnd(src, p + 1, inRun) else p
  }

  /** The single-byte operators of the `switch` in `NextToken`. */
  function OneByteKind(c: byte): (k: Option<Kind>)
    ensures k.Some? ==> IsOneCharOperator(k.value) && Name(k.value) == Text([c])
  {
    if c == '+' as byte then Some(Plus)
    else if c == '-' as byte then Some(Minus)
    else if c == '*' as byte then Some(Mul)
    else if c == '/' as byte then Some(Div)
    else if c == ';' as byte then Some(Semicolon)
    else if c == ',' as byte then Some(Comma)
    else if c == '<' as byte then Some(Lt)
    else if c == '>' as byte then Some(Gt)
    else None
  }

  /** `NewToken`: a token whose literal is the one byte `c`. */
  function NewToken(k: Kind, c: byte): (t: Token)
    ensures t.kind == k && |t.lit| == 1 && t.lit[0] as int == c as int
  {
    Token(k, Text([c]))
  }

  /** A run of letters or digits is visible text. */
  lemma RunIsVisible(src: seq<byte>, q: nat, r: nat, inRun: byte -> bool)
    requires q <= r <= |src|
    requires forall k :: q <= k < r ==> inRun(CharAt(src, k))
    requires forall b :: inRun(b) ==> !IsSpace(b) && b != 0
    ensures Visible(src[q..r]) == Text(src[q..r])
  {
    forall i | 0 <= i < r - q
      ensures !IsSpace(src[q..r][i]) && src[q..r][i] != 0
    {
      assert src[q..r][i] == CharAt(src, q + i);
    }
    VisibleOfRun(src[q..r]);
  }

  /** The result of one `NextToken` call: the token and the cursor after it. */
  datatype Scan = Scan(tok: Token, next: nat)

  const EofToken := Token(Eof, "")

  /** `==` and `!=`: the literal is the current byte followed by the next. */
  function TwoBytes(src: seq<byte>, q: nat, k: Kind): (s: Scan)
    requires q + 1 < |src| && src[q + 1] == '=' as byte
    requires src[q] == '=' as byte || src[q] == '!' as byte
    ensures s.next == q + 2
    ensures s.tok.lit == Visible(src[q..q + 2])
  {
    var lit := Text([CharAt(src, q)]) + Text([CharAt(src, q + 1)]);
    assert src[q..q + 2] == [src[q], src[q + 1]];
    assert lit == Text(src[q..q + 2]);
    VisibleOfRun(src[q..q + 2]);
    Scan(Token(k, lit), q + 2)
  }

  /** One call of `NextToken` with the cursor at `p`. The classifier of
      letter runs is a parameter: the program always passes
      `LookupIdent` (see `Tokenize`), and nothing the scanner guarantees
      depends on which keywords there are. */
  function NextToken(lookup: string -> Kind, src: seq<byte>, p: nat): (s: Scan)
    ensures s.next > p
    ensures var q := SkipSpace(src, p);
      && q < s.next
      && (q >= |src| ==> s.tok == EofToken && s.next == q + 1)
      && (q < |src| ==> s.next <= |src| && s.tok.lit == Visible(src[q..s.next]))
  {
    var q := SkipSpace(src, p);
    var c := CharAt(src, q);
    if c == '=' as byte then
      if CharAt(src, q + 1) == '=' as byte then TwoBytes(src, q, EqEq)
      else Scan(NewToken(Eq, c), q + 1)
    else if c == '!' as byte then
      if CharAt(src, q + 1) == '=' as byte then TwoBytes(src, q, NotEq)
      // a lone `!` is given the kind of `=`, not EXC
      else Scan(NewToken(Eq, c), q + 1)
    else if c == 0 then
      Scan(EofToken, q + 1)
    else if OneByteKind(c).Some? then
      Scan(NewToken(OneByteKind(c).value, c), q + 1)
    else if IsLetter(c) then
      var r := RunEnd(src, q, IsLetter);
      RunIsVisible(src, q, r, IsLetter);
      var lit := Text(src[q..r]);
      Scan(Token(lookup(lit), lit), r)
    else if IsDigit(c) then
      var r := RunEnd(src, q, IsDigit);
      RunIsVisible(src, q, r, IsDigit);
      Scan(Token(Int, Text(src[q..r])), r)
    else
      Scan(NewToken(Illegal, c), q + 1)
  }

  /** The token stream of the input from cursor `p` up to the point where
      only whitespace is left; from there on `NextToken` yields EOF on
      every call (`EofForever`). A NUL byte inside the input yields an
      EOF token in the middle of the stream. */
  function Lex(lookup: string -> Kind, src: seq<byte>, p: nat): seq<Token>
    requires p <= |src|
    decreases |src| - p
  {
    var q := SkipSpace(src, p);
    if q >= |src| then []
    else
      var s := NextToken(lookup, src, p);
      [s.tok] + Lex(lookup, src, s.next)
  }

  /** `NewLexer` puts the cursor on the first byte, and letter runs are
      classified by the keyword table of `token.go`. */
  function Tokenize(src: seq<byte>): seq<Token> {
    Lex(LookupIdent, src, 0)
  }

  /** The token the parser sees at index `i` of a pre-lexed stream: past
      its end the stream is padded with EOF, as the lexer keeps returning
      EOF. */
  function TokenAt(toks: seq<Token>, i: nat): Token {
    if i < |toks| then toks[i] else EofToken
  }

  /** The token returned by the `n`-th further call of `NextToken`. */
  function NthToken(lookup: string -> Kind, src: seq<byte>, p: nat, n: nat): Token
    decreases n
  {
    var s := NextToken(lookup, src, p);
    if n == 0 then s.tok else NthToken(lookup, src, s.next, n - 1)
  }

  /** Once only whitespace is left, every call yields EOF with an empty
      literal. */
  lemma {:induction false} EofForever(lookup: string -> Kind, src: seq<byte>, p: nat, n: nat)
    requires SkipSpace(src, p) >= |src|
    ensures NthToken(lookup, src, p, n) == EofToken
    decreases n
  {
    var s := NextToken(lookup, src, p);
    if n > 0 {
      EofForever(lookup, src, s.next, n - 1);
    }
  }

  /** The padded stream agrees with calling `NextToken` repeatedly. */
  lemma {:induction false} LexMatchesRepeatedNextToken(lookup: string -> Kind, src: seq<byte>, p: nat, n: nat)
    requires p <= |src|
    ensures NthToken(lookup, src, p, n) == TokenAt(Lex(lookup, src, p), n)
    decreases n
  {
    var q := SkipSpace(src, p);
    if q >= |src| {
      EofForever(lookup, src, p, n);
    } else if n > 0 {
      var s := NextToken(lookup, src, p);
      LexMatchesRepeatedNextToken(lookup, src, s.next, n - 1);
    }
  }

  /** All literals of a token list, concatenated. */
  function Literals(toks: seq<Token>): string {
    if |toks| == 0 then "" else toks[0].lit + Literals(toks[1..])
  }

  lemma LiteralsOfCons(t: Token, toks: seq<Token>)
    ensures Literals([t] + toks) == t.lit + Literals(toks)
  {
    assert ([t] + toks)[1..] == toks;
  }

  /** Skipping whitespace loses no visible character. */
  lemma SkippedSpaceIsInvisible(src: seq<byte>, p: nat)
    requires p <= |src|
    ensures Visible(src[p..]) == Visible(src[SkipSpace(src, p)..])
  {
    var q := SkipSpace(src, p);
    assert src[p..] == src[p..q] + src[q..];
    VisibleAppend(src[p..q], src[q..]);
    forall i | 0 <= i < q - p
      ensures IsSpace(src[p..q][i])
    {
      assert src[p..q][i] == CharAt(src, p + i);
    }
    VisibleOfSpaces(src[p..q]);
  }

  /** No byte is lost or invented: the literals of the stream spell out
      the input with its whitespace and NUL bytes removed. */
  lemma {:induction false} LexSpellsInput(lookup: string -> Kind, src: seq<byte>, p: nat)
    requires p <= |src|
    ensures Literals(Lex(lookup, src, p)) == Visible(src[p..])
    decreases |src| - p
  {
    var q := SkipSpace(src, p);
    SkippedSpaceIsInvisible(src, p);
    if q < |src| {
      var s := NextToken(lookup, src, p);
      assert s.tok.lit == Visible(src[q..s.next]) && s.next <= |src|;
      LexSpellsInput(lookup, src, s.next);
      LiteralsOfCons(s.tok, Lex(lookup, src, s.next));
      assert src[q..] == src[q..s.next] + src[s.next..];
      VisibleAppend(src[q..s.next], src[s.next..]);
    }
  }

  /** An INT token's literal is a non-empty digit string. */
  predicate IntTokenOk(t: Token) {
    t.kind == Int ==> |t.lit| > 0 && IsDigits(t.lit)
  }

  predicate IntLiteralsAreDigits(toks: seq<Token>) {
    forall i :: 0 <= i < |toks| ==> IntTokenOk(toks[i])
  }

  /** What `LookupIdent` guarantees of a classifier: a letter run is an
      identifier or a keyword, never a number or an operator. */
  ghost predicate ClassifiesWords(lookup: string -> Kind) {
    forall s :: lookup(s) == Ident || IsKeywordKind(lookup(s))
  }

  lemma LookupIdentClassifiesWords()
    ensures ClassifiesWords(LookupIdent)
  {
    forall s ensures LookupIdent(s) == Ident || IsKeywordKind(LookupIdent(s)) {
    }
  }

  lemma NextTokenIntOk(lookup: string -> Kind, src: seq<byte>, p: nat)
    requires ClassifiesWords(lookup)
    requires SkipSpace(src, p) < |src|
    ensures IntTokenOk(NextToken(lookup, src, p).tok)
  {
    var q := SkipSpace(src, p);
    var s := NextToken(lookup, src, p);
    if s.tok.kind == Int {
      var r := RunEnd(src, q, IsDigit);
      assert s.tok.lit == Text(src[q..r]);
      forall k | 0 <= k < |s.tok.lit|
        ensures '0' <= s.tok.lit[k] <= '9'
      {
        assert s.tok.lit[k] as int == src[q + k] as int;
        assert IsDigit(CharAt(src, q + k));
      }
    }
  }

  lemma {:induction false} LexIntLiterals(lookup: string -> Kind, src: seq<byte>, p: nat)
    requires ClassifiesWords(lookup)
    requires p <= |src|
    ensures IntLiteralsAreDigits(Lex(lookup, src, p))
    decreases |src| - p
  {
    var q := SkipSpace(src, p);
    if q < |src| {
      var s := NextToken(lookup, src, p);
      LexIntLiterals(lookup, src, s.next);
      NextTokenIntOk(lookup, src, p);
      var toks := Lex(lookup, src, p);
      var rest := Lex(lookup, src, s.next);
      assert toks == [s.tok] + rest;
      forall i | 0 <= i < |toks|
        ensures IntTokenOk(toks[i])
      {
        if i > 0 {
          assert toks[i] == rest[i - 1];
        }
      }
    }
  }

  /** Every INT token the program's lexer produces has a non-empty digit
      string for its literal, so the parser's `ParseInt` sees only digits. */
  lemma TokenizeIntLiterals(src: seq<byte>)
    ensures IntLiteralsAreDigits(Tokenize(src))
  {
    LookupIdentClassifiesWords();
    LexIntLiterals(LookupIdent, src, 0);
  }

  /** An identifier is the maximal run of ASCII letters and underscores
      from the first non-space byte, classified by the keyword lookup; a digit
      ends it. */
  lemma IdentifierIsMaximalLetterRun(lookup: string -> Kind, src: seq<byte>, p: nat)
    requires IsLetter(CharAt(src, SkipSpace(src, p)))
    ensures var q := SkipSpace(src, p); var s := NextToken(lookup, src, p);
      && q < s.next <= |src|
      && s.tok == Token(lookup(Text(src[q..s.next])), Text(src[q..s.next]))
      && (forall k :: q <= k < s.next ==> IsLetter(src[k]))
      && !IsLetter(CharAt(src, s.next))
  {
    var q := SkipSpace(src, p);
    var s := NextToken(lookup, src, p);
    forall k | q <= k < s.next ensures IsLetter(src[k]) {
      assert IsLetter(CharAt(src, k));
    }
  }

  /** An integer token is the maximal run of decimal digits. */
  lemma IntegerIsMaximalDigitRun(lookup: string -> Kind, src: seq<byte>, p: nat)
    requires IsDigit(CharAt(src, SkipSpace(src, p)))
    ensures var q := SkipSpace(src, p); var s := NextToken(lookup, src, p);
      && q < s.next <= |src|
      && s.tok == Token(Int, Text(src[q..s.next]))
      && (forall k :: q <= k < s.next ==> IsDigit(src[k]))
      && !IsDigit(CharAt(src, s.next))
  {
    var q := SkipSpace(src, p);
    var s := NextToken(lookup, src, p);
    forall k | q <= k < s.next ensures IsDigit(src[k]) {
      assert IsDigit(CharAt(src, k));
    }
  }

  /** `=` and `!` look one byte ahead: followed by `=` they form `==` or
      `!=` and consume two bytes; alone, both carry the kind of `=`. */
  lemma EqualsAndBang(lookup: string -> Kind, src: seq<byte>, p: nat)
    ensures var q := SkipSpace(src, p); var s := NextToken(lookup, src, p);
      && (CharAt(src, q) == '=' as byte && CharAt(src, q + 1) == '=' as byte ==>
            s == Scan(Token(EqEq, "=="), q + 2))
      && (CharAt(src, q) == '!' as byte && CharAt(src, q + 1) == '=' as byte ==>
            s == Scan(Token(NotEq, "!="), q + 2))
      && (CharAt(src, q) == '=' as byte && CharAt(src, q + 1) != '=' as byte ==>
            s == Scan(Token(Eq, "="), q + 1))
      && (CharAt(src, q) == '!' as byte && CharAt(src, q + 1) != '=' as byte ==>
            s == Scan(Token(Eq, "!"), q + 1))
  {
  }

  /** A NUL byte in the input yields EOF, and any byte outside the
      recognised set yields one ILLEGAL token holding that byte. */
  lemma NulAndIllegal(lookup: string -> Kind, src: seq<byte>, p: nat)
    ensures var q := SkipSpace(src, p); var s := NextToken(lookup, src, p); var c := CharAt(src, q);
      && (c == 0 ==> s == Scan(EofToken, q + 1))
      && ((c != 0 && c != '=' as byte && c != '!' as byte && OneByteKind(c).None?
           && !IsLetter(c) && !IsDigit(c)) ==> s == Scan(Token(Illegal, Text([c])), q + 1))
  {
  }
}

=== FILE: object.dfy ===
/** Runtime values.

    Go's `object.Obj` is an interface whose values are pointers; `Nil` is
    the nil interface (what `Eval` returns for a nil node or a `let`). The
    Boolean and Null values are the evaluator's singletons `TRUE`, `FALSE`
    and `NULL`; arrays, functions and return values are allocated on every
    evaluation, and `==` on them compares pointers, so each carries an
    abstract identity `id` drawn from a counter. Integers and strings are
    allocated too, but `==` never compares them by pointer (two integers
    or two strings take the value path first), so they carry none. */
module Objects {
  import opened Outcomes
  import opened GoInt
  import opened Token
  import opened Ast

  /** The five builtins of `builtins.go`. */
  datatype BuiltinName = Len | First | Last | Rest | Push

  /** The `Type()` tags. */
  datatype ObjType =
    | IntegerObj | BooleanObj | NullObj | ReturnValObj
    | ErrorObj | StringObj | ArrayObj | FunctionObj | BuiltinObj

  /** The tag strings. The first four are the constants of `object.go`;
      the others are used by the evaluator but defined outside the files
      modelled here, and are given the conventional spellings. */
  function TypeTag(t: ObjType): string {
    match t
    case IntegerObj => "INTEGER"
    case BooleanObj => "BOOLEAN"
    case NullObj => "NIL"
    case ReturnValObj => "RETURN_VAL"
    case ErrorObj => "ERROR"
    case StringObj => "STRING"
    case ArrayObj => "ARRAY"
    case FunctionObj => "FUNCTION"
    case BuiltinObj => "BUILTIN"
  }

  /** Distinct types have distinct tags, so comparing tags (as the
      evaluator does) is comparing types. */
  lemma TypeTagInjective(a: ObjType, b: ObjType)
    ensures TypeTag(a) == TypeTag(b) <==> a == b
  {
  }

  /** The errors the evaluator and the builtins create with `newErr`, by
      the format they use and the values they fill in. */
  datatype ErrorMsg =
    | TypeMismatch(left: ObjType, op: string, right: ObjType)
    | UnknownOperator(left: ObjType, op: string, right: ObjType)
    | UnknownStringOperator(left: ObjType, op: string, right: ObjType)
    | UnknownPrefixOperator(op: string, operand: ObjType)
    | UnknownMinusOperand(operand: ObjType)
    | NotAFunction(callee: ObjType)
    | IdNotFound(name: string)
    | UnsupportedIndex(left: ObjType)
    | WrongArgumentCount(builtin: BuiltinName, got: int)
    | UnsupportedArgument(builtin: BuiltinName, arg: ObjType)

  datatype Obj =
    | Nil
    | Integer(ival: int64)
    | Boolean(bval: bool)
    | Null
    | Str(sval: string)
    | Array(id: nat, elems: seq<Obj>)
    | Function(id: nat, params: seq<Identifier>, body: Block, env: nat)
    | Builtin(name: BuiltinName)
    | ReturnValue(id: nat, value: Obj)
    | Error(msg: ErrorMsg)

  /** `Type()`; calling it on the nil interface panics, hence the
      precondition. */
  function TypeOf(o: Obj): ObjType
    requires !o.Nil?
  {
    match o
    case Integer(_) => IntegerObj
    case Boolean(_) => BooleanObj
    case Null => NullObj
    case Str(_) => StringObj
    case Array(_, _) => ArrayObj
    case Function(_, _, _, _) => FunctionObj
    case Builtin(_) => BuiltinObj
    case ReturnValue(_, _) => ReturnValObj
    case Error(_) => ErrorObj
  }

  /** `isErr`: a non-nil value whose type is ERROR. */
  predicate IsErr(o: Obj) {
    !o.Nil? && TypeOf(o) == ErrorObj
  }

  lemma IsErrMeansError(o: Obj)
    ensures IsErr(o) <==> o.Error?
  {
  }

  /** Pointer equality `l == r` of two interface values. Booleans and
      Null are singletons and builtins come from one table, so for them
      identity is equality of contents; allocated objects are the same
      only when their identities agree. Integers, strings and errors never
      reach this comparison. */
  predicate SameObject(l: Obj, r: Obj) {
    match (l, r)
    case (Nil, Nil) => true
    case (Boolean(a), Boolean(b)) => a == b
    case (Null, Null) => true
    case (Builtin(a), Builtin(b)) => a == b
    case (Array(i, _), Array(j, _)) => i == j
    case (Function(i, _, _, _), Function(j, _, _, _)) => i == j
    case (ReturnValue(i, _), ReturnValue(j, _)) => i == j
    case _ => false
  }

  /** Values of different types are never the same object. */
  lemma SameObjectSameType(l: Obj, r: Obj)
    requires !l.Nil? && !r.Nil? && SameObject(l, r)
    ensures TypeOf(l) == TypeOf(r)
  {
  }

  /** The values whose `Inspect` is part of this model: the four types of
      `object.go`; a return value must wrap one of them (its `Inspect`
      calls the wrapped value's, which panics on nil). */
  predicate Inspectable(o: Obj) {
    match o
    case Integer(_) => true
    case Boolean(_) => true
    case Null => true
    case ReturnValue(_, v) => Inspectable(v)
    case _ => false
  }

  function Inspect(o: Obj): string
    requires Inspectable(o)
  {
    match o
    case Integer(v) => IntToDecimal(v)
    case Boolean(b) => if b then "true" else "false"
    case Null => "null"
    case ReturnValue(_, v) => Inspect(v)
  }

  /** A boolean prints "true" exactly when it is true, and NULL prints
      "null". */
  lemma InspectBooleanAndNull(b: bool)
    ensures Inspect(Boolean(b)) == "true" <==> b
    ensures Inspect(Boolean(b)) == "false" <==> !b
    ensures Inspect(Null) == "null"
  {
  }

  /** `Integer.Inspect` is `%d`: parsing it back gives the value (for the
      non-negative values the scanner's digit runs can denote), and a
      negative value is a minus sign before the digits of its magnitude. */
  lemma InspectIntegerRoundTrip(v: int64)
    ensures v >= 0 ==> ParseInt(Inspect(Integer(v))) == Some(v)
    ensures v < 0 ==> Inspect(Integer(v))[0] == '-'
    ensures MinInt64 < v < 0 ==> ParseInt(Inspect(Integer(v))[1..]) == Some(-v)
    ensures v == MinInt64 ==> ParseInt(Inspect(Integer(v))[1..]) == None
  {
    if v >= 0 {
      ParseIntInvertsDecimal(v);
    } else {
      var m: nat := -(v as int);
      var s := Inspect(Integer(v));
      assert s == "-" + NatToDecimal(m);
      assert s[1..] == NatToDecimal(m);
      if m <= MaxInt64 {
        ParseIntInvertsDecimal(m);
      } else {
        assert m == -MinInt64;
        NegMinInt64Digits();
      }
    }
  }

  /** `-MinInt64` exceeds `MaxInt64`, so its digits do not parse. */
  lemma NegMinInt64Digits()
    ensures ParseInt(NatToDecimal(-MinInt64)) == None
  {
    DecimalValue(-MinInt64);
  }

  /** A return value prints as the value it wraps, however deeply
      nested. */
  lemma {:induction false} InspectReturnValue(o: Obj)
    requires Inspectable(o)
    ensures Inspect(o) == Inspect(Unwrapped(o))
  {
    if o.ReturnValue? {
      InspectReturnValue(o.value);
    }
  }

  /** The value under all return-value wrappers: never itself a return
      value, and inspectable when the wrapper is. */
  function Unwrapped(o: Obj): (r: Obj)
    ensures !r.ReturnValue?
    ensures Inspectable(o) ==> Inspectable(r)
    ensures !o.ReturnValue? ==> r == o
  {
    if o.ReturnValue? then Unwrapped(o.value) else o
  }
}

=== FILE: outcome.dfy ===
/** Result types shared by the parser and the evaluator. */
module Outcomes {

  datatype Option<+T> = None | Some(value: T)

  /** The Go runtime panics the evaluator can run into. */
  datatype PanicReason =
    | NilDereference    // a method called on, or a field read through, nil
    | IndexOutOfRange   // a slice indexed past its end
    | DivideByZero      // integer division by zero

  /** How a Go computation ends: with a value, with a runtime panic (a nil
      dereference, an index out of range, an integer division by zero), by
      looping forever (the parser's skip loops at the end of input), or,
      for the evaluator only, by exhausting the call budget that stands in
      for unbounded recursion. Usable with `:-`. */
  datatype Outcome<+T> =
    | Ok(value: T)
    | Panic(reason: PanicReason)
    | Hang
    | OutOfFuel
  {
    predicate IsFailure() {
      !Ok?
    }

    function PropagateFailure<U>(): (r: Outcome<U>)
      requires !Ok?
      ensures r.Panic? == Panic? && r.Hang? == Hang? && r.OutOfFuel? == OutOfFuel?
    {
      match this
      case Panic(why) => Panic(why)
      case Hang => Hang
      case OutOfFuel => OutOfFuel
    }

    function Extract(): T
      requires Ok?
    {
      value
    }
  }
}

=== FILE: parser.dfy ===
/** The Pratt parser, as one parser state.

    This is the parser the program evidently intends: the statement
    parsers and the expression handlers share one `curTok`, one `peekTok`
    and one error list. (`NewParser` in fact binds the handlers to a
    second copy of the state; `ParserAsWritten` models that.) The Go
    parser pulls tokens from the lexer; here it reads a pre-lexed token
    list, `pos` is the index of `curTok` and `peekTok` is the token after
    it, with EOF past the end (`Lexer.TokenAt`). Errors accumulate and
    parsing goes on.
    The skip loops of `let` and `return` never stop at EOF: when no `;`
    follows they run forever, which the model reports as `Hang`.
 */
module Parser {
  import opened Token
  import opened Outcomes
  import opened GoInt
  import opened Ast
  import opened Lexer

  // Binding strengths, from `iota`: LOWEST = 1 up to CALL = 7.
  const Lowest: nat := 1
  const Equals: nat := 2
  const LtGt: nat := 3
  const Sum: nat := 4
  const Product: nat := 5
  const PrefixPrec: nat := 6
  const CallPrec: nat := 7

  /** The `precedences` table. It is keyed on EQ (the kind of `=`), not on
      EQEQ, so `==` has no entry. */
  function PrecedenceOf(k: Kind): Option<nat> {
    match k
    case Eq => Some(Equals)
    case NotEq => Some(Equals)
    case Lt => Some(LtGt)
    case Gt => Some(LtGt)
    case Plus => Some(Sum)
    case Minus => Some(Sum)
    case Div => Some(Product)
    case Mul => Some(Product)
    case _ => None
  }

  /** `peekPrec` and `curPrec`: the table's entry, LOWEST when absent. */
  function Prec(k: Kind): (p: nat)
    ensures Lowest <= p <= Product
    ensures PrecedenceOf(k).None? ==> p == Lowest
  {
    match PrecedenceOf(k)
    case Some(p) => p
    case None => Lowest
  }

  /** Kinds with a registered prefix handler. EXC has one, but the scanner
      gives `!` the kind EQ, which has none. */
  predicate HasPrefixFn(k: Kind) {
    k.Ident? || k.Int? || k.Minus? || k.Exc?
  }

  /** Kinds with a registered infix handler; again EQ, not EQEQ. */
  predicate HasInfixFn(k: Kind) {
    k.Plus? || k.Minus? || k.Div? || k.Mul? || k.Eq? || k.NotEq? || k.Lt? || k.Gt?
  }

  lemma InfixKindsHavePrecedence(k: Kind)
    ensures HasInfixFn(k) <==> PrecedenceOf(k).Some?
    ensures HasInfixFn(k) ==> Equals <= Prec(k) < PrefixPrec
  {
  }

  /** The three errors the parser records. The Go parser stores the
      formatted strings; the model keeps what they are made of and formats
      them with `Message`. */
  datatype ParseError =
    | PeekError(expected: Kind, got: Kind)
    | NoPrefixError(kind: Kind)
    | IntegerError(tok: Token)

  /** The text of each error. `%s` of a token struct prints
      `{TYPE LITERAL}`; the misspelling "Interger" is the program's. */
  function Message(e: ParseError): string {
    match e
    case PeekError(expected, got) =>
      "expected token " + Name(expected) + ", but got " + Name(got) + " instead"
    case NoPrefixError(k) => "no prefix function for " + Name(k)
    case IntegerError(t) => "Could not parse {" + Name(t.kind) + " " + t.lit + "} as Interger"
  }

  /** A parser state's `errs`: the messages in the order that state
      recorded them. */
  function Messages(errs: seq<ParseError>): (m: seq<string>)
    ensures |m| == |errs|
    ensures forall i :: 0 <= i < |errs| ==> m[i] == Message(errs[i])
  {
    if |errs| == 0 then [] else Messages(errs[..|errs| - 1]) + [Message(errs[|errs| - 1])]
  }

  /** Parser state: the index of `curTok` and the error list. */
  datatype PState = PState(pos: nat, errs: seq<ParseError>)

  /** A parsed node together with the state after it. */
  datatype Parsed<T> = Parsed(node: T, st: PState)

  /** `parseIntegerLit`: the literal of `curTok` goes through
      `ParseInt(lit, 0, 64)`, whatever the token's kind. */
  function ParseIntegerLit(toks: seq<Token>, st: PState): (r: Parsed<Expr>)
    ensures r.st.pos == st.pos
    ensures |st.errs| <= |r.st.errs|
  {
    var t := TokenAt(toks, st.pos);
    match ParseInt(t.lit)
    case Some(v) => Parsed(IntegerLit(t, v), st)
    case None => Parsed(Nil, st.(errs := st.errs + [IntegerError(t)]))
  }

  /** An integer literal that `ParseInt` rejects becomes a nil expression
      and one error; otherwise the node carries the parsed value. */
  lemma IntegerLitOutcome(toks: seq<Token>, st: PState)
    ensures var r := ParseIntegerLit(toks, st); var t := TokenAt(toks, st.pos);
      && (r.node.Nil? <==> ParseInt(t.lit).None?)
      && (r.node.Nil? ==> r.st.errs == st.errs + [IntegerError(t)])
      && (!r.node.Nil? ==> r.st.errs == st.errs && r.node == IntegerLit(t, ParseInt(t.lit).value))
  {
  }

  // Properties of error-free expression parses.

  /** The tokens an operator tree was built from, left to right. */
  function ExprTokens(e: Expr): seq<Token> {
    match e
    case IdentExpr(id) => [id.tok]
    case IntegerLit(tok, _) => [tok]
    case Prefix(tok, _, r) => [tok] + ExprTokens(r)
    case Infix(tok, l, _, r) => ExprTokens(l) + [tok] + ExprTokens(r)
    case _ => []
  }

  /** The number of tokens in an operator tree. */
  function Width(e: Expr): nat {
    match e
    case IdentExpr(_) => 1
    case IntegerLit(_, _) => 1
    case Prefix(_, _, r) => 1 + Width(r)
    case Infix(_, l, _, r) => Width(l) + 1 + Width(r)
    case _ => 0
  }

  /** The tokens of `e` sit in `toks` one after another from `start`. */
  predicate Spans(e: Expr, toks: seq<Token>, start: nat) {
    match e
    case IdentExpr(id) => start < |toks| && toks[start] == id.tok
    case IntegerLit(tok, _) => start < |toks| && toks[start] == tok
    case Prefix(tok, _, r) => start < |toks| && toks[start] == tok && Spans(r, toks, start + 1)
    case Infix(tok, l, _, r) =>
      && Spans(l, toks, start) && start + Width(l) < |toks| && toks[start + Width(l)] == tok
      && Spans(r, toks, start + Width(l) + 1)
    case _ => start <= |toks|
  }

  lemma {:induction false} SpansIsSlice(e: Expr, toks: seq<Token>, start: nat)
    requires Spans(e, toks, start)
    ensures start + Width(e) <= |toks|
    ensures ExprTokens(e) == toks[start..start + Width(e)]
    decreases e, 1
  {
    if e.Prefix? {
      PrefixSpansSlice(e, toks, start);
    } else if e.Infix? {
      InfixSpansSlice(e, toks, start);
    } else if e.IdentExpr? {
      assert toks[start..start + 1] == [e.id.tok];
    } else if e.IntegerLit? {
      assert toks[start..start + 1] == [e.tok];
    } else {
      assert toks[start..start] == [];
    }
  }

  lemma {:induction false} PrefixSpansSlice(e: Expr, toks: seq<Token>, start: nat)
    requires e.Prefix? && Spans(e, toks, start)
    ensures start + Width(e) <= |toks|
    ensures ExprTokens(e) == toks[start..start + Width(e)]
    decreases e, 0
  {
    SpansIsSlice(e.right, toks, start + 1);
    var j := start + 1 + Width(e.right);
    assert ExprTokens(e) == [e.tok] + ExprTokens(e.right);
    assert toks[start..j] == [e.tok] + toks[start + 1..j];
  }

  lemma {:induction false} InfixSpansSlice(e: Expr, toks: seq<Token>, start: nat)
    requires e.Infix? && Spans(e, toks, start)
    ensures start + Width(e) <= |toks|
    ensures ExprTokens(e) == toks[start..start + Width(e)]
    decreases e, 0
  {
    SpansIsSlice(e.left, toks, start);
    var m := start + Width(e.left);
    SpansIsSlice(e.right, toks, m + 1);
    JoinAround(toks, start, m, m + 1 + Width(e.right), ExprTokens(e.left), ExprTokens(e.right), ExprTokens(e));
  }

  /** The tree respects the precedence table: the left operand of an infix
      node binds at least as tightly as the node (left associativity), the
      right operand strictly more tightly, and the operand of a prefix
      operator is never an infix node. Leaves are identifiers and integers
      whose texts are their tokens' literals. */
  predicate PrecOk(e: Expr) {
    match e
    case IdentExpr(id) => id.tok.kind.Ident? && id.value == id.tok.lit
    case IntegerLit(tok, _) => tok.kind.Int?
    case Prefix(tok, op, r) =>
      && (tok.kind.Minus? || tok.kind.Exc?) && op == tok.lit
      && !r.Infix? && PrecOk(r)
    case Infix(tok, l, op, r) =>
      && HasInfixFn(tok.kind) && op == tok.lit
      && (l.Infix? ==> Prec(l.tok.kind) >= Prec(tok.kind))
      && (r.Infix? ==> Prec(r.tok.kind) > Prec(tok.kind))
      && PrecOk(l) && PrecOk(r)
    case _ => false
  }

  /** The loop of `parseExpr` stops with `curTok` at `pos` when the peek
      token is `;`, does not bind more tightly than `prec`, or has no
      infix handler. */
  predicate StopsAt(toks: seq<Token>, pos: nat, prec: nat) {
    var peek := TokenAt(toks, pos + 1);
    peek.kind.Semicolon? || Prec(peek.kind) <= prec || !HasInfixFn(peek.kind)
  }

  /** What an error-free parse of an expression at minimum precedence
      `prec` that ends with `curTok` at `pos` guarantees about its tree. */
  predicate GoodParse(toks: seq<Token>, prec: nat, e: Expr, pos: nat) {
    && pos < |toks|
    && PrecOk(e)
    && (e.Infix? ==> Prec(e.tok.kind) > prec)
    && StopsAt(toks, pos, prec)
  }

  /** `parseExpr(prec)`: a prefix handler for `curTok`, then infix
      handlers while the peek token binds more tightly than `prec`. */
  function ParseExpr(toks: seq<Token>, prec: nat, st: PState): (r: Parsed<Expr>)
    requires st.pos <= |toks|
    ensures st.pos <= r.st.pos <= |toks|
    ensures |st.errs| <= |r.st.errs|
    decreases |toks| - st.pos, 2
  {
    var cur := TokenAt(toks, st.pos);
    if !HasPrefixFn(cur.kind) then
      Parsed(Nil, st.(errs := st.errs + [NoPrefixError(cur.kind)]))
    else
      var left := ParsePrefix(toks, cur.kind, st);
      ParseInfixLoop(toks, prec, left.node, left.st)
  }

  /** The prefix handler registered for kind `k`: `parseIdent`,
      `parseIntegerLit` or `parsePrefixExpr`, whose operand binds at PREFIX
      strength. Each handler reads `curTok` itself; `parseExpr` picks it by
      the kind of that same `curTok`. */
  function ParsePrefix(toks: seq<Token>, k: Kind, st: PState): (r: Parsed<Expr>)
    requires st.pos < |toks|
    requires HasPrefixFn(k)
    ensures st.pos <= r.st.pos <= |toks|
    ensures |st.errs| <= |r.st.errs|
    ensures !r.node.Infix?
    decreases |toks| - st.pos, 1
  {
    var cur := TokenAt(toks, st.pos);
    if k.Ident? then Parsed(IdentExpr(Identifier(cur, cur.lit)), st)
    else if k.Int? then ParseIntegerLit(toks, st)
    else
      var right := ParseExpr(toks, PrefixPrec, st.(pos := st.pos + 1));
      Parsed(Prefix(cur, cur.lit, right.node), right.st)
  }

  /** The loop of `parseExpr`, folding infix operators into `left`. Each
      right operand is parsed at the operator's own precedence, which
      makes operators of equal strength left-associative. */
  function ParseInfixLoop(toks: seq<Token>, prec: nat, left: Expr, st: PState): (r: Parsed<Expr>)
    requires st.pos <= |toks|
    ensures st.pos <= r.st.pos <= |toks|
    ensures |st.errs| <= |r.st.errs|
    decreases |toks| - st.pos, 0
  {
    if StopsAt(toks, st.pos, prec) then
      Parsed(left, st)
    else
      // nextToken, then the infix handler with `curTok` on the operator
      var r := ParseInfixExpr(toks, left, PState(st.pos + 1, st.errs));
      ParseInfixLoop(toks, prec, r.node, r.st)
  }

  /** `parseInfixExpr`: `curTok` is the operator; its right operand is
      parsed at the operator's own precedence. */
  function ParseInfixExpr(toks: seq<Token>, left: Expr, st: PState): (r: Parsed<Expr>)
    requires st.pos < |toks|
    ensures st.pos < r.st.pos <= |toks|
    ensures |st.errs| <= |r.st.errs|
    ensures r.node.Infix? && r.node.left == left && r.node.tok == toks[st.pos] && r.node.op == toks[st.pos].lit
    decreases |toks| - st.pos, 3
  {
    var op := toks[st.pos];
    var right := ParseExpr(toks, Prec(op.kind), st.(pos := st.pos + 1));
    Parsed(Infix(op, left, op.lit, right.node), right.st)
  }

  /** One round of the loop of `parseExpr`, when it does not stop. */
  lemma LoopUnfolds(toks: seq<Token>, prec: nat, left: Expr, st: PState)
    requires st.pos <= |toks|
    requires !StopsAt(toks, st.pos, prec)
    ensures var peek := TokenAt(toks, st.pos + 1);
      var right := ParseExpr(toks, Prec(peek.kind), PState(st.pos + 2, st.errs));
      ParseInfixLoop(toks, prec, left, st) == ParseInfixLoop(toks, prec, Infix(peek, left, peek.lit, right.node), right.st)
  {
  }

  /** An expression parse that adds no error yields a tree that respects
      the precedence table and is built from exactly the tokens it
      consumed, in order. */
  lemma ParseExprSound(toks: seq<Token>, prec: nat, st: PState)
    requires st.pos <= |toks|
    ensures var r := ParseExpr(toks, prec, st);
      |r.st.errs| == |st.errs| ==>
        && GoodParse(toks, prec, r.node, r.st.pos)
        && ExprTokens(r.node) == toks[st.pos..r.st.pos + 1]
  {
    ParseExprGood(toks, prec, st);
    ParseExprTokens(toks, prec, st);
    var r := ParseExpr(toks, prec, st);
    if |r.st.errs| == |st.errs| {
      SpansIsSlice(r.node, toks, st.pos);
    }
  }

  // The tree shape, by induction over the three mutually recursive parsers.

  lemma {:induction false} ParseExprGood(toks: seq<Token>, prec: nat, st: PState)
    requires st.pos <= |toks|
    ensures var r := ParseExpr(toks, prec, st);
      |r.st.errs| == |st.errs| ==> GoodParse(toks, prec, r.node, r.st.pos)
    decreases |toks| - st.pos, 3
  {
    var r := ParseExpr(toks, prec, st);
    var cur := TokenAt(toks, st.pos);
    if HasPrefixFn(cur.kind) && |r.st.errs| == |st.errs| {
      var left := ParsePrefix(toks, TokenAt(toks, st.pos).kind, st);
      assert |left.st.errs| == |st.errs|;
      ParsePrefixGood(toks, st);
      ParseLoopGood(toks, prec, left.node, left.st);
    }
  }

  lemma {:induction false} ParsePrefixGood(toks: seq<Token>, st: PState)
    requires st.pos <= |toks|
    requires HasPrefixFn(TokenAt(toks, st.pos).kind)
    ensures var r := ParsePrefix(toks, TokenAt(toks, st.pos).kind, st);
      |r.st.errs| == |st.errs| ==> r.st.pos < |toks| && PrecOk(r.node)
    decreases |toks| - st.pos, 2
  {
    var r := ParsePrefix(toks, TokenAt(toks, st.pos).kind, st);
    var cur := TokenAt(toks, st.pos);
    if !cur.kind.Ident? && !cur.kind.Int? && |r.st.errs| == |st.errs| {
      ParseExprGood(toks, PrefixPrec, st.(pos := st.pos + 1));
    }
  }

  lemma {:induction false} ParseLoopGood(toks: seq<Token>, prec: nat, left: Expr, st: PState)
    requires st.pos < |toks|
    requires PrecOk(left)
    requires left.Infix? ==> Prec(left.tok.kind) > prec && StopsAt(toks, st.pos, Prec(left.tok.kind))
    ensures var r := ParseInfixLoop(toks, prec, left, st);
      |r.st.errs| == |st.errs| ==> GoodParse(toks, prec, r.node, r.st.pos)
    decreases |toks| - st.pos, 1
  {
    var r := ParseInfixLoop(toks, prec, left, st);
    if !StopsAt(toks, st.pos, prec) && |r.st.errs| == |st.errs| {
      var peek := TokenAt(toks, st.pos + 1);
      var right := ParseExpr(toks, Prec(peek.kind), PState(st.pos + 2, st.errs));
      var node := Infix(peek, left, peek.lit, right.node);
      LoopUnfolds(toks, prec, left, st);
      assert r == ParseInfixLoop(toks, prec, node, right.st);
      assert |right.st.errs| == |st.errs|;
      LoopStepGood(toks, prec, left, st);
      ParseLoopGood(toks, prec, node, right.st);
    }
  }

  /** One round of the loop builds a tree that respects the precedence
      table and is stronger than `prec`. */
  lemma {:induction false} LoopStepGood(toks: seq<Token>, prec: nat, left: Expr, st: PState)
    requires st.pos < |toks| && !StopsAt(toks, st.pos, prec)
    requires PrecOk(left)
    requires left.Infix? ==> Prec(left.tok.kind) > prec && StopsAt(toks, st.pos, Prec(left.tok.kind))
    ensures var peek := TokenAt(toks, st.pos + 1);
      var right := ParseExpr(toks, Prec(peek.kind), PState(st.pos + 2, st.errs));
      var node := Infix(peek, left, peek.lit, right.node);
      |right.st.errs| == |st.errs| ==>
        && right.st.pos < |toks| && PrecOk(node) && Prec(peek.kind) > prec
        && StopsAt(toks, right.st.pos, Prec(peek.kind))
    decreases |toks| - st.pos, 0
  {
    var peek := TokenAt(toks, st.pos + 1);
    var right := ParseExpr(toks, Prec(peek.kind), PState(st.pos + 2, st.errs));
    if |right.st.errs| == |st.errs| {
      ParseExprGood(toks, Prec(peek.kind), PState(st.pos + 2, st.errs));
      assert left.Infix? ==> Prec(left.tok.kind) >= Prec(peek.kind);
    }
  }

  // The consumed tokens, by the same induction.

  lemma {:induction false} ParseExprTokens(toks: seq<Token>, prec: nat, st: PState)
    requires st.pos <= |toks|
    ensures var r := ParseExpr(toks, prec, st);
      |r.st.errs| == |st.errs| ==>
        r.st.pos < |toks| && Spans(r.node, toks, st.pos) && st.pos + Width(r.node) == r.st.pos + 1
    decreases |toks| - st.pos, 3
  {
    var r := ParseExpr(toks, prec, st);
    var cur := TokenAt(toks, st.pos);
    if HasPrefixFn(cur.kind) && |r.st.errs| == |st.errs| {
      var left := ParsePrefix(toks, TokenAt(toks, st.pos).kind, st);
      assert |left.st.errs| == |st.errs|;
      ParsePrefixTokens(toks, st);
      ParseLoopTokens(toks, prec, left.node, left.st, st.pos);
    }
  }

  lemma {:induction false} ParsePrefixTokens(toks: seq<Token>, st: PState)
    requires st.pos <= |toks|
    requires HasPrefixFn(TokenAt(toks, st.pos).kind)
    ensures var r := ParsePrefix(toks, TokenAt(toks, st.pos).kind, st);
      |r.st.errs| == |st.errs| ==>
        r.st.pos < |toks| && Spans(r.node, toks, st.pos) && st.pos + Width(r.node) == r.st.pos + 1
    decreases |toks| - st.pos, 2
  {
    var r := ParsePrefix(toks, TokenAt(toks, st.pos).kind, st);
    var cur := TokenAt(toks, st.pos);
    if !cur.kind.Ident? && !cur.kind.Int? && |r.st.errs| == |st.errs| {
      ParseExprTokens(toks, PrefixPrec, st.(pos := st.pos + 1));
    }
  }

  /** The loop extends a tree `left` that spans the tokens from `from` up
      to `curTok`. */
  lemma {:induction false} ParseLoopTokens(toks: seq<Token>, prec: nat, left: Expr, st: PState, from: nat)
    requires st.pos < |toks|
    requires Spans(left, toks, from) && from + Width(left) == st.pos + 1
    ensures var r := ParseInfixLoop(toks, prec, left, st);
      |r.st.errs| == |st.errs| ==>
        r.st.pos < |toks| && Spans(r.node, toks, from) && from + Width(r.node) == r.st.pos + 1
    decreases |toks| - st.pos, 1
  {
    var r := ParseInfixLoop(toks, prec, left, st);
    if !StopsAt(toks, st.pos, prec) && |r.st.errs| == |st.errs| {
      var peek := TokenAt(toks, st.pos + 1);
      var right := ParseExpr(toks, Prec(peek.kind), PState(st.pos + 2, st.errs));
      var node := Infix(peek, left, peek.lit, right.node);
      LoopUnfolds(toks, prec, left, st);
      assert r == ParseInfixLoop(toks, prec, node, right.st);
      assert |right.st.errs| == |st.errs|;
      LoopStepTokens(toks, prec, left, st, from);
      ParseLoopTokens(toks, prec, node, right.st, from);
    }
  }

  /** One round of the loop keeps the tree spanning the tokens from
      `from` up to the new `curTok`. */
  lemma {:induction false} LoopStepTokens(toks: seq<Token>, prec: nat, left: Expr, st: PState, from: nat)
    requires st.pos < |toks| && !StopsAt(toks, st.pos, prec)
    requires Spans(left, toks, from) && from + Width(left) == st.pos + 1
    ensures var peek := TokenAt(toks, st.pos + 1);
      var right := ParseExpr(toks, Prec(peek.kind), PState(st.pos + 2, st.errs));
      var node := Infix(peek, left, peek.lit, right.node);
      |right.st.errs| == |st.errs| ==>
        right.st.pos < |toks| && Spans(node, toks, from) && from + Width(node) == right.st.pos + 1
    decreases |toks| - st.pos, 0
  {
    var peek := TokenAt(toks, st.pos + 1);
    var right := ParseExpr(toks, Prec(peek.kind), PState(st.pos + 2, st.errs));
    if |right.st.errs| == |st.errs| {
      ParseExprTokens(toks, Prec(peek.kind), PState(st.pos + 2, st.errs));
      assert Spans(right.node, toks, st.pos + 2);
      SpansInfix(toks, from, left, peek, right.node);
    }
  }

  lemma SpansInfix(toks: seq<Token>, from: nat, left: Expr, peek: Token, right: Expr)
    requires Spans(left, toks, from)
    requires from + Width(left) < |toks| && toks[from + Width(left)] == peek
    requires Spans(right, toks, from + Width(left) + 1)
    ensures Spans(Infix(peek, left, peek.lit, right), toks, from)
    ensures Width(Infix(peek, left, peek.lit, right)) == Width(left) + 1 + Width(right)
  {
  }

  lemma JoinAround(toks: seq<Token>, i: nat, m: nat, j: nat, a: seq<Token>, b: seq<Token>, c: seq<Token>)
    requires i <= m < j <= |toks|
    requires a == toks[i..m] && b == toks[m + 1..j]
    requires c == a + [toks[m]] + b
    ensures c == toks[i..j]
  {
    assert toks[i..j] == toks[i..m] + [toks[m]] + toks[m + 1..j];
  }

  // Statements and the program loop.

  /** The loops `for !isCurToken(SEMICOLON) { nextToken() }` of `let` and
      `return`: the first `;` at or after `pos`. Past the end every token
      is EOF, so without a later `;` the loop never ends. */
  function SkipToSemicolon(toks: seq<Token>, pos: nat): (r: Outcome<nat>)
    ensures r.Ok? || r.Hang?
    ensures r.Ok? ==> pos <= r.value < |toks| && toks[r.value].kind.Semicolon?
    decreases |toks| - pos
  {
    if pos >= |toks| then Hang
    else if toks[pos].kind.Semicolon? then Ok(pos)
    else SkipToSemicolon(toks, pos + 1)
  }

  /** The skip loop stops at the first `;` from `pos` on, and hangs exactly
      when there is none. */
  lemma {:induction false} SkipFindsFirstSemicolon(toks: seq<Token>, pos: nat)
    ensures var r := SkipToSemicolon(toks, pos);
      && (r.Hang? <==> forall k :: pos <= k < |toks| ==> !toks[k].kind.Semicolon?)
      && (r.Ok? ==> forall k :: pos <= k < r.value ==> !toks[k].kind.Semicolon?)
    decreases |toks| - pos
  {
    if pos < |toks| && !toks[pos].kind.Semicolon? {
      SkipFindsFirstSemicolon(toks, pos + 1);
    }
  }

  /** `parseLetStmt`. Each `peek` that fails records an error and the
      statement is a nil `*LetStmt`; `curTok` stays where it was. After
      `=` the value is skipped, never parsed, so `Value` stays nil. */
  function ParseLetStmt(toks: seq<Token>, st: PState): (r: Outcome<Parsed<Stmt>>)
    requires st.pos < |toks|
    ensures r.Ok? ==> st.pos <= r.value.st.pos < |toks|
  {
    var letTok := toks[st.pos];
    var afterLet := TokenAt(toks, st.pos + 1);
    if !afterLet.kind.Ident? then
      Ok(Parsed(NilLet, st.(errs := st.errs + [PeekError(Ident, afterLet.kind)])))
    else
      var afterName := TokenAt(toks, st.pos + 2);
      if !afterName.kind.Eq? then
        Ok(Parsed(NilLet, PState(st.pos + 1, st.errs + [PeekError(Eq, afterName.kind)])))
      else
        var semi :- SkipToSemicolon(toks, st.pos + 2);
        Ok(Parsed(LetStmt(letTok, Identifier(afterLet, afterLet.lit), Nil), PState(semi, st.errs)))
  }

  /** `parseReturnStmt`: the value is skipped up to `;`, never parsed. */
  function ParseReturnStmt(toks: seq<Token>, st: PState): (r: Outcome<Parsed<Stmt>>)
    requires st.pos < |toks|
    ensures r.Ok? ==> st.pos < r.value.st.pos < |toks|
  {
    var semi :- SkipToSemicolon(toks, st.pos + 1);
    Ok(Parsed(ReturnStmt(toks[st.pos], Nil), PState(semi, st.errs)))
  }

  /** `parseExprStmt`: an expression at LOWEST, then one optional `;`. */
  function ParseExprStmt(toks: seq<Token>, st: PState): (r: Parsed<Stmt>)
    requires st.pos < |toks|
    ensures st.pos <= r.st.pos <= |toks|
    ensures |st.errs| <= |r.st.errs|
  {
    var e := ParseExpr(toks, Lowest, st);
    var pos := if TokenAt(toks, e.st.pos + 1).kind.Semicolon? then e.st.pos + 1 else e.st.pos;
    Parsed(ExprStmt(toks[st.pos], e.node), PState(pos, e.st.errs))
  }

  /** `parseStmt`: dispatch on `curTok`. */
  function ParseStmt(toks: seq<Token>, st: PState): (r: Outcome<Parsed<Stmt>>)
    requires st.pos < |toks|
    ensures r.Ok? || r.Hang?
    ensures r.Ok? ==> st.pos <= r.value.st.pos <= |toks|
  {
    var cur := toks[st.pos];
    if cur.kind.Let? then ParseLetStmt(toks, st)
    else if cur.kind.Return? then ParseReturnStmt(toks, st)
    else Ok(ParseExprStmt(toks, st))
  }

  /** What `ParseProg` hands back: the program and the error list. */
  datatype ParseResult = ParseResult(program: Program, errs: seq<ParseError>)

  /** The loop of `ParseProg` on one parser state, with the program's own
      test: until `curTok` is EOF, parse a statement, keep it when
      `stmt != nil`, and advance one token. The test compares an interface
      with nil, and a nil `*LetStmt` inside a `Stmt` interface is not nil,
      so every statement is kept. */
  function ParseStmtsKeepingNilLets(toks: seq<Token>, st: PState, acc: seq<Stmt>): (r: Outcome<ParseResult>)
    requires st.pos <= |toks| + 1
    ensures r.Ok? || r.Hang?
    ensures r.Ok? ==> acc <= r.value.program.stmts
    decreases |toks| + 1 - st.pos
  {
    if TokenAt(toks, st.pos).kind.Eof? then Ok(ParseResult(Program(acc), st.errs))
    else
      var s :- ParseStmt(toks, st);
      ParseStmtsKeepingNilLets(toks, s.st.(pos := s.st.pos + 1), acc + [s.node])
  }

  /** `ParseProg` with the `stmt != nil` test, on one parser state:
      `NewParser` reads two tokens, so `curTok` starts at index 0. */
  function ParseProgramKeepingNilLets(toks: seq<Token>): Outcome<ParseResult> {
    ParseStmtsKeepingNilLets(toks, PState(0, []), [])
  }

  /** The loop as evidently intended: one parser state, and a failed
      `let` leaves no statement behind. */
  function ParseStmts(toks: seq<Token>, st: PState, acc: seq<Stmt>): (r: Outcome<ParseResult>)
    requires st.pos <= |toks| + 1
    ensures r.Ok? || r.Hang?
    decreases |toks| + 1 - st.pos
  {
    if TokenAt(toks, st.pos).kind.Eof? then Ok(ParseResult(Program(acc), st.errs))
    else
      var s :- ParseStmt(toks, st);
      ParseStmts(toks, s.st.(pos := s.st.pos + 1), if s.node.NilLet? then acc else acc + [s.node])
  }

  function ParseProgram(toks: seq<Token>): Outcome<ParseResult> {
    ParseStmts(toks, PState(0, []), [])
  }

  /** Source text to program: lexing, then `ParseProg`. */
  function Parse(src: seq<byte>): Outcome<ParseResult> {
    ParseProgram(Tokenize(src))
  }

  /** The statements of a program with the nil `let` statements removed. */
  function DropNilLets(ss: seq<Stmt>): (r: seq<Stmt>)
    ensures |r| <= |ss|
    ensures forall i :: 0 <= i < |r| ==> !r[i].NilLet?
  {
    if |ss| == 0 then []
    else (if ss[0].NilLet? then [] else [ss[0]]) + DropNilLets(ss[1..])
  }

  lemma {:induction false} DropNilLetsAppend(a: seq<Stmt>, b: seq<Stmt>)
    ensures DropNilLets(a + b) == DropNilLets(a) + DropNilLets(b)
  {
    if |a| > 0 {
      var head := if a[0].NilLet? then [] else [a[0]];
      assert (a + b)[0] == a[0];
      assert (a + b)[1..] == a[1..] + b;
      DropNilLetsAppend(a[1..], b);
      assert DropNilLets(a + b) == head + (DropNilLets(a[1..]) + DropNilLets(b));
      assert DropNilLets(a) == head + DropNilLets(a[1..]);
    } else {
      assert a + b == b;
    }
  }

  /** The corrected loop is the as-written loop with the nil statements
      removed: same outcome, same errors, same statements otherwise. */
  lemma {:induction false} CorrectedDropsOnlyNilLets(toks: seq<Token>, st: PState, acc: seq<Stmt>)
    requires st.pos <= |toks| + 1
    ensures var w := ParseStmtsKeepingNilLets(toks, st, acc);
      var c := ParseStmts(toks, st, DropNilLets(acc));
      && (c.Ok? <==> w.Ok?)
      && (c.Ok? ==> c.value.errs == w.value.errs
                    && c.value.program.stmts == DropNilLets(w.value.program.stmts))
    decreases |toks| + 1 - st.pos
  {
    if !TokenAt(toks, st.pos).kind.Eof? {
      var s := ParseStmt(toks, st);
      if s.Ok? {
        var next := s.value.st.(pos := s.value.st.pos + 1);
        var node := s.value.node;
        DropNilLetsAppend(acc, [node]);
        assert DropNilLets([node]) == if node.NilLet? then [] else [node];
        var kept := if node.NilLet? then DropNilLets(acc) else DropNilLets(acc) + [node];
        assert kept == DropNilLets(acc + [node]);
        assert ParseStmts(toks, st, DropNilLets(acc)) == ParseStmts(toks, next, kept);
        assert ParseStmtsKeepingNilLets(toks, st, acc) == ParseStmtsKeepingNilLets(toks, next, acc + [node]);
        CorrectedDropsOnlyNilLets(toks, next, acc + [node]);
      }
    }
  }

  lemma ProgramIsAsWrittenWithoutNilLets(toks: seq<Token>)
    ensures var w := ParseProgramKeepingNilLets(toks); var c := ParseProgram(toks);
      && (c.Ok? <==> w.Ok?)
      && (c.Ok? ==> c.value.errs == w.value.errs
                    && c.value.program.stmts == DropNilLets(w.value.program.stmts))
  {
    CorrectedDropsOnlyNilLets(toks, PState(0, []), []);
  }

  /** The corrected program holds no nil statement. */
  lemma ParsedProgramHasNoNilLet(toks: seq<Token>)
    ensures var c := ParseProgram(toks);
      c.Ok? ==> forall i :: 0 <= i < |c.value.program.stmts| ==> !c.value.program.stmts[i].NilLet?
  {
    ProgramIsAsWrittenWithoutNilLets(toks);
  }

  /** What `parseLetStmt` does, case by case: a missing name or a
      missing `=` records one error and leaves a nil statement with
      `curTok` on the last token accepted; otherwise the statement names
      the identifier, has no value, and ends on the first `;` after the
      `=`. */
  lemma LetOutcome(toks: seq<Token>, st: PState)
    requires st.pos < |toks| && toks[st.pos].kind.Let?
    ensures var r := ParseStmt(toks, st);
      var name := TokenAt(toks, st.pos + 1); var eq := TokenAt(toks, st.pos + 2);
      && (!name.kind.Ident? ==>
            r == Ok(Parsed(NilLet, PState(st.pos, st.errs + [PeekError(Ident, name.kind)]))))
      && (name.kind.Ident? && !eq.kind.Eq? ==>
            r == Ok(Parsed(NilLet, PState(st.pos + 1, st.errs + [PeekError(Eq, eq.kind)]))))
      && (name.kind.Ident? && eq.kind.Eq? ==>
            (r.Hang? <==> SkipToSemicolon(toks, st.pos + 2).Hang?)
            && (r.Ok? ==> r.value == Parsed(LetStmt(toks[st.pos], Identifier(name, name.lit), Nil),
                                            PState(SkipToSemicolon(toks, st.pos + 2).value, st.errs))))
  {
  }

  /** What `parseReturnStmt` does: the value is skipped, never parsed,
      so the statement holds nil; it ends on the first `;` after the
      keyword, records no error, and never ends when no `;` follows. */
  lemma ReturnOutcome(toks: seq<Token>, st: PState)
    requires st.pos < |toks| && toks[st.pos].kind.Return?
    ensures var r := ParseStmt(toks, st); var semi := SkipToSemicolon(toks, st.pos + 1);
      && (r.Hang? <==> forall k :: st.pos < k < |toks| ==> !toks[k].kind.Semicolon?)
      && (r.Ok? ==> semi.Ok? && r.value == Parsed(ReturnStmt(toks[st.pos], Nil), PState(semi.value, st.errs)))
      && (r.Ok? ==> forall k :: st.pos < k < r.value.st.pos ==> !toks[k].kind.Semicolon?)
  {
    SkipFindsFirstSemicolon(toks, st.pos + 1);
  }

  /** A `curTok` without a prefix handler: one error, a nil expression,
      and `curTok` stays put. */
  lemma NoPrefixOutcome(toks: seq<Token>, prec: nat, st: PState)
    requires st.pos <= |toks|
    requires !HasPrefixFn(TokenAt(toks, st.pos).kind)
    ensures ParseExpr(toks, prec, st) == Parsed(Nil, PState(st.pos, st.errs + [NoPrefixError(TokenAt(toks, st.pos).kind)]))
  {
  }

  /** An identifier followed by `;` is an expression statement that
      ends on the `;`. */
  lemma IdentStmtOutcome(toks: seq<Token>, st: PState)
    requires st.pos + 1 < |toks| && toks[st.pos].kind.Ident? && toks[st.pos + 1].kind.Semicolon?
    ensures ParseStmt(toks, st) ==
      Ok(Parsed(ExprStmt(toks[st.pos], IdentExpr(Identifier(toks[st.pos], toks[st.pos].lit))), PState(st.pos + 1, st.errs)))
  {
    var id := IdentExpr(Identifier(toks[st.pos], toks[st.pos].lit));
    assert ParsePrefix(toks, TokenAt(toks, st.pos).kind, st) == Parsed(id, st);
    assert ParseInfixLoop(toks, Lowest, id, st) == Parsed(id, st);
  }

  /** One round of the loop of `ParseProg`. */
  lemma KeepingNilLetsStep(toks: seq<Token>, st: PState, acc: seq<Stmt>)
    requires st.pos < |toks| && !toks[st.pos].kind.Eof?
    requires ParseStmt(toks, st).Ok?
    ensures var s := ParseStmt(toks, st).value;
      ParseStmtsKeepingNilLets(toks, st, acc) == ParseStmtsKeepingNilLets(toks, s.st.(pos := s.st.pos + 1), acc + [s.node])
  {
  }

  /** `let = x;`: the `let` fails, and the parser goes on at the `=`,
      which has no prefix function, and then at the identifier. With the
      program's `stmt != nil` test the nil `let` statement stays in front,
      and no `ToString` can render it. */
  lemma OneCursorKeepsNilLet(toks: seq<Token>)
    requires toks == [Token(Let, "let"), Token(Eq, "="), Token(Ident, "x"), Token(Semicolon, ";")]
    ensures ParseProgramKeepingNilLets(toks) ==
      Ok(ParseResult(Program([NilLet, ExprStmt(toks[1], Nil), ExprStmt(toks[2], IdentExpr(Identifier(toks[2], "x")))]),
                     [PeekError(Ident, Eq), NoPrefixError(Eq)]))
    ensures !StmtRenderable(NilLet)
  {
    var e1 := [PeekError(Ident, Eq)];
    var e2 := e1 + [NoPrefixError(Eq)];
    assert toks[0].kind.Let? && TokenAt(toks, 1).kind.Eq?;
    LetOutcome(toks, PState(0, []));
    assert PState(0, []).errs + [PeekError(Ident, TokenAt(toks, 1).kind)] == e1;
    assert ParseStmt(toks, PState(0, [])) == Ok(Parsed(NilLet, PState(0, e1)));
    KeepingNilLetsStep(toks, PState(0, []), []);
    assert TokenAt(toks, 1).kind.Eq? && !HasPrefixFn(Eq);
    NoPrefixOutcome(toks, Lowest, PState(1, e1));
    assert ParseExpr(toks, Lowest, PState(1, e1)) == Parsed(Nil, PState(1, e2));
    assert !TokenAt(toks, 2).kind.Semicolon?;
    var nilStmt := ExprStmt(toks[1], Nil);
    assert ParseStmt(toks, PState(1, e1)) == Ok(Parsed(nilStmt, PState(1, e2)));
    KeepingNilLetsStep(toks, PState(1, e1), [NilLet]);
    IdentStmtOutcome(toks, PState(2, e2));
    KeepingNilLetsStep(toks, PState(2, e2), [NilLet, nilStmt]);
    var idStmt := ExprStmt(toks[2], IdentExpr(Identifier(toks[2], toks[2].lit)));
    assert TokenAt(toks, 4).kind.Eof?;
    var acc := [NilLet, nilStmt, idStmt];
    assert ParseStmtsKeepingNilLets(toks, PState(4, e2), acc) == Ok(ParseResult(Program(acc), e2));
    assert [] + [NilLet] == [NilLet] && [NilLet] + [nilStmt] == [NilLet, nilStmt];
    assert [NilLet, nilStmt] + [idStmt] == acc;
    assert toks[2].lit == "x";
    var done := Ok(ParseResult(Program(acc), e2));
    assert ParseStmtsKeepingNilLets(toks, PState(2, e2), [NilLet, nilStmt]) == done;
    assert ParseStmtsKeepingNilLets(toks, PState(1, e1), [NilLet]) == done;
    assert ParseStmtsKeepingNilLets(toks, PState(0, []), []) == done;
    assert e2 == [PeekError(Ident, Eq), NoPrefixError(Eq)];
  }

  /** The corrected parser on `let = x;`: the same two errors, and only
      the two expression statements. */
  lemma NilLetIsDropped(toks: seq<Token>)
    requires toks == [Token(Let, "let"), Token(Eq, "="), Token(Ident, "x"), Token(Semicolon, ";")]
    ensures ParseProgram(toks) ==
      Ok(ParseResult(Program([ExprStmt(toks[1], Nil), ExprStmt(toks[2], IdentExpr(Identifier(toks[2], "x")))]),
                     [PeekError(Ident, Eq), NoPrefixError(Eq)]))
  {
    OneCursorKeepsNilLet(toks);
    ProgramIsAsWrittenWithoutNilLets(toks);
    var nilStmt := ExprStmt(toks[1], Nil);
    var idStmt := ExprStmt(toks[2], IdentExpr(Identifier(toks[2], "x")));
    var acc := [NilLet, nilStmt, idStmt];
    assert acc[1..] == [nilStmt, idStmt] && acc[1..][1..] == [idStmt] && [idStmt][1..] == [];
    assert DropNilLets([idStmt]) == [idStmt];
    assert DropNilLets([nilStmt, idStmt]) == [nilStmt] + [idStmt];
    assert DropNilLets(acc) == [nilStmt, idStmt];
  }

  // Precedence and associativity on small inputs.

  /** An identifier operand: `parseIdent`, then the loop. */
  lemma IdentOperand(toks: seq<Token>, prec: nat, st: PState)
    requires st.pos < |toks| && toks[st.pos].kind.Ident?
    ensures ParseExpr(toks, prec, st) == ParseInfixLoop(toks, prec, Leaf(toks[st.pos]), st)
  {
    assert ParsePrefix(toks, TokenAt(toks, st.pos).kind, st) == Parsed(Leaf(toks[st.pos]), st);
  }

  lemma LoopStops(toks: seq<Token>, prec: nat, left: Expr, st: PState)
    requires st.pos <= |toks| && StopsAt(toks, st.pos, prec)
    ensures ParseInfixLoop(toks, prec, left, st) == Parsed(left, st)
  {
  }

  function Name1(x: string): Token {
    Token(Ident, x)
  }

  /** The node `parseIdent` builds for an identifier token. */
  function Leaf(t: Token): Expr {
    IdentExpr(Identifier(t, t.lit))
  }

  /** `a + b * c` parses as `a + (b * c)`: `*` binds more tightly. */
  lemma ProductBindsTighter(toks: seq<Token>)
    requires toks == [Name1("a"), Token(Plus, "+"), Name1("b"), Token(Mul, "*"), Name1("c")]
    ensures ParseExpr(toks, Lowest, PState(0, [])) ==
      Parsed(Infix(toks[1], Leaf(toks[0]), "+", Infix(toks[3], Leaf(toks[2]), "*", Leaf(toks[4]))), PState(4, []))
  {
    var a := Leaf(toks[0]);
    var b := Leaf(toks[2]);
    var c := Leaf(toks[4]);
    var bc := Infix(toks[3], b, "*", c);
    var abc := Infix(toks[1], a, "+", bc);
    // the operand of `*`
    IdentOperand(toks, Product, PState(4, []));
    LoopStops(toks, Product, c, PState(4, []));
    assert ParseExpr(toks, Product, PState(4, [])) == Parsed(c, PState(4, []));
    // the operand of `+`
    IdentOperand(toks, Sum, PState(2, []));
    LoopUnfolds(toks, Sum, b, PState(2, []));
    LoopStops(toks, Sum, bc, PState(4, []));
    assert ParseExpr(toks, Sum, PState(2, [])) == Parsed(bc, PState(4, []));
    // the whole expression
    IdentOperand(toks, Lowest, PState(0, []));
    LoopUnfolds(toks, Lowest, a, PState(0, []));
    LoopStops(toks, Lowest, abc, PState(4, []));
  }

  /** The tree of `a + b * c` renders as `(a + (b * c))`. */
  lemma ProductBindsTighterText(toks: seq<Token>)
    requires toks == [Name1("a"), Token(Plus, "+"), Name1("b"), Token(Mul, "*"), Name1("c")]
    ensures var r := ParseExpr(toks, Lowest, PState(0, []));
      Renderable(r.node) && ExprString(r.node) == "(a + (b * c))"
  {
    ProductBindsTighter(toks);
    var bc := Infix(toks[3], Leaf(toks[2]), "*", Leaf(toks[4]));
    assert ExprString(bc) == "(b * c)";
  }

  /** `a - b - c` parses as `(a - b) - c`: operators of equal strength
      associate to the left. */
  lemma SubtractionAssociatesLeft(toks: seq<Token>)
    requires toks == [Name1("a"), Token(Minus, "-"), Name1("b"), Token(Minus, "-"), Name1("c")]
    ensures ParseExpr(toks, Lowest, PState(0, [])) ==
      Parsed(Infix(toks[3], Infix(toks[1], Leaf(toks[0]), "-", Leaf(toks[2])), "-", Leaf(toks[4])), PState(4, []))
  {
    var a := Leaf(toks[0]);
    var b := Leaf(toks[2]);
    var c := Leaf(toks[4]);
    var ab := Infix(toks[1], a, "-", b);
    var abc := Infix(toks[3], ab, "-", c);
    // the operand of the first `-` stops before the second
    IdentOperand(toks, Sum, PState(2, []));
    LoopStops(toks, Sum, b, PState(2, []));
    assert ParseExpr(toks, Sum, PState(2, [])) == Parsed(b, PState(2, []));
    // the operand of the second `-`
    IdentOperand(toks, Sum, PState(4, []));
    LoopStops(toks, Sum, c, PState(4, []));
    assert ParseExpr(toks, Sum, PState(4, [])) == Parsed(c, PState(4, []));
    // the loop folds both
    IdentOperand(toks, Lowest, PState(0, []));
    LoopUnfolds(toks, Lowest, a, PState(0, []));
    LoopUnfolds(toks, Lowest, ab, PState(2, []));
    LoopStops(toks, Lowest, abc, PState(4, []));
  }

  /** A prefix operator: `parsePrefixExpr` parses the operand at PREFIX
      strength, then the loop goes on. */
  lemma PrefixOperand(toks: seq<Token>, prec: nat, st: PState)
    requires st.pos < |toks| && (toks[st.pos].kind.Minus? || toks[st.pos].kind.Exc?)
    ensures var right := ParseExpr(toks, PrefixPrec, st.(pos := st.pos + 1));
      ParseExpr(toks, prec, st) ==
        ParseInfixLoop(toks, prec, Prefix(toks[st.pos], toks[st.pos].lit, right.node), right.st)
  {
  }

  /** `-a * b` parses as `(-a) * b`: the prefix operand binds at PREFIX
      strength, more tightly than any infix operator. */
  lemma PrefixBindsTighter(toks: seq<Token>)
    requires toks == [Token(Minus, "-"), Name1("a"), Token(Mul, "*"), Name1("b")]
    ensures ParseExpr(toks, Lowest, PState(0, [])) ==
      Parsed(Infix(toks[2], Prefix(toks[0], "-", Leaf(toks[1])), "*", Leaf(toks[3])), PState(3, []))
  {
    var a := Leaf(toks[1]);
    var b := Leaf(toks[3]);
    var na := Prefix(toks[0], "-", a);
    IdentOperand(toks, PrefixPrec, PState(1, []));
    LoopStops(toks, PrefixPrec, a, PState(1, []));
    assert ParseExpr(toks, PrefixPrec, PState(1, [])) == Parsed(a, PState(1, []));
    IdentOperand(toks, Product, PState(3, []));
    LoopStops(toks, Product, b, PState(3, []));
    assert ParseExpr(toks, Product, PState(3, [])) == Parsed(b, PState(3, []));
    PrefixOperand(toks, Lowest, PState(0, []));
    LoopUnfolds(toks, Lowest, na, PState(1, []));
    LoopStops(toks, Lowest, Infix(toks[2], na, "*", b), PState(3, []));
  }

  /** The tables are keyed on EQ: `a = b` is an infix expression, while
      `a == b` stops after `a`, since EQEQ has neither a precedence nor an
      infix handler. */
  lemma EqualsQuirk(toks: seq<Token>, toks2: seq<Token>)
    requires toks == [Name1("a"), Token(Eq, "="), Name1("b")]
    requires toks2 == [Name1("a"), Token(EqEq, "=="), Name1("b")]
    ensures ParseExpr(toks, Lowest, PState(0, [])) ==
      Parsed(Infix(toks[1], Leaf(toks[0]), "=", Leaf(toks[2])), PState(2, []))
    ensures ParseExpr(toks2, Lowest, PState(0, [])) == Parsed(Leaf(toks2[0]), PState(0, []))
  {
    IdentOperand(toks, Equals, PState(2, []));
    LoopStops(toks, Equals, Leaf(toks[2]), PState(2, []));
    assert ParseExpr(toks, Equals, PState(2, [])) == Parsed(Leaf(toks[2]), PState(2, []));
    IdentOperand(toks, Lowest, PState(0, []));
    LoopUnfolds(toks, Lowest, Leaf(toks[0]), PState(0, []));
    LoopStops(toks, Lowest, Infix(toks[1], Leaf(toks[0]), "=", Leaf(toks[2])), PState(2, []));
    IdentOperand(toks2, Lowest, PState(0, []));
    LoopStops(toks2, Lowest, Leaf(toks2[0]), PState(0, []));
  }
}

=== FILE: parser_as_written.dfy ===
/** The parser as the program runs it.

    `NewParser` builds a local `Parser`, registers the four handlers as
    method values of that local, reads two tokens and returns a copy of
    it. `ParseProg` and the statement parsers then run on the copy (the
    driver), while `parseIdent`, `parseIntegerLit`, `parsePrefixExpr` and
    `parseInfixExpr`, and every `parseExpr` they call, run on the local
    (the handler parser). The two copies share the lexer: a token that one
    of them pulls is never seen by the other. Only the driver's error list
    is returned by `GetErrors`.

    The module `Parser` holds the evidently intended single parser. Taken
    on its own, the handler parser behaves as that parser over the tokens
    it sees, so its work is `Parser.ParsePrefix` and
    `Parser.ParseInfixExpr` run on the handler's view of the stream.
 */
module ParserAsWritten {
  import opened Token
  import opened Outcomes
  import opened Ast
  import opened Lexer
  import GoInt
  import Parser

  /** One copy of the parser: `curTok`, `peekTok` and its error list. */
  datatype Cursor = Cursor(cur: Token, peek: Token, errs: seq<Parser.ParseError>)

  /** Both copies, and the shared lexer, which has handed out the tokens
      before index `lx` of the stream. */
  datatype Split = Split(drv: Cursor, hnd: Cursor, lx: nat)

  /** A parsed node together with the state after it. */
  datatype Done<T> = Done(node: T, s: Split)

  /** `NewParser`: two `nextToken` calls on the local, then the copy. */
  function NewParser(toks: seq<Token>): (s: Split)
    ensures s.drv == s.hnd
    ensures s.drv.errs == [] && s.lx == 2
  {
    var c := Cursor(TokenAt(toks, 0), TokenAt(toks, 1), []);
    Split(c, c, 2)
  }

  // Termination: every `nextToken` of the driver lowers its rank until
  // the lexer is spent and the driver sees only EOF.

  function Remaining(toks: seq<Token>, lx: nat): nat {
    if lx < |toks| then |toks| - lx else 0
  }

  function Rank(toks: seq<Token>, s: Split): nat {
    4 * Remaining(toks, s.lx) + (if s.drv.peek.kind.Eof? then 0 else 2) + (if s.drv.cur.kind.Eof? then 0 else 1)
  }

  /** `nextToken` on the driver: its peek token becomes current and it
      pulls the next token from the shared lexer. */
  function Advance(toks: seq<Token>, s: Split): (r: Split)
    ensures r.hnd == s.hnd && r.drv.errs == s.drv.errs
    ensures r.drv.cur == s.drv.peek && r.drv.peek == TokenAt(toks, s.lx) && r.lx == s.lx + 1
    ensures Rank(toks, s) == 0 ==> Rank(toks, r) == 0
    ensures Rank(toks, s) > 0 ==> Rank(toks, r) < Rank(toks, s)
  {
    Split(Cursor(s.drv.peek, TokenAt(toks, s.lx), s.drv.errs), s.hnd, s.lx + 1)
  }

  /** The tokens the handler parser reads from now on: its own current
      and peek tokens, then whatever the lexer has not handed out. */
  function HandlerView(toks: seq<Token>, s: Split): (v: seq<Token>)
    ensures |v| >= 2 && v[0] == s.hnd.cur && v[1] == s.hnd.peek
  {
    [s.hnd.cur, s.hnd.peek] + (if s.lx < |toks| then toks[s.lx..] else [])
  }

  /** The handler parser after a parse that ended at position `r.st.pos`
      of its view: each `nextToken` it made pulled one token from the
      shared lexer. */
  function Resume(toks: seq<Token>, s: Split, r: Parser.Parsed<Expr>): (d: Done<Expr>)
    requires r.st.pos <= |HandlerView(toks, s)|
    ensures d.node == r.node && d.s.drv == s.drv && d.s.hnd.errs == r.st.errs
    ensures d.s.lx == s.lx + r.st.pos
    ensures d.s.hnd.cur == TokenAt(HandlerView(toks, s), r.st.pos) && d.s.hnd.peek == TokenAt(HandlerView(toks, s), r.st.pos + 1)
  {
    var v := HandlerView(toks, s);
    var p := r.st.pos;
    Done(r.node, Split(s.drv, Cursor(TokenAt(v, p), TokenAt(v, p + 1), r.st.errs), s.lx + p))
  }

  /** Taken alone, the handler parser reads one continuous stream: after
      a parse its view is the rest of the view it started from. */
  lemma ResumeContinues(toks: seq<Token>, s: Split, r: Parser.Parsed<Expr>)
    requires r.st.pos <= |HandlerView(toks, s)|
    ensures forall j: nat :: TokenAt(HandlerView(toks, Resume(toks, s, r).s), j) == TokenAt(HandlerView(toks, s), r.st.pos + j)
  {
    var v := HandlerView(toks, s);
    var p := r.st.pos;
    var s2 := Resume(toks, s, r).s;
    forall j: nat ensures TokenAt(HandlerView(toks, s2), j) == TokenAt(v, p + j) {
      if j < 2 {
        assert TokenAt(HandlerView(toks, s2), j) == HandlerView(toks, s2)[j];
      } else {
        ViewAt(toks, s2, j);
        ViewAt(toks, s, p + j);
      }
    }
  }

  /** One token of the handler's view past its own two. */
  lemma ViewAt(toks: seq<Token>, s: Split, j: nat)
    requires 2 <= j
    ensures TokenAt(HandlerView(toks, s), j) == TokenAt(toks, s.lx + j - 2)
  {
  }

  /** `prefix()`: the handler registered for the driver's `curTok` runs
      on the handler parser, which builds the node from its own `curTok`.
      The driver is untouched. */
  function HandlerPrefix(toks: seq<Token>, k: Kind, s: Split): (r: Done<Expr>)
    requires Parser.HasPrefixFn(k)
    ensures r.s.drv == s.drv && s.lx <= r.s.lx
    ensures !r.node.Infix?
    ensures forall j: nat :: TokenAt(HandlerView(toks, r.s), j) == TokenAt(HandlerView(toks, s), r.s.lx - s.lx + j)
  {
    var v := HandlerView(toks, s);
    var p := Parser.ParsePrefix(v, k, Parser.PState(0, s.hnd.errs));
    ResumeContinues(toks, s, p);
    Resume(toks, s, p)
  }

  /** `infix(leftExpr)`: `parseInfixExpr` on the handler parser, whose
      `curTok` is its own, not the operator the driver has just stepped
      onto. The driver is untouched, and the lexer moves on. */
  function HandlerInfix(toks: seq<Token>, left: Expr, s: Split): (r: Done<Expr>)
    ensures r.s.drv == s.drv && s.lx < r.s.lx
    ensures r.node.Infix? && r.node.tok == s.hnd.cur && r.node.op == s.hnd.cur.lit && r.node.left == left
    ensures forall j: nat :: TokenAt(HandlerView(toks, r.s), j) == TokenAt(HandlerView(toks, s), r.s.lx - s.lx + j)
  {
    var v := HandlerView(toks, s);
    var p := Parser.ParseInfixExpr(v, left, Parser.PState(0, s.hnd.errs));
    ResumeContinues(toks, s, p);
    Resume(toks, s, p)
  }

  /** The loop condition of `parseExpr`, on the driver's peek token. */
  predicate Stops(peek: Token, prec: nat) {
    peek.kind.Semicolon? || Parser.Prec(peek.kind) <= prec || !Parser.HasInfixFn(peek.kind)
  }

  /** What every step of the driver keeps: its rank never grows, its
      error list only grows, and what it adds is its own peek or
      no-prefix error, never a handler's integer error. */
  predicate DriverStep(toks: seq<Token>, s: Split, s2: Split) {
    && Rank(toks, s2) <= Rank(toks, s)
    && |s.drv.errs| <= |s2.drv.errs| && s2.drv.errs[..|s.drv.errs|] == s.drv.errs
    && (forall i :: |s.drv.errs| <= i < |s2.drv.errs| ==> !s2.drv.errs[i].IntegerError?)
  }

  /** `parseExpr` called on the driver: the prefix handler is looked up
      by the driver's `curTok` but runs on the handler parser; a missing
      handler is the driver's own error. */
  function DriverExpr(toks: seq<Token>, prec: nat, s: Split): (r: Done<Expr>)
    ensures DriverStep(toks, s, r.s)
    ensures r.s.drv.errs == s.drv.errs + (if Parser.HasPrefixFn(s.drv.cur.kind) then [] else [Parser.NoPrefixError(s.drv.cur.kind)])
    ensures !s.drv.cur.kind.Eof? ==> !r.s.drv.cur.kind.Eof?
  {
    if !Parser.HasPrefixFn(s.drv.cur.kind) then
      Done(Nil, s.(drv := s.drv.(errs := s.drv.errs + [Parser.NoPrefixError(s.drv.cur.kind)])))
    else
      var left := HandlerPrefix(toks, s.drv.cur.kind, s);
      DriverLoop(toks, prec, left.node, left.s)
  }

  /** The loop of `parseExpr` on the driver: the driver tests its own
      peek token and steps onto the operator, and the infix handler runs
      on the handler parser. */
  function DriverLoop(toks: seq<Token>, prec: nat, left: Expr, s: Split): (r: Done<Expr>)
    ensures DriverStep(toks, s, r.s) && r.s.drv.errs == s.drv.errs
    ensures Stops(r.s.drv.peek, prec)
    ensures !s.drv.cur.kind.Eof? ==> !r.s.drv.cur.kind.Eof?
    decreases Rank(toks, s)
  {
    if Stops(s.drv.peek, prec) then Done(left, s)
    else
      var r := HandlerInfix(toks, left, Advance(toks, s));
      DriverLoop(toks, prec, r.node, r.s)
  }

  // Statements, all on the driver.

  /** `for !isCurToken(SEMICOLON) { nextToken() }` on the driver. Once
      the lexer is spent and the driver sees only EOF it never ends. */
  function SkipToSemicolon(toks: seq<Token>, s: Split): (r: Outcome<Split>)
    ensures r.Ok? || r.Hang?
    ensures r.Ok? ==> r.value.drv.cur.kind.Semicolon? && r.value.hnd == s.hnd
    ensures r.Ok? ==> r.value.drv.errs == s.drv.errs && Rank(toks, r.value) <= Rank(toks, s)
    decreases Rank(toks, s)
  {
    if s.drv.cur.kind.Semicolon? then Ok(s)
    else if Rank(toks, s) == 0 then Hang
    else SkipToSemicolon(toks, Advance(toks, s))
  }

  /** The skip loop hangs exactly when no `;` is left: not the driver's
      current or peek token, and none the lexer has yet to hand out. */
  lemma {:induction false} SkipHangsExactly(toks: seq<Token>, s: Split)
    ensures SkipToSemicolon(toks, s).Hang? <==>
      && !s.drv.cur.kind.Semicolon? && !s.drv.peek.kind.Semicolon?
      && forall k :: s.lx <= k < |toks| ==> !toks[k].kind.Semicolon?
    decreases Rank(toks, s)
  {
    if !s.drv.cur.kind.Semicolon? && Rank(toks, s) > 0 {
      var a := Advance(toks, s);
      SkipHangsExactly(toks, a);
      if s.lx < |toks| {
        assert a.drv.peek == toks[s.lx];
      }
    }
  }

  /** `parseLetStmt` on the driver. */
  function ParseLetStmt(toks: seq<Token>, s: Split): (r: Outcome<Done<Stmt>>)
    ensures r.Ok? ==> DriverStep(toks, s, r.value.s) && r.value.s.hnd == s.hnd
    ensures r.Ok? && !s.drv.cur.kind.Eof? ==> !r.value.s.drv.cur.kind.Eof?
  {
    var letTok := s.drv.cur;
    if !s.drv.peek.kind.Ident? then
      Ok(Done(NilLet, s.(drv := s.drv.(errs := s.drv.errs + [Parser.PeekError(Ident, s.drv.peek.kind)]))))
    else
      var s1 := Advance(toks, s);
      var name := Identifier(s1.drv.cur, s1.drv.cur.lit);
      if !s1.drv.peek.kind.Eq? then
        Ok(Done(NilLet, s1.(drv := s1.drv.(errs := s1.drv.errs + [Parser.PeekError(Eq, s1.drv.peek.kind)]))))
      else
        var s2 :- SkipToSemicolon(toks, Advance(toks, s1));
        Ok(Done(LetStmt(letTok, name, Nil), s2))
  }

  /** `parseReturnStmt` on the driver. */
  function ParseReturnStmt(toks: seq<Token>, s: Split): (r: Outcome<Done<Stmt>>)
    ensures r.Ok? ==> r.value.s.drv.errs == s.drv.errs && r.value.s.hnd == s.hnd
    ensures r.Ok? ==> Rank(toks, r.value.s) <= Rank(toks, s) && r.value.s.drv.cur.kind.Semicolon?
  {
    var s1 :- SkipToSemicolon(toks, Advance(toks, s));
    Ok(Done(ReturnStmt(s.drv.cur, Nil), s1))
  }

  /** `parseExprStmt` on the driver: the statement's token is the
      driver's `curTok`, the expression comes from `DriverExpr`. */
  function ParseExprStmt(toks: seq<Token>, s: Split): (r: Done<Stmt>)
    ensures DriverStep(toks, s, r.s)
    ensures r.node.ExprStmt? && r.node.tok == s.drv.cur
    ensures !s.drv.cur.kind.Eof? ==> !r.s.drv.cur.kind.Eof?
  {
    var e := DriverExpr(toks, Parser.Lowest, s);
    var s1 := if e.s.drv.peek.kind.Semicolon? then Advance(toks, e.s) else e.s;
    Done(ExprStmt(s.drv.cur, e.node), s1)
  }

  /** `parseStmt` on the driver. */
  function ParseStmt(toks: seq<Token>, s: Split): (r: Outcome<Done<Stmt>>)
    ensures r.Ok? || r.Hang?
    ensures r.Ok? ==> DriverStep(toks, s, r.value.s)
    ensures r.Ok? && !s.drv.cur.kind.Eof? ==> !r.value.s.drv.cur.kind.Eof?
  {
    if s.drv.cur.kind.Let? then ParseLetStmt(toks, s)
    else if s.drv.cur.kind.Return? then ParseReturnStmt(toks, s)
    else Ok(ParseExprStmt(toks, s))
  }

  /** The loop of `ParseProg` on the driver. A nil `*LetStmt` inside a
      `Stmt` interface is not nil, so every statement is kept. */
  function ParseStmts(toks: seq<Token>, s: Split, acc: seq<Stmt>): (r: Outcome<Parser.ParseResult>)
    ensures r.Ok? || r.Hang?
    ensures r.Ok? ==> acc <= r.value.program.stmts
    decreases Rank(toks, s)
  {
    if s.drv.cur.kind.Eof? then Ok(Parser.ParseResult(Program(acc), s.drv.errs))
    else
      var st :- ParseStmt(toks, s);
      ParseStmts(toks, Advance(toks, st.s), acc + [st.node])
  }

  /** `NewParser` then `ParseProg`; the errors are `GetErrors()` of the
      driver. */
  function ParseProgram(toks: seq<Token>): Outcome<Parser.ParseResult> {
    ParseStmts(toks, NewParser(toks), [])
  }

  /** Source text to program, as the program's driver does it. */
  function ParseSource(src: seq<byte>): Outcome<Parser.ParseResult> {
    ParseProgram(Tokenize(src))
  }

  // What reaches `GetErrors`.

  predicate NoIntegerError(errs: seq<Parser.ParseError>) {
    forall i :: 0 <= i < |errs| ==> !errs[i].IntegerError?
  }

  lemma {:induction false} StmtsReportNoIntegerError(toks: seq<Token>, s: Split, acc: seq<Stmt>)
    requires NoIntegerError(s.drv.errs)
    ensures var r := ParseStmts(toks, s, acc); r.Ok? ==> NoIntegerError(r.value.errs)
    decreases Rank(toks, s)
  {
    if !s.drv.cur.kind.Eof? {
      var st := ParseStmt(toks, s);
      if st.Ok? {
        var s1 := st.value.s;
        var n := |s.drv.errs|;
        forall i | 0 <= i < |s1.drv.errs| ensures !s1.drv.errs[i].IntegerError? {
          if i < n {
            assert s1.drv.errs[i] == s1.drv.errs[..n][i];
          }
        }
        StmtsReportNoIntegerError(toks, Advance(toks, s1), acc + [st.value.node]);
      }
    }
  }

  /** `GetErrors` never holds an integer error: `parseIntegerLit` runs on
      the handler parser, whose error list nobody reads. */
  lemma ReportedErrorsAreTheDriversOwn(toks: seq<Token>)
    ensures var r := ParseProgram(toks); r.Ok? ==> NoIntegerError(r.value.errs)
  {
    StmtsReportNoIntegerError(toks, NewParser(toks), []);
  }

  // Agreement with the one-state parser up to the first expression
  // statement: `let` and `return` never touch the handler parser.

  /** The driver stands where the one-state parser stands at `st`: the
      same current and peek tokens, the same errors, and no token has gone
      to the handler parser. */
  predicate Tracks(toks: seq<Token>, s: Split, st: Parser.PState) {
    s.drv == Cursor(TokenAt(toks, st.pos), TokenAt(toks, st.pos + 1), st.errs) && s.lx == st.pos + 2
  }

  lemma {:induction false} SkipTracks(toks: seq<Token>, s: Split, st: Parser.PState)
    requires Tracks(toks, s, st)
    ensures var w := SkipToSemicolon(toks, s); var c := Parser.SkipToSemicolon(toks, st.pos);
      && (w.Hang? <==> c.Hang?)
      && (w.Ok? ==> Tracks(toks, w.value, st.(pos := c.value)))
    decreases Rank(toks, s)
  {
    if !s.drv.cur.kind.Semicolon? {
      if Rank(toks, s) == 0 {
        Parser.SkipFindsFirstSemicolon(toks, st.pos);
      } else {
        SkipTracks(toks, Advance(toks, s), st.(pos := st.pos + 1));
      }
    }
  }

  lemma LetTracks(toks: seq<Token>, s: Split, st: Parser.PState)
    requires Tracks(toks, s, st) && st.pos < |toks| && toks[st.pos].kind.Let?
    ensures var w := ParseStmt(toks, s); var c := Parser.ParseStmt(toks, st);
      && (w.Hang? <==> c.Hang?)
      && (w.Ok? ==> w.value.node == c.value.node && Tracks(toks, w.value.s, c.value.st))
  {
    if TokenAt(toks, st.pos + 1).kind.Ident? && TokenAt(toks, st.pos + 2).kind.Eq? {
      var s2 := Advance(toks, Advance(toks, s));
      assert Tracks(toks, s2, st.(pos := st.pos + 2));
      SkipTracks(toks, s2, st.(pos := st.pos + 2));
    }
  }

  lemma ReturnTracks(toks: seq<Token>, s: Split, st: Parser.PState)
    requires Tracks(toks, s, st) && st.pos < |toks| && toks[st.pos].kind.Return?
    ensures var w := ParseStmt(toks, s); var c := Parser.ParseStmt(toks, st);
      && (w.Hang? <==> c.Hang?)
      && (w.Ok? ==> w.value.node == c.value.node && Tracks(toks, w.value.s, c.value.st))
  {
    var s1 := Advance(toks, s);
    assert Tracks(toks, s1, st.(pos := st.pos + 1));
    SkipTracks(toks, s1, st.(pos := st.pos + 1));
  }

  predicate NoExprStmt(ss: seq<Stmt>) {
    forall i :: 0 <= i < |ss| ==> !ss[i].ExprStmt?
  }

  /** Until an expression statement is parsed, the program's parser and
      the one-state parser with the same `stmt != nil` test agree: when
      either yields a program without expression statements, both yield
      the same program and the same errors. */
  lemma {:induction false} AgreesWithoutExpressions(toks: seq<Token>, s: Split, st: Parser.PState, acc: seq<Stmt>)
    requires Tracks(toks, s, st) && st.pos <= |toks| + 1
    ensures var w := ParseStmts(toks, s, acc); var c := Parser.ParseStmtsKeepingNilLets(toks, st, acc);
      (c.Ok? && NoExprStmt(c.value.program.stmts)) || (w.Ok? && NoExprStmt(w.value.program.stmts)) ==> w == c
    decreases |toks| + 1 - st.pos
  {
    var cur := TokenAt(toks, st.pos);
    if !cur.kind.Eof? {
      if cur.kind.Let? || cur.kind.Return? {
        var w := ParseStmt(toks, s);
        var c := Parser.ParseStmt(toks, st);
        StatementAgrees(toks, s, st, acc);
        if c.Ok? {
          AgreesWithoutExpressions(toks, Advance(toks, w.value.s), c.value.st.(pos := c.value.st.pos + 1), acc + [c.value.node]);
        }
      } else {
        ExpressionEndsAgreement(toks, s, st, acc);
      }
    }
  }

  /** One `let` or `return` statement: both parsers take the same step,
      and both program loops go on from the same place with the same
      statement added. */
  lemma StatementAgrees(toks: seq<Token>, s: Split, st: Parser.PState, acc: seq<Stmt>)
    requires Tracks(toks, s, st) && st.pos < |toks|
    requires toks[st.pos].kind.Let? || toks[st.pos].kind.Return?
    ensures var w := ParseStmt(toks, s); var c := Parser.ParseStmt(toks, st);
      && (w.Hang? <==> c.Hang?)
      && (c.Hang? ==> ParseStmts(toks, s, acc).Hang? && Parser.ParseStmtsKeepingNilLets(toks, st, acc).Hang?)
      && (c.Ok? ==>
            var next := c.value.st.(pos := c.value.st.pos + 1);
            && w.Ok? && next.pos <= |toks| + 1
            && Tracks(toks, Advance(toks, w.value.s), next)
            && ParseStmts(toks, s, acc) == ParseStmts(toks, Advance(toks, w.value.s), acc + [c.value.node])
            && Parser.ParseStmtsKeepingNilLets(toks, st, acc) == Parser.ParseStmtsKeepingNilLets(toks, next, acc + [c.value.node]))
  {
    if toks[st.pos].kind.Let? { LetTracks(toks, s, st); } else { ReturnTracks(toks, s, st); }
  }

  /** A statement that starts with neither `let` nor `return` is an
      expression statement on both parsers. */
  lemma ExpressionEndsAgreement(toks: seq<Token>, s: Split, st: Parser.PState, acc: seq<Stmt>)
    requires Tracks(toks, s, st)
    requires var k := TokenAt(toks, st.pos).kind; !k.Eof? && !k.Let? && !k.Return?
    ensures var w := ParseStmts(toks, s, acc); w.Ok? ==> !NoExprStmt(w.value.program.stmts)
    ensures var c := Parser.ParseStmtsKeepingNilLets(toks, st, acc); c.Ok? ==> !NoExprStmt(c.value.program.stmts)
  {
    var w := ParseStmt(toks, s);
    var c := Parser.ParseStmt(toks, st);
    var wr := ParseStmts(toks, s, acc);
    var cr := Parser.ParseStmtsKeepingNilLets(toks, st, acc);
    if wr.Ok? {
      assert wr.value.program.stmts[|acc|] == w.value.node;
    }
    if cr.Ok? {
      assert cr.value.program.stmts[|acc|] == c.value.node;
    }
  }

  /** The whole programs: the same result whenever either parse has no
      expression statement. */
  lemma ProgramsAgreeWithoutExpressions(toks: seq<Token>)
    ensures var w := ParseProgram(toks); var c := Parser.ParseProgramKeepingNilLets(toks);
      (c.Ok? && NoExprStmt(c.value.program.stmts)) || (w.Ok? && NoExprStmt(w.value.program.stmts)) ==> w == c
  {
    AgreesWithoutExpressions(toks, NewParser(toks), Parser.PState(0, []), []);
  }

  /** An identifier followed by `;`: the driver steps onto the `;`, and
      the node is built from the handler parser's `curTok`, whatever token
      that is. */
  lemma IdentStmtOutcome(toks: seq<Token>, s: Split)
    requires s.drv.cur.kind.Ident? && s.drv.peek.kind.Semicolon?
    ensures ParseStmt(toks, s) ==
      Ok(Done(ExprStmt(s.drv.cur, IdentExpr(Identifier(s.hnd.cur, s.hnd.cur.lit))), Advance(toks, s)))
  {
    var v := HandlerView(toks, s);
    var id := IdentExpr(Identifier(s.hnd.cur, s.hnd.cur.lit));
    assert Parser.ParsePrefix(v, Ident, Parser.PState(0, s.hnd.errs)) == Parser.Parsed(id, Parser.PState(0, s.hnd.errs));
    assert HandlerPrefix(toks, Ident, s) == Done(id, s);
    assert DriverExpr(toks, Parser.Lowest, s) == Done(id, s);
  }

  // The discrepancies on small inputs.

  lemma SmallLiterals()
    ensures GoInt.ParseInt("1") == Some(1) && GoInt.ParseInt("2") == Some(2)
  {
    GoInt.ParseIntInvertsDecimal(1);
    GoInt.ParseIntInvertsDecimal(2);
    assert GoInt.NatToDecimal(1) == "1" && GoInt.NatToDecimal(2) == "2";
  }

  function OnePlusTwoTokens(): seq<Token> {
    [Token(Int, "1"), Token(Plus, "+"), Token(Int, "2")]
  }

  /** The first operand: `parseIntegerLit` on the handler parser, which
      still stands on `1`. */
  lemma OnePlusTwoOperand(toks: seq<Token>)
    requires toks == OnePlusTwoTokens()
    ensures HandlerPrefix(toks, Int, NewParser(toks)) == Done(IntegerLit(toks[0], 1), NewParser(toks))
  {
    SmallLiterals();
    assert HandlerView(toks, NewParser(toks)) == toks;
  }

  /** The infix handler: its `curTok` is still `1`, so `1` is the
      operator, and the `+` it steps onto has no prefix function. */
  lemma OnePlusTwoInfix(toks: seq<Token>)
    requires toks == OnePlusTwoTokens()
    ensures var a1 := Advance(toks, NewParser(toks));
      HandlerInfix(toks, IntegerLit(toks[0], 1), a1) ==
        Done(Infix(toks[0], IntegerLit(toks[0], 1), "1", Nil),
             Split(a1.drv, Cursor(toks[1], EofToken, [Parser.NoPrefixError(Plus)]), 4))
  {
    var a1 := Advance(toks, NewParser(toks));
    var v := [toks[0], toks[1]];
    assert HandlerView(toks, a1) == v;
    var e1 := [Parser.NoPrefixError(Plus)];
    assert Parser.ParseExpr(v, Parser.Lowest, Parser.PState(1, [])) == Parser.Parsed(Nil, Parser.PState(1, e1));
  }

  /** `parseExpr` on the driver for `1 + 2`: the operand, then one
      round of the loop, which stops at the `2`. */
  lemma OnePlusTwoExpr(toks: seq<Token>)
    requires toks == OnePlusTwoTokens()
    ensures DriverExpr(toks, Parser.Lowest, NewParser(toks)) ==
      Done(Infix(toks[0], IntegerLit(toks[0], 1), "1", Nil),
           Split(Cursor(toks[1], toks[2], []), Cursor(toks[1], EofToken, [Parser.NoPrefixError(Plus)]), 4))
  {
    var s0 := NewParser(toks);
    var one := IntegerLit(toks[0], 1);
    var bad := Infix(toks[0], one, "1", Nil);
    var s2 := Split(Cursor(toks[1], toks[2], []), Cursor(toks[1], EofToken, [Parser.NoPrefixError(Plus)]), 4);
    OnePlusTwoOperand(toks);
    OnePlusTwoRound(toks);
    assert DriverExpr(toks, Parser.Lowest, s0) == DriverLoop(toks, Parser.Lowest, one, s0);
  }

  /** The one round of the driver's loop on `1 + 2`. */
  lemma OnePlusTwoRound(toks: seq<Token>)
    requires toks == OnePlusTwoTokens()
    ensures DriverLoop(toks, Parser.Lowest, IntegerLit(toks[0], 1), NewParser(toks)) ==
      Done(Infix(toks[0], IntegerLit(toks[0], 1), "1", Nil),
           Split(Cursor(toks[1], toks[2], []), Cursor(toks[1], EofToken, [Parser.NoPrefixError(Plus)]), 4))
  {
    var bad := Infix(toks[0], IntegerLit(toks[0], 1), "1", Nil);
    var s2 := Split(Cursor(toks[1], toks[2], []), Cursor(toks[1], EofToken, [Parser.NoPrefixError(Plus)]), 4);
    OnePlusTwoInfix(toks);
    assert Stops(s2.drv.peek, Parser.Lowest);
    assert DriverLoop(toks, Parser.Lowest, bad, s2) == Done(bad, s2);
  }

  lemma OnePlusTwoFirst(toks: seq<Token>)
    requires toks == OnePlusTwoTokens()
    ensures ParseStmt(toks, NewParser(toks)) ==
      Ok(Done(ExprStmt(toks[0], Infix(toks[0], IntegerLit(toks[0], 1), "1", Nil)),
              Split(Cursor(toks[1], toks[2], []), Cursor(toks[1], EofToken, [Parser.NoPrefixError(Plus)]), 4)))
  {
    var s0 := NewParser(toks);
    var one := IntegerLit(toks[0], 1);
    var bad := Infix(toks[0], one, "1", Nil);
    OnePlusTwoExpr(toks);
    assert ParseExprStmt(toks, s0) == Done(ExprStmt(toks[0], bad), DriverExpr(toks, Parser.Lowest, s0).s);
  }

  /** The `2` starts a statement of its own, and `parseIntegerLit` on the
      handler parser reads the `+`: a nil node, and an error nobody
      reads. */
  lemma OnePlusTwoSecond(toks: seq<Token>)
    requires toks == OnePlusTwoTokens()
    ensures var e1 := [Parser.NoPrefixError(Plus)];
      var s3 := Split(Cursor(toks[2], EofToken, []), Cursor(toks[1], EofToken, e1), 5);
      ParseStmt(toks, s3) ==
        Ok(Done(ExprStmt(toks[2], Nil), Split(s3.drv, Cursor(toks[1], EofToken, e1 + [Parser.IntegerError(toks[1])]), 5)))
  {
    var e1 := [Parser.NoPrefixError(Plus)];
    var s3 := Split(Cursor(toks[2], EofToken, []), Cursor(toks[1], EofToken, e1), 5);
    assert GoInt.ParseInt("+") == None;
    assert HandlerView(toks, s3) == [toks[1], EofToken];
  }

  /** The one-state parser on `1 + 2`: `parseInfixExpr` on the `+`. */
  lemma OnePlusTwoOneStateInfix(toks: seq<Token>)
    requires toks == OnePlusTwoTokens()
    ensures Parser.ParseInfixExpr(toks, IntegerLit(toks[0], 1), Parser.PState(1, [])) ==
      Parser.Parsed(Infix(toks[1], IntegerLit(toks[0], 1), "+", IntegerLit(toks[2], 2)), Parser.PState(2, []))
  {
    SmallLiterals();
    var two := IntegerLit(toks[2], 2);
    assert Parser.ParsePrefix(toks, Int, Parser.PState(2, [])) == Parser.Parsed(two, Parser.PState(2, []));
    assert Parser.ParseExpr(toks, Parser.Sum, Parser.PState(2, [])) == Parser.Parsed(two, Parser.PState(2, []));
  }

  lemma OnePlusTwoOneStateExpr(toks: seq<Token>)
    requires toks == OnePlusTwoTokens()
    ensures Parser.ParseExpr(toks, Parser.Lowest, Parser.PState(0, [])) ==
      Parser.Parsed(Infix(toks[1], IntegerLit(toks[0], 1), "+", IntegerLit(toks[2], 2)), Parser.PState(2, []))
  {
    SmallLiterals();
    var one := IntegerLit(toks[0], 1);
    var sum := Infix(toks[1], one, "+", IntegerLit(toks[2], 2));
    assert Parser.ParsePrefix(toks, Int, Parser.PState(0, [])) == Parser.Parsed(one, Parser.PState(0, []));
    OnePlusTwoOneStateInfix(toks);
    assert Parser.ParseInfixLoop(toks, Parser.Lowest, sum, Parser.PState(2, [])) == Parser.Parsed(sum, Parser.PState(2, []));
    assert Parser.ParseInfixLoop(toks, Parser.Lowest, one, Parser.PState(0, [])) == Parser.Parsed(sum, Parser.PState(2, []));
  }

  /** The one-state parser on `1 + 2`: one statement, `(1 + 2)`. */
  lemma OnePlusTwoOneState(toks: seq<Token>)
    requires toks == OnePlusTwoTokens()
    ensures Parser.ParseProgram(toks) ==
      Ok(Parser.ParseResult(Program([ExprStmt(toks[0], Infix(toks[1], IntegerLit(toks[0], 1), "+", IntegerLit(toks[2], 2)))]), []))
  {
    var stmt := ExprStmt(toks[0], Infix(toks[1], IntegerLit(toks[0], 1), "+", IntegerLit(toks[2], 2)));
    OnePlusTwoOneStateExpr(toks);
    assert Parser.ParseStmt(toks, Parser.PState(0, [])) == Ok(Parser.Parsed(stmt, Parser.PState(2, [])));
    assert Parser.ParseStmts(toks, Parser.PState(3, []), [stmt]) == Ok(Parser.ParseResult(Program([stmt]), []));
    assert [] + [stmt] == [stmt];
  }

  lemma OnePlusTwoLoop(toks: seq<Token>)
    requires toks == OnePlusTwoTokens()
    ensures var e1 := [Parser.NoPrefixError(Plus)];
      var bad := ExprStmt(toks[0], Infix(toks[0], IntegerLit(toks[0], 1), "1", Nil));
      var s3 := Split(Cursor(toks[2], EofToken, []), Cursor(toks[1], EofToken, e1), 5);
      ParseStmts(toks, s3, [bad]) == Ok(Parser.ParseResult(Program([bad, ExprStmt(toks[2], Nil)]), []))
  {
    var e1 := [Parser.NoPrefixError(Plus)];
    var s3 := Split(Cursor(toks[2], EofToken, []), Cursor(toks[1], EofToken, e1), 5);
    OnePlusTwoSecond(toks);
    var bad := ExprStmt(toks[0], Infix(toks[0], IntegerLit(toks[0], 1), "1", Nil));
    var two := ExprStmt(toks[2], Nil);
    var s4 := Split(s3.drv, Cursor(toks[1], EofToken, e1 + [Parser.IntegerError(toks[1])]), 5);
    var s5 := Advance(toks, s4);
    assert s5.drv.cur == EofToken && s5.drv.errs == [];
    assert [bad] + [two] == [bad, two];
    assert ParseStmts(toks, s5, [bad] + [two]) == Ok(Parser.ParseResult(Program([bad, two]), []));
  }

  /** `1 + 2`: the infix handler takes the stale `1` as its operator and
      finds no operand, and the `2` becomes a statement of its own.
      `GetErrors` is empty. The one-state parser builds `(1 + 2)`. */
  lemma OnePlusTwo(toks: seq<Token>)
    requires toks == OnePlusTwoTokens()
    ensures ParseProgram(toks) ==
      Ok(Parser.ParseResult(Program([ExprStmt(toks[0], Infix(toks[0], IntegerLit(toks[0], 1), "1", Nil)),
                                     ExprStmt(toks[2], Nil)]), []))
    ensures Parser.ParseProgram(toks) ==
      Ok(Parser.ParseResult(Program([ExprStmt(toks[0], Infix(toks[1], IntegerLit(toks[0], 1), "+", IntegerLit(toks[2], 2)))]), []))
  {
    var bad := ExprStmt(toks[0], Infix(toks[0], IntegerLit(toks[0], 1), "1", Nil));
    var e1 := [Parser.NoPrefixError(Plus)];
    var s2 := Split(Cursor(toks[1], toks[2], []), Cursor(toks[1], EofToken, e1), 4);
    assert Advance(toks, s2) == Split(Cursor(toks[2], EofToken, []), Cursor(toks[1], EofToken, e1), 5);
    OnePlusTwoFirst(toks);
    OnePlusTwoLoop(toks);
    assert [] + [bad] == [bad];
    OnePlusTwoOneState(toks);
  }

  /** `let = x;` up to the `x`: the nil `let` statement, then an
      expression statement on the `=`, which has no prefix function. */
  lemma NilLetFirstTwo(toks: seq<Token>)
    requires toks == [Token(Let, "let"), Token(Eq, "="), Token(Ident, "x"), Token(Semicolon, ";")]
    ensures var e2 := [Parser.PeekError(Ident, Eq), Parser.NoPrefixError(Eq)];
      ParseProgram(toks) ==
        ParseStmts(toks, Split(Cursor(toks[2], toks[3], e2), Cursor(toks[0], toks[1], []), 4), [NilLet, ExprStmt(toks[1], Nil)])
  {
    var s0 := NewParser(toks);
    var e1 := [Parser.PeekError(Ident, Eq)];
    var e2 := e1 + [Parser.NoPrefixError(Eq)];
    var s1 := Split(Cursor(toks[1], toks[2], e1), s0.hnd, 3);
    assert ParseStmt(toks, s0) == Ok(Done(NilLet, s0.(drv := s0.drv.(errs := e1))));
    assert Advance(toks, s0.(drv := s0.drv.(errs := e1))) == s1;
    assert !Parser.HasPrefixFn(Eq);
    assert ParseStmt(toks, s1) == Ok(Done(ExprStmt(toks[1], Nil), s1.(drv := s1.drv.(errs := e2))));
    assert Advance(toks, s1.(drv := s1.drv.(errs := e2))) == Split(Cursor(toks[2], toks[3], e2), s0.hnd, 4);
    assert [] + [NilLet] == [NilLet] && [NilLet] + [ExprStmt(toks[1], Nil)] == [NilLet, ExprStmt(toks[1], Nil)];
    assert ParseProgram(toks) == ParseStmts(toks, s1, [NilLet]);
    assert s0.hnd == Cursor(toks[0], toks[1], []);
    assert e2 == [Parser.PeekError(Ident, Eq), Parser.NoPrefixError(Eq)];
    var s2 := Split(Cursor(toks[2], toks[3], e2), Cursor(toks[0], toks[1], []), 4);
    assert ParseStmts(toks, s1, [NilLet]) == ParseStmts(toks, s2, [NilLet, ExprStmt(toks[1], Nil)]);
  }

  /** `let = x;` as the program parses it: the nil `let` statement is
      kept, and the `x` statement is read by the handler parser, whose
      current token is still the `let`, so it names `let`. */
  lemma NilLetIsKept(toks: seq<Token>)
    requires toks == [Token(Let, "let"), Token(Eq, "="), Token(Ident, "x"), Token(Semicolon, ";")]
    ensures ParseProgram(toks) ==
      Ok(Parser.ParseResult(Program([NilLet, ExprStmt(toks[1], Nil), ExprStmt(toks[2], IdentExpr(Identifier(toks[0], "let")))]),
                            [Parser.PeekError(Ident, Eq), Parser.NoPrefixError(Eq)]))
  {
    var e2 := [Parser.PeekError(Ident, Eq), Parser.NoPrefixError(Eq)];
    var s2 := Split(Cursor(toks[2], toks[3], e2), Cursor(toks[0], toks[1], []), 4);
    NilLetFirstTwo(toks);
    IdentStmtOutcome(toks, s2);
    var idStmt := ExprStmt(toks[2], IdentExpr(Identifier(toks[0], "let")));
    var acc := [NilLet, ExprStmt(toks[1], Nil)];
    var s4 := Advance(toks, Advance(toks, s2));
    assert s4.drv.cur == EofToken && s4.drv.errs == e2;
    assert acc + [idStmt] == [NilLet, ExprStmt(toks[1], Nil), idStmt];
    assert ParseStmts(toks, s4, acc + [idStmt]) == Ok(Parser.ParseResult(Program(acc + [idStmt]), e2));
  }
}

=== FILE: token.dfy ===
/** Token kinds, tokens and the keyword table of the vabna language.

    In the Go program a token kind is a string constant; here it is an
    enumeration whose `Name` is that constant. `NameInjective` shows the
    enumeration loses nothing: two kinds are equal exactly when their
    strings are.
 */
module Token {

  datatype Kind =
    | Illegal | Eof | Plus | Str | Ident | LBracket | RBracket | Colon | Int
    | Eq | EqEq | NotEq | Mul | Div | Minus | Exc | Lt | Gt
    | Semicolon | Comma | LParen | RParen | LBrace | RBrace
    | Holo | Ekti | Tahole
    | Function | Let | True | False | If | Else | Return

  /** The string constant the Go program uses for each kind. */
  function Name(k: Kind): string {
    match k
    case Illegal => "ILLEGAL"
    case Eof => "EOF"
    case Plus => "+"
    case Str => "STRING"
    case Ident => "IDENT"
    case LBracket => "["
    case RBracket => "]"
    case Colon => ":"
    case Int => "INT"
    case Eq => "="
    case EqEq => "=="
    case NotEq => "!="
    case Mul => "*"
    case Div => "/"
    case Minus => "-"
    case Exc => "!"
    case Lt => "<"
    case Gt => ">"
    case Semicolon => ";"
    case Comma => ","
    case LParen => "("
    case RParen => ")"
    case LBrace => "{"
    case RBrace => "}"
    case Holo => "HOLO"
    case Ekti => "EKTI"
    case Tahole => "TAHOLE"
    case Function => "FUNCTION"
    case Let => "LET"
    case True => "TRUE"
    case False => "FALSE"
    case If => "IF"
    case Else => "ELSE"
    case Return => "RETURN"
  }

  /** Distinct kinds have distinct strings, so comparing kinds is comparing
      the Go `TokenType` strings. */
  lemma NameInjective(a: Kind, b: Kind)
    ensures Name(a) == Name(b) <==> a == b
  {
    NameReadsBack(a);
    NameReadsBack(b);
  }

  /** Reading a kind back from its string, by its length and then by the
      characters that tell the kinds of that length apart. */
  function KindNamed(s: string): Kind {
    if |s| == 1 then
      match s[0]
      case '+' => Plus
      case '[' => LBracket
      case ']' => RBracket
      case ':' => Colon
      case '=' => Eq
      case '*' => Mul
      case '/' => Div
      case '-' => Minus
      case '!' => Exc
      case '<' => Lt
      case '>' => Gt
      case ';' => Semicolon
      case ',' => Comma
      case '(' => LParen
      case ')' => RParen
      case '{' => LBrace
      case _ => RBrace
    else if |s| == 2 then
      if s[0] == '=' then EqEq else if s[0] == '!' then NotEq else If
    else if |s| == 3 then
      if s[0] == 'I' then Int else if s[0] == 'E' then Eof else Let
    else if |s| == 4 then
      if s[0] == 'H' then Holo else if s[0] == 'T' then True
      else if s[1] == 'K' then Ekti else Else
    else if |s| == 5 then
      if s[0] == 'I' then Ident else False
    else if |s| == 6 then
      if s[0] == 'S' then Str else if s[0] == 'T' then Tahole else Return
    else if |s| == 7 then Illegal
    else Function
  }

  /** `KindNamed` inverts `Name`. */
  lemma NameReadsBack(k: Kind)
    ensures KindNamed(Name(k)) == k
  {
    if IsOneCharOperator(k) {
      OperatorNameReadsBack(k);
    } else {
      WordNameReadsBack(k);
    }
  }

  lemma OperatorNameReadsBack(k: Kind)
    requires IsOneCharOperator(k)
    ensures KindNamed(Name(k)) == k
  {
  }

  lemma WordNameReadsBack(k: Kind)
    requires !IsOneCharOperator(k)
    ensures KindNamed(Name(k)) == k
  {
  }

  datatype Token = Token(kind: Kind, lit: string)

  /** Kinds whose constant is a single punctuation character. */
  predicate IsOneCharOperator(k: Kind) {
    k in {Plus, Minus, Mul, Div, Eq, Exc, Lt, Gt, Semicolon, Comma,
          LParen, RParen, LBrace, RBrace, LBracket, RBracket, Colon}
  }

  /** For a one-character operator kind the kind string is its own literal
      text, so a token built from the kind's only character carries the
      same text as its type. */
  lemma OneCharOperatorIsItsLiteral(k: Kind)
    requires IsOneCharOperator(k)
    ensures |Name(k)| == 1
    ensures Token(k, Name(k)).lit == Name(k)
    ensures forall j :: IsOneCharOperator(j) && Name(j) == Name(k) ==> j == k
  {
  }

  /** Kinds that a keyword spelling can stand for. */
  predicate IsKeywordKind(k: Kind) {
    k in {Function, Let, True, False, If, Else, Return, Holo, Ekti, Tahole}
  }

  /** The many-to-one keyword table: Bengali script, romanised Bengali and
      English spellings. */
  const Keywords: map<string, Kind> := map[
    "কাজ" := Function,
    "kaj" := Function,
    "fn" := Function,
    "ধরি" := Let,
    "dhori" := Let,
    "let" := Let,
    "সত্য" := True,
    "sotto" := True,
    "মিথ্যা" := False,
    "mittha" := False,
    "যদি" := If,
    "jodi" := If,
    "নাহলে" := Else,
    "nahole" := Else,
    "ফেরাও" := Return,
    "ferau" := Return,
    "হল" := Holo,
    "holo" := Holo,
    "একটি" := Ekti,
    "ekti" := Ekti,
    "তাহলে" := Tahole,
    "tahole" := Tahole
  ]

  /** Every entry of the table is a keyword kind: none is IDENT, INT,
      ILLEGAL or EOF. */
  lemma KeywordValuesAreKeywordKinds()
    ensures forall s :: s in Keywords ==> IsKeywordKind(Keywords[s])
  {
  }

  /** Classifies an identifier: the table's kind for a keyword spelling,
      IDENT for every other string. */
  function LookupIdent(ident: string): (k: Kind)
    ensures k == Ident <==> ident !in Keywords
    ensures k != Ident ==> IsKeywordKind(k) && Keywords[ident] == k
  {
    if ident in Keywords then Keywords[ident] else Ident
  }

  /** The table is many-to-one: LET is reached by exactly these three
      spellings. */
  lemma SpellingsOfLet(s: string)
    ensures LookupIdent(s) == Let <==> s == "ধরি" || s == "dhori" || s == "let"
  {
  }

  /** RETURN is reached by exactly these two spellings. */
  lemma SpellingsOfReturn(s: string)
    ensures LookupIdent(s) == Return <==> s == "ফেরাও" || s == "ferau"
  {
  }

  /** FUNCTION is reached by exactly these three spellings. */
  lemma SpellingsOfFunction(s: string)
    ensures LookupIdent(s) == Function <==> s == "কাজ" || s == "kaj" || s == "fn"
  {
  }

  /** TRUE and FALSE are reached by exactly two spellings each; the
      English words `true` and `false` are plain identifiers. */
  lemma SpellingsOfBooleans(s: string)
    ensures LookupIdent(s) == True <==> s == "সত্য" || s == "sotto"
    ensures LookupIdent(s) == False <==> s == "মিথ্যা" || s == "mittha"
  {
  }
}
